=== FILE: README.md ===
# shoestore_frontend — a Dafny model of the storefront and admin rules

This project models the rules of the shoestore Next.js storefront and its admin console that run in the browser. HTTP calls, storage and rendering are stripped away. Every React state update becomes a pure function from the old state to the new one. The server's answer, the login state, a confirmation dialog and a stored role become plain inputs.

The modules follow the pages of the application:

- **CategoryTree**: the recursive category tree. It has a reference pre-order walk, which records each node with its path. The select-box option list (`Flatten`) is the walk, each node shown with its depth and leaf flag.
- **AddProductPage**, **ProductsPage**, **AdminCategoriesPage**: the three copies of `flattenCategories`. Each copy is a loop with recursion, proved equal to the reference. Also modelled here:
  - the default leaf category;
  - the variant rows and their error keys;
  - the size filter and the product-list query;
  - the new-category dialog.
- **ColorPalette**: the colour table of the add-product form, grouped by first word, and the label-to-colour map behind the variant border colour.
- **AdminProductsPage**: the category breadcrumb (`findPath`, first match in pre-order), the top-level name lookup, and the list requests.
- **Cart**, **Pricing**, **CartPage**, **Checkout**:
  - the cart reducer (add or merge by variant);
  - discounted line totals, the subtotal, and the 50 000 shipping fee waived from 490 000;
  - quantity update with revert, removal, and the checkbox selection;
  - order submission, the cart that remains after it, and the phone digit filter.
- **Header**: the badge count, the visible/hidden category split, the admin flag, logout and the dropdown.
- **Orders**, **AdminOrdersPage**, **CustomerOrdersPage**, **Dashboard**:
  - the order status lifecycle 0..4 and the status tabs;
  - the transitions an admin is offered, and the customer's cancel;
  - order totals with a missing price counted as 0;
  - per-status counts and revenue.
- **RouteGuard**: the middleware's pass-or-redirect decision.
- **LoginPage**, **RegisterForm**: the field rules, the email pattern `^\S+@\S+$`, role extraction, and the server-message handling.
- **HomePage**: the banner carousel and the eight featured products.

Shared modules:

- **Wrappers**: `Option`.
- **Text**: the JavaScript `trim`, `startsWith`, `split(" ")[0]`, `join`, integer `toString` and `parseInt`, written out character by character over unbounded integers.
- **QueryParams**: the `URLSearchParams` list operations `append`, `delete` and `set`, as section 6.2 of the WHATWG URL Standard defines them.

Money is `real`, so there is no floating-point rounding. Quantities and ids are unbounded integers, while the program holds them in double-precision numbers; the differences are listed under "Left out".

Where a comment or a displayed text disagrees with the code, the model follows the code:

- The home page advertises free shipping "từ 499k" (`src/app/page.tsx:34`), but checkout waives the fee from 490 000 (`src/app/checkout/page.tsx:23-24`). `Pricing` uses 490 000.
- The middleware comment says refused visitors go to `/auth/login`, but the code sends them to `/` (`src/middleware.ts:22-27`).
- The dashboard revenue adds up every order, including cancelled ones (`src/app/admin/dashboard/page.tsx:69-73`). An order total is the sum of `item.price` alone. The quantity is not multiplied in (`src/app/admin/orders/page.tsx:139-144`).
- The header stores the raw login user, whose `role` is an array, so `user.role === "ROLE_ADMIN"` never holds after a login. The admin menu comes from the stored `userRole` instead. `Header.AdminFlagAfter` keeps both inputs, and `LoginPage.StoredRoleDrivesAdminMenu` shows that the stored role decides.

## Model

| member | source | states |
|---|---|---|
| CategoryTree.PreOrderCharacterized | src/app/admin/products/add/page.tsx:168-178 | The reference walk lists each node under the path that leads to it. It lists every node of the tree. Its paths are in strict pre-order: a parent comes before its subtree, and siblings come in order. |
| CategoryTree.PreOrderDistinct | src/app/admin/products/add/page.tsx:168-178 | No node is listed twice: two positions of the walk never hold the same path. |
| CategoryTree.FlattenMatchesPreOrder | src/app/admin/products/add/page.tsx:168-178 | The option list has exactly one entry per node. Entry i is node i of the pre-order walk, at the depth of its path, with the leaf flag set iff it has no children. |
| CategoryTree.FlattenLevels | src/app/admin/products/add/page.tsx:168-174 | Root entries sit at the start level. A child's entry is one level below the entry of its parent node. |
| CategoryTree.LastEntryIsLeaf | src/app/admin/products/add/page.tsx:168-178 | The option list of a non-empty tree ends with a leaf, so a leaf always exists. |
| CategoryTree.NodeAtParent | src/app/admin/products/add/page.tsx:168-178 | Following a path passes through the parent path, whose node lists the target among its children. |
| AddProductPage.FlattenCategories | src/app/admin/products/add/page.tsx:168-178 | The page's loop-and-recursion copy of `flattenCategories` returns exactly the reference option list. |
| AddProductPage.FirstLeaf | src/app/admin/products/add/page.tsx:155 | `find(c => c.isLeaf)`: the position of a leaf with no leaf before it, or none exactly when the list has no leaf. |
| AddProductPage.DefaultCategoryId | src/app/admin/products/add/page.tsx:153-158 | The default category is the id of the first leaf in flattened order. Without a leaf, the current value is kept. |
| AddProductPage.DefaultIsALeafOfTheTree | src/app/admin/products/add/page.tsx:153-158 | Loading any non-empty tree selects a node of that tree that has no children. |
| AddProductPage.ChosenCategoryIdOfOption | src/app/admin/products/add/page.tsx:188-192 | Choosing the option of category id stores exactly that id, because `parseInt` reads back what `toString` wrote. |
| AddProductPage.AddVariant | src/app/admin/products/add/page.tsx:194-196 | Adds exactly one blank variant (size "", colour "", stock 0) at the end. The earlier variants are untouched. |
| AddProductPage.RemoveVariant | src/app/admin/products/add/page.tsx:198-209 | Does nothing while one variant is left. Otherwise it drops exactly the row at the index, keeps the rest in order, and deletes exactly the error keys that start with `variants[index]`. Other errors keep their messages. |
| AddProductPage.RemoveUndoesAdd | src/app/admin/products/add/page.tsx:194-209 | Adding a variant and then removing the last row gives back the rows from before. |
| AddProductPage.ErrorKeyBelongsToItsRow | src/app/admin/products/add/page.tsx:202-206 | The key of row i starts with the removal prefix of row j iff i = j. So removing row 1 never clears the errors of row 10. |
| AddProductPage.ChangeVariant | src/app/admin/products/add/page.tsx:211-224 | Only the named field of the indexed row changes. A stock becomes `StockValue` of the typed text: its `parseInt` value, or 0 when that is NaN. All other rows are unchanged. That field's error key is set to "" and the other errors are kept. |
| AddProductPage.StockValue | src/app/admin/products/add/page.tsx:219 | The stock input falls back to 0 after `parseInt`: a parsed number is stored as it is, and NaN gives 0. |
| AddProductPage.StockValueOfNumber | src/app/admin/products/add/page.tsx:219 | A typed stock number is stored as that number. |
| ColorPalette.GroupColors | src/app/admin/products/add/page.tsx:111-119 | The group-building loop computes the reference grouping of the table. |
| ColorPalette.GroupsPartitionTable | src/app/admin/products/add/page.tsx:111-119 | Group names are distinct. Every option sits in the group named by its first word, and every table entry is in that group. |
| ColorPalette.GroupsKeepEveryEntry | src/app/admin/products/add/page.tsx:111-119 | Grouping loses nothing and duplicates nothing: the groups hold as many options as the table has entries. |
| ColorPalette.Assign | src/app/admin/products/add/page.tsx:121-126 | The label map gains exactly the lower-cased labels of the options, added to what it held before. Each key maps to its old value or to the value of an option whose lower-cased label it is. |
| ColorPalette.BorderColor | src/app/admin/products/add/page.tsx:409 | The typed colour is lower-cased before the lookup. A key of the map with a non-empty value gives that value, and an empty value gives `#ccc`. A key the map lacks gives the inherited value for "constructor" and "__proto__", which is not `#ccc`, and `#ccc` otherwise. |
| ColorPalette.InheritedNameIsNotGrey | src/app/admin/products/add/page.tsx:121 | Typing "Constructor" with an empty map does not give the grey border. |
| ColorPalette.ListedColorBorder | src/app/admin/products/add/page.tsx:121-126 | With labels distinct after lower-casing, a colour typed in any case that lower-cases to a table label paints the border in that label's value. |
| ColorPalette.CapitalisedColorBorder | src/app/admin/products/add/page.tsx:409 | Typing "Đỏ" for the table's "đỏ" gives the red border. |
| ColorPalette.UnlistedColorBorder | src/app/admin/products/add/page.tsx:409 | A colour that, after lower-casing, matches no table label and neither inherited name gets the grey `#ccc` border. |
| ProductsPage.FlattenCategories | src/app/products/page.tsx:90-103 | This copy, which always recurses into the child list even when it is empty, returns the same option list as the add-product copy that skips empty child lists. |
| ProductsPage.SizeOptions | src/app/products/page.tsx:48 | There are exactly 13 size options. |
| ProductsPage.SizeOptionsAreSizes | src/app/products/page.tsx:48 | Option i reads as size 33 + i, so the options run 33..45 in ascending order. |
| ProductsPage.SizeOptionsDistinct | src/app/products/page.tsx:48 | No size is offered twice. |
| ProductsPage.ToggleSize | src/app/products/page.tsx:136-141 | A selected size is removed by `Without`, whose order is stated by ProductsPage.WithoutKeepsOrder. An unselected size is added at the end. No other size changes membership. |
| ProductsPage.WithoutKeepsOrder | src/app/products/page.tsx:139 | `prev.filter` keeps the other sizes in their order and number: the empty list stays empty, one size is kept unless it is the removed one, and the filter distributes over concatenation. |
| ProductsPage.ToggleKeepsNoDuplicates | src/app/products/page.tsx:136-141 | Toggling keeps the selection free of duplicates. |
| ProductsPage.ToggleTwiceRestores | src/app/products/page.tsx:136-141 | Toggling an unselected size twice gives back the same list. |
| ProductsPage.ChangeSize | src/app/products/page.tsx:136-141 | A size change toggles the size and returns to page 0. The search and the category are kept. |
| ProductsPage.ChangeCategory | src/app/products/page.tsx:120-134 | The category is set and the page returns to 0. The address gets `categoryId` = the id for a non-zero choice, or loses `categoryId` otherwise. Its other parameters are unchanged. |
| ProductsPage.ChangeSearch | src/app/products/page.tsx:194-196 | Typing a search stores the trimmed term, returns to page 0, keeps the filters, and updates the address exactly as the search hook does. |
| ProductsPage.AppendEach | src/app/products/page.tsx:157-159 | One `sizes` parameter is appended per selected size, in order. No other parameter changes. |
| ProductsPage.RequestCarriesFilters | src/app/products/page.tsx:149-159 | The request carries page, size 12, search, `categoryId` only for a non-zero category, and one `sizes` per selected size in order. |
| ProductsPage.RequestPageReadsBack | src/app/products/page.tsx:150-151 | The `page` parameter reads back as the current page number. |
| AdminCategoriesPage.FlattenCategories | src/app/admin/categories/page.tsx:67-74 | The page's copy returns the reference option list without the leaf flag. |
| AdminCategoriesPage.ParentChoicesCoverTree | src/app/admin/categories/page.tsx:67-74 | There is one parent choice per node, in pre-order. Each has the node's id and name, at depth path length − 1. |
| AdminCategoriesPage.AddEnabled | src/app/admin/categories/page.tsx:170 | The Add button is enabled iff the name has a character that is not white space. |
| AdminCategoriesPage.ChooseParent | src/app/admin/categories/page.tsx:147 | The empty option gives no parent. Any other value gives its `parseInt` result. The name is kept. |
| AdminCategoriesPage.ChooseParentOfOption | src/app/admin/categories/page.tsx:147 | Choosing a category's option makes exactly that id the parent. |
| AdminCategoriesPage.AfterAdd | src/app/admin/categories/page.tsx:42-65 | A successful add closes the dialog and clears the name and the parent. A failed add changes nothing. |
| AdminCategoriesPage.Hide | src/app/admin/categories/page.tsx:123-127 | Hiding the dialog closes it and clears the name and the parent. |
| AdminCategoriesPage.Cancel | src/app/admin/categories/page.tsx:164 | Cancel only closes the dialog. The name and the parent stay. |
| AdminCategoriesPage.ReopenAfterClosing | src/app/admin/categories/page.tsx:123-164 | Reopening after Cancel shows the old input. Reopening after hide or a successful add starts blank, with Add disabled. |
| AdminProductsPage.FindPathFindsFirst | src/app/admin/products/page.tsx:91-104 | No path is found iff no node has the id. Otherwise the path found belongs to the first node with the id in pre-order, and lists the names from the root down to it. |
| AdminProductsPage.FoundPathShape | src/app/admin/products/page.tsx:91-104 | A found path has one name per tree level. It starts at a root's name and ends at the target's name. |
| AdminProductsPage.CategoryPath | src/app/admin/products/page.tsx:106-107 | The breadcrumb is the found path joined with " > ", or "Không xác định" when the id is absent. |
| AdminProductsPage.RootBreadcrumb | src/app/admin/products/page.tsx:90-108 | A root with no earlier node of the same id shows just its own name. |
| AdminProductsPage.PathOrderTotal | src/app/admin/products/page.tsx:92-101 | Any two distinct paths are ordered by pre-order, so "first match" is well defined. |
| AdminProductsPage.CategoryName | src/app/admin/products/page.tsx:119-122 | Only top-level categories are searched. The first match gives its name, and a miss gives "Đang tải...". |
| AdminProductsPage.SearchRequest | src/app/admin/products/page.tsx:111-117 | A new search asks for page 0 with that search term. |
| AdminProductsPage.PageRequestAsWritten | src/app/admin/products/page.tsx:123-125 | As written, paging asks for the page with size 10, and with the default empty search. |
| AdminProductsPage.PagingDropsSearch | src/app/admin/products/page.tsx:123-125 | As written, going to page 1 after searching "nike" sends a different search than the one shown. |
| AdminProductsPage.PageRequest | src/app/admin/products/page.tsx:69-87 | Corrected paging asks for the page with size 10 and the current search term. |
| AdminProductsPage.PagingKeepsSearch | src/app/admin/products/page.tsx:111-125 | Corrected paging keeps the search. Its page 0 is the request a new search makes. |
| Pagination.PageButtons | src/app/admin/products/page.tsx:250-286 | The numbered buttons are pages 0..totalPages − 1, and there are none while there is at most one page. |
| Pagination.ButtonsAreTheValidPages | src/app/admin/orders/page.tsx:210-234 | A page has a button iff it is a valid page. |
| Pagination.GoToPage | src/app/admin/orders/page.tsx:83-87 | A target in 0..totalPages − 1 is taken. Any other target leaves the page unchanged. |
| Pagination.GoToPageStaysValid | src/app/admin/orders/page.tsx:83-87 | From a valid page, no click leaves the valid pages. |
| Pagination.Pager | src/app/admin/products/page.tsx:250-286 | The pager shows iff there is more than one page. Its buttons are the page buttons. |
| Pagination.EnabledArrowsStayInRange | src/app/admin/products/page.tsx:250-286 | When the server's first/last flags match the page number, an arrow is enabled iff it targets an existing page. |
| Search.HandleSearch | src/lib/useSearch.ts:19-36 | The stored term is the trimmed input. A non-blank term makes `search` the only value of that name. A blank term removes `search`. Every other parameter keeps its values. The destination follows `navigate`. |
| Search.TermFromQuery | src/lib/useSearch.ts:13-16 | On load, a non-empty `search` parameter becomes the term. An empty or missing one keeps the term. |
| Search.SearchSurvivesReload | src/lib/useSearch.ts:13-36 | Reloading after a search restores the searched term. |
| Search.SearchIdempotent | src/lib/useSearch.ts:23-29 | Searching again for the stored term changes neither the term nor the parameters. |
| QueryParams.Set | src/lib/useSearch.ts:26 | After `set`, the name has exactly the one new value. Other names keep their values. The list without that name is unchanged. |
| QueryParams.Delete | src/lib/useSearch.ts:28 | After `delete`, no pair has the name. Every other pair stays, and other names keep their values. |
| QueryParams.Append | src/app/products/page.tsx:157-159 | After `append`, the value is added after the name's earlier values. Other names are untouched. |
| QueryParams.SetIdempotent | src/lib/useSearch.ts:23-29 | Setting the same pair twice gives the same list as setting it once. |
| Text.Trim | src/lib/useSearch.ts:20 | The result is the input with white space cut from both ends. It is empty iff the input is all white space. |
| Text.TrimIdempotent | src/lib/useSearch.ts:20 | Trimming a trimmed string changes nothing. |
| Text.FirstWord | src/app/admin/products/add/page.tsx:114 | The result is a prefix of the label with no space in it. It stops at the first space or at the end. |
| Text.IntToStringRoundTrip | src/app/admin/categories/page.tsx:147 | `parseInt` reads back every integer that `toString` renders. |
| Text.LowerCase | src/app/admin/products/add/page.tsx:124 | `toLowerCase` keeps the length and lower-cases each character in place. |
| Text.LowerCaseIdempotent | src/app/admin/products/add/page.tsx:409 | Lower-casing a lower-cased string changes nothing. |
| Text.LowerCaseOfCapitalRed | src/app/admin/products/add/page.tsx:409 | "ĐỎ" and "Đỏ" lower-case to the table's "đỏ". |
| Text.JoinLength | src/app/admin/products/page.tsx:107 | A join holds every piece plus one separator between each neighbouring pair. |
| Cart.AddQuantity | src/context/CartContext.tsx:86-89 | Lines of the variant gain the extra quantity. Every other line and the order are unchanged. |
| Cart.AddToCart | src/context/CartContext.tsx:81-92 | An existing variant keeps the length and gains `item.quantity` without changing any other line. A new variant is appended at the end. |
| Cart.AddToCartKeepsUniqueIds | src/context/CartContext.tsx:83-91 | Adding keeps "no two lines share a variant". |
| Cart.AddToCartTotal | src/components/Header.tsx:37 | With unique variants, the badge total after an add is the total before plus `item.quantity`. |
| Cart.MergePayload | src/context/CartContext.tsx:54-57 | The merge payload has the cart's length and order, and carries only (variantId, quantity). |
| Cart.MergeKeepsQuantity | src/context/CartContext.tsx:54-57 | The payload carries the cart's total quantity. |
| Pricing.LineTotalBounds | src/app/checkout/page.tsx:53-56 | With price ≥ 0, quantity ≥ 0 and discount in 0..100, a line costs between 0 and its undiscounted price. |
| Pricing.SubtotalConcat | src/app/checkout/page.tsx:58-63 | The subtotal of two lists is the sum of their subtotals. |
| Pricing.SubtotalNonNegative | src/app/checkout/page.tsx:58-63 | Well-priced lines never give a negative subtotal. |
| Pricing.ShippingFeeFor | src/app/checkout/page.tsx:65-68 | The fee is 0 or 50 000. It is 0 iff the subtotal is at least 490 000. |
| Pricing.OrderTotal | src/app/checkout/page.tsx:70-74 | The total exceeds the subtotal by 0 or 50 000. It equals the subtotal iff the subtotal reaches 490 000. |
| Pricing.OrderTotalNonNegative | src/app/checkout/page.tsx:70-74 | Well-priced orders never have a negative total. |
| Pricing.OrderTotalCases | src/app/checkout/page.tsx:65-74 | Every total either reaches 490 000 or is the subtotal plus the 50 000 fee. |
| Pricing.AddingAnItemCanLowerTheTotal | src/app/checkout/page.tsx:23-24 | A 480 000 basket costs 530 000, but adding a 10 000 item lowers the total to 490 000. |
| CartPage.SetQuantity | src/app/cart/page.tsx:107-109 | Only the lines of the variant take the new quantity. The length, the order and the other lines are preserved. |
| CartPage.FindLine | src/app/cart/page.tsx:129-135 | The first line of the variant, or none exactly when the variant is absent. |
| CartPage.SetQuantityTwice | src/app/cart/page.tsx:107-109 | A second update overrides the first. |
| CartPage.ClearedBoxPassesGuard | src/app/cart/page.tsx:105 | As written, a cleared box parses to NaN, and NaN passes the `< 1` guard. |
| CartPage.AcceptsQuantity | src/app/cart/page.tsx:105 | The corrected guard accepts only whole numbers ≥ 1. It agrees with the written guard on every number. |
| CartPage.AcceptedQuantityIsPositive | src/app/cart/page.tsx:304-311 | An accepted input parses to a number ≥ 1. Every typed n ≥ 1 is accepted. A cleared box is refused. |
| CartPage.UpdateQuantity | src/app/cart/page.tsx:104-141 | The handler with the corrected guard `AcceptsQuantity` in place of `newQuantity < 1`. A refused input, NaN included, changes nothing. Otherwise the shown lines take the quantity. The cart follows for a guest or on success, and stays on a server failure. The selection is untouched. |
| CartPage.RefusedUpdateRestores | src/app/cart/page.tsx:129-135 | With unique variants, a signed-in update that the server refuses leaves the page exactly as it was. |
| CartPage.UpdateKeepsQuantitiesPositive | src/app/cart/page.tsx:104-141 | With the corrected guard, every line keeps a quantity ≥ 1. |
| CartPage.WithoutVariant | src/app/cart/page.tsx:144 | The lines of the variant go, and all other lines stay. |
| CartPage.WithoutVariantKeepsOrder | src/app/cart/page.tsx:144 | All other lines stay in their order: one line is kept unless it has the variant, and the filter distributes over concatenation. |
| CartPage.RemoveUndoesAdd | src/app/cart/page.tsx:144 | Removing a variant just added to the cart gives back the cart from before. |
| CartPage.RemoveItemAsWritten | src/app/cart/page.tsx:143-161 | As written, the line disappears from the page whatever the server says. The cart follows only for a guest or on success, and the selection is kept. |
| CartPage.RefusedRemovalHidesLine | src/app/cart/page.tsx:143-161 | As written, a refused removal hides a line that the cart still holds. |
| CartPage.RemovedLineStaysSelected | src/app/cart/page.tsx:143-161 | As written, a removed line stays selected, so checkout is enabled with nothing to pay for. |
| CartPage.RemoveItem | src/app/cart/page.tsx:143-161 | Corrected removal: a refused removal changes nothing. A successful removal drops the variant from the page and the cart, and unticks it. |
| CartPage.ToggleSelected | src/app/cart/page.tsx:245-249 | Ticking appends the id. Unticking removes every copy of it and keeps the other ids. |
| CartPage.UntickUndoesTick | src/app/cart/page.tsx:245-249 | Ticking and then unticking an unselected line gives back the same selection. |
| CartPage.SelectedItems | src/app/cart/page.tsx:188-191 | Checkout takes exactly the lines whose variant is selected. |
| CartPage.SelectedItemsKeepOrder | src/app/cart/page.tsx:188-191 | The lines handed to checkout are an order-preserving sublist of the cart: one line is kept iff its variant is ticked, and the filter distributes over concatenation. |
| CartPage.SelectedTotalAtMostTotal | src/app/cart/page.tsx:163-185 | With well-priced lines, the selected total lies between 0 and the full total. |
| CartPage.EnabledCheckoutHasItems | src/app/cart/page.tsx:358 | When the selection names only shown lines, an enabled checkout button has lines to order. |
| CartPage.OperationsKeepSelectionConsistent | src/app/cart/page.tsx:104-161 | Ticking a shown line, unticking, corrected removal and update all keep the selection naming only shown lines. |
| Checkout.OrderLines | src/app/checkout/page.tsx:82-89 | The payload keeps the selection's order and carries only (variantId, quantity). |
| Checkout.Remaining | src/app/checkout/page.tsx:104-106 | The remaining cart holds exactly the lines whose variant was not ordered. |
| Checkout.RemainingKeepsOrder | src/app/checkout/page.tsx:104-106 | The remaining cart is the old cart filtered in order: one line is kept iff its variant was not ordered, and the filter distributes over concatenation. |
| Checkout.Taken | src/app/checkout/page.tsx:104-106 | The complement of the remaining cart: exactly the lines whose variant was ordered. |
| Checkout.OrderSplitsCart | src/app/checkout/page.tsx:104-106 | Remaining and taken lines add up to the cart, in line count and in total quantity. |
| Checkout.Submit | src/app/checkout/page.tsx:76-117 | A missing address or phone sends nothing and changes nothing. Otherwise the payload is sent. On success the selection and the form clear, and the cart becomes `Remaining` of the old cart, whose order Checkout.RemainingKeepsOrder states. On failure nothing changes. |
| Checkout.SubmitTwiceIsRefused | src/app/checkout/page.tsx:76-117 | After an accepted order, submitting again is refused. |
| Checkout.KeepDigits | src/app/checkout/page.tsx:212-214 | The phone keeps exactly the digit characters that were typed. |
| Checkout.KeepDigitsKeepsOrder | src/app/checkout/page.tsx:212-214 | The digits keep their order and repetition: one character is kept iff it is a digit, and the filter distributes over concatenation. |
| Checkout.KeepDigitsIdempotent | src/app/checkout/page.tsx:212-214 | Filtering an already filtered phone changes nothing. |
| Checkout.Cancel | src/app/checkout/page.tsx:46-51 | Cancel empties the selection, the address and the phone, and keeps the cart. Nothing can then be submitted. |
| Header.MaxVisible | src/components/Header.tsx:58 | The number of visible slots is the floor of (width − 100) / 150. |
| Header.SliceIndex | src/components/Header.tsx:59-60 | JavaScript `slice` index: a negative index counts from the end, and every index is clamped to the length. |
| Header.SplitCategoriesAsWritten | src/components/Header.tsx:55-63 | Visible and hidden categories together are the list. From width 100 up, the first ⌊(width − 100)/150⌋ categories are visible. |
| Header.NarrowBarShowsAllButLast | src/components/Header.tsx:58-60 | As written, a bar narrower than 100 shows every category but the last. The corrected split shows none. |
| Header.SplitCategories | src/components/Header.tsx:55-63 | Corrected split: visible and hidden together are the list. The visible ones fit the width, and one more would not. |
| Header.SplitsAgreeOnWideBars | src/components/Header.tsx:55-63 | From width 100 up, both splits are the same. |
| Header.CategoryLink | src/components/Header.tsx:177 | A category link points at the product list. |
| Header.CategoryLinkReadsBack | src/components/Header.tsx:177 | The product list reads back the linked category's id. |
| Header.AdminFlagAfter | src/components/Header.tsx:87-97 | The admin flag is on after the effect iff it was on, or the user's role or the stored role is ROLE_ADMIN. Only logout turns it off. |
| Header.Logout | src/components/Header.tsx:72-86 | A failed logout changes nothing. A successful one signs out, drops the admin flag, empties the cart and removes exactly the four session keys. Other stored entries keep their values. Afterwards the cart context's effect (`src/context/CartContext.tsx:41-46`) writes `"cart"` back as `"[]"` for the signed-out user. That effect is not part of this member. |
| Header.LogoutEndsAdmin | src/components/Header.tsx:72-97 | After logout the admin flag cannot come back from storage, and the badge shows 0. |
| Header.ToggleDropdown | src/components/Header.tsx:100-102 | Each click flips the dropdown. |
| Orders.StatusName | src/app/admin/orders/page.tsx:51-57 | A status has a name iff it is in 0..4. |
| Orders.StatusNamesDistinct | src/app/admin/orders/page.tsx:51-57 | No two statuses share a name. |
| Orders.OrderAmount | src/app/admin/orders/page.tsx:139-144 | An order without items totals 0. Otherwise its total is the item-price sum. |
| Orders.ItemsTotalNonNegative | src/app/orders/page.tsx:153-157 | Non-negative prices give a non-negative total. |
| Orders.UnpricedItemsAddNothing | src/app/orders/page.tsx:153-157 | An item without a price adds 0. |
| Orders.TabFilter | src/app/admin/orders/page.tsx:68 | The "all" tab shows every order. Any other tab shows exactly the orders whose status its key names, through `ByStatus`. |
| Orders.ByStatusKeepsOrder | src/app/admin/orders/page.tsx:68 | A status tab keeps the orders in their order: one order is kept iff its status is the tab's, and the filter distributes over concatenation. |
| Orders.StatusTabShowsItsStatus | src/app/orders/page.tsx:63-65 | The tab of status k shows exactly the orders with status k. |
| Orders.StatusTabsPartition | src/app/orders/page.tsx:54-65 | An order is shown in exactly one status tab. |
| Orders.SetStatus | src/app/admin/orders/page.tsx:75 | Only the order with the id changes, and only its status. |
| Orders.SetStatusTwice | src/app/admin/orders/page.tsx:75 | A second status change overrides the first. |
| AdminOrdersPage.StatusLabel | src/app/admin/orders/page.tsx:137 | A known status shows its name. Any other status shows "Không xác định". |
| AdminOrdersPage.TabActions | src/app/admin/orders/page.tsx:148-203 | A tab offers either no status change or exactly two. |
| AdminOrdersPage.ActionsFollowLifecycle | src/app/admin/orders/page.tsx:148-203 | Every action offered for an order moves it one step forward (0→1→2→3) or cancels it from 0, 1 or 2. |
| AdminOrdersPage.LifecycleHasItsAction | src/app/admin/orders/page.tsx:148-203 | Every forward step and every allowed cancellation is offered on the order's tab. |
| AdminOrdersPage.AllTabHasNoActions | src/app/admin/orders/page.tsx:148-203 | The "all" tab offers no status change and no refund. |
| AdminOrdersPage.UpdateStatus | src/app/admin/orders/page.tsx:70-81 | On success only the order's status changes. On failure the orders stay and the error is set. |
| AdminOrdersPage.ActionMovesOrder | src/app/admin/orders/page.tsx:70-81 | After an accepted action the order leaves its old tab for the tab of its new status. |
| AdminOrdersPage.TotalPagesOf | src/app/admin/orders/page.tsx:40 | A missing or zero page count becomes 1. |
| AdminOrdersPage.Request | src/app/admin/orders/page.tsx:35-37 | The list request carries the page, size 10 and the search. |
| AdminOrdersPage.GoTo | src/app/admin/orders/page.tsx:83-87 | Paging moves only to valid pages and keeps the search. |
| AdminOrdersPage.Loaded | src/app/admin/orders/page.tsx:30-46 | A response replaces the orders and the page count and clears the error. A failure sets the error. |
| AdminOrdersPage.ChangeSearchAsWritten | src/app/admin/orders/page.tsx:94-100 | As written, a new search is requested on the current page. |
| AdminOrdersPage.SearchFromLaterPageStrands | src/app/admin/orders/page.tsx:94-100 | As written, a search from the third of three pages asks for that page again. When the matches fit on one page, that page does not exist and the pager is hidden. |
| AdminOrdersPage.ChangeSearch | src/app/admin/orders/page.tsx:94-100 | A corrected search asks for page 0 and keeps the orders and the tab. |
| AdminOrdersPage.SearchRequestsAnExistingPage | src/app/admin/orders/page.tsx:30-100 | After a corrected search the current page is a valid page of the response. |
| CustomerOrdersPage.StatusLabel | src/app/orders/page.tsx:149 | A known status shows its name. Any other status shows nothing. |
| CustomerOrdersPage.CancelOrder | src/app/orders/page.tsx:67-89 | A declined confirmation or a failed request changes nothing. A success sets exactly that order's status to 4. |
| CustomerOrdersPage.CustomerCancelFollowsLifecycle | src/app/orders/page.tsx:161 | A customer may cancel only where the admin lifecycle allows it. Shipping orders are left to the admin. |
| CustomerOrdersPage.CancelledOrderMovesToItsTab | src/app/orders/page.tsx:67-89 | A cancelled order can no longer be cancelled and shows in the cancelled tab. |
| CustomerOrdersPage.CancelIdempotent | src/app/orders/page.tsx:67-89 | Cancelling twice is cancelling once. |
| Dashboard.CountIsTabSize | src/app/admin/dashboard/page.tsx:76-83 | The count of a status is the size of that status's tab. |
| Dashboard.StatusCounts | src/app/admin/dashboard/page.tsx:76-83 | There are five counts, and entry k is the number of orders with status k. |
| Dashboard.CountsAddUp | src/app/admin/dashboard/page.tsx:76-83 | When every status is in 0..4, the counts add up to the number of orders. |
| Dashboard.Revenue | src/app/admin/dashboard/page.tsx:69-73 | The revenue is undefined exactly when some order has no item list, where the page would throw. |
| Dashboard.RevenueMatchesLists | src/app/admin/dashboard/page.tsx:69-73 | Otherwise the revenue is the sum of the order totals the order list shows. |
| Dashboard.RevenueSplitsByStatus | src/app/admin/dashboard/page.tsx:69-83 | When every status is in 0..4, the revenue is the sum of the revenues of the five status tabs. |
| RouteGuard.PatternEntriesAreSubsumed | src/middleware.ts:8-17 | A path is protected iff it starts with "/user" or "/orders", and admin-only iff it starts with "/admin". The ":path*" entries never matter. |
| RouteGuard.GuardTo | src/middleware.ts:23-38 | The request passes iff it is admitted. A redirect keeps the query and sets `redirect` to the path. |
| RouteGuard.Guard | src/middleware.ts:4-39 | A protected path without a role cookie, or an admin path without ROLE_ADMIN, is redirected to "/". Everything else passes. |
| RouteGuard.RedirectRemembersThePath | src/middleware.ts:24-27 | A redirect's `redirect` parameter is the requested path. Other parameters keep their values. |
| RouteGuard.RedirectMissesSignIn | src/middleware.ts:24-27 | As written, a visitor to /orders is sent to "/", which is not the sign-in page. |
| RouteGuard.GuardToSignIn | src/middleware.ts:23-36 | A corrected guard admits the same requests but redirects to /login, remembering the path. |
| RouteGuard.WhoPasses | src/middleware.ts:16-38 | An admin passes everywhere. A signed-in user passes iff the path is not admin-only. |
| RouteGuard.PrefixTestMeansSegment | src/middleware.ts:41-55 | On the paths the matcher selects, a path is protected iff it is not an admin path. |
| LoginPage.EmailPatternOk | src/app/login/page.tsx:133 | The left-to-right scan agrees with `^\S+@\S+$`. |
| LoginPage.ScanMatchesPattern | src/app/login/page.tsx:133 | The pattern holds iff there is no white space and some '@' has a character on each side. |
| LoginPage.EmailRuleError | src/app/login/page.tsx:130-136 | No rule message iff the email is non-empty and matches. An empty email gets the "required" message. |
| LoginPage.PasswordRuleError | src/app/login/page.tsx:153-155 | No message iff the password is non-empty. |
| LoginPage.EmailError | src/app/login/page.tsx:35-64 | The email message after the last keystroke and the existence check. An empty email shows the "required" message. Before the server answers, the rule message shows. An "unknown" answer replaces any message with "Email không tồn tại trong hệ thống!". A "known" answer clears it, even for a malformed address. |
| LoginPage.ServerAnswerOverridesPattern | src/app/login/page.tsx:40-47 | For the malformed "abc", the pattern message shows until the server answers. Then "unknown" shows the unknown-email message, and "known" shows none. |
| LoginPage.ButtonEnabled | src/app/login/page.tsx:172 | Right after the existence check answers, the button is enabled iff the email is non-empty and matches the pattern, the password is non-empty, and the server did not say "unknown" (`setError` makes `isValid` false). |
| LoginPage.SendsRequest | src/app/login/page.tsx:66-74 | The request is sent iff the registered rules pass (`handleSubmit`) and `errors.email` holds no message when line 68 reads it. |
| LoginPage.UnknownEmailIsStoppedAtSubmit | src/app/login/page.tsx:68 | For a well-formed address the server does not know, the button is disabled. If the unknown-email message is still in `errors` at submit, line 68 returns before the request. A known address enables the button and is sent. |
| LoginPage.RoleOf | src/app/login/page.tsx:81 | The stored role is the first authority, or "" when there is none. |
| LoginPage.StoredRoleDrivesAdminMenu | src/app/login/page.tsx:85 | Logging in with ROLE_ADMIN first turns the admin menu on from storage. |
| LoginPage.SignInError | src/app/login/page.tsx:89 | The sign-in error is never empty. It is the server's message when there is a non-empty one, and "Sai mật khẩu!" when the data is absent or empty. |
| LoginPage.RedirectParam | src/app/login/page.tsx:22 | The page reads `redirect` from its query, or "" when it is absent. |
| LoginPage.SignInReturnsToRequestedPage | src/app/login/page.tsx:22-87 | A visitor the corrected guard turns away lands on /login, and the page reads back the path they asked for. |
| RegisterForm.Validate | src/app/register/form.tsx:15-25 | Each field has no message iff its rule holds, with the exact message of the first failing check: the "required" message for an empty field, then the malformed-email or too-short message. A confirmation mismatch is reported on confirmPassword. |
| RegisterForm.EnabledMeansAcceptable | src/app/register/form.tsx:209 | Submit is enabled iff every rule holds. |
| RegisterForm.ServerMessage | src/app/register/form.tsx:95-111 | Success shows the success text. A list error shows its messages joined with ", ". A non-empty text error shows itself. No error body or an empty text shows the failure text. |
| RegisterForm.ListMessageShowsAll | src/app/register/form.tsx:102-103 | A list of errors is shown joined with ", ": every message, with one separator between each pair. |
| HomePage.JsRem | src/app/page.tsx:116 | JavaScript `%`: it agrees with the mathematical remainder on non-negative numbers. On negative ones it is the remainder in (-n, 0] that differs from the dividend by a multiple of n, so -4 % 3 is -1. |
| HomePage.NextBanner | src/app/page.tsx:122 | The next banner index stays in 0..2. |
| HomePage.PrevBanner | src/app/page.tsx:116 | The previous banner index stays in 0..2. |
| HomePage.PrevNextInverse | src/app/page.tsx:116-122 | Previous undoes next, and next undoes previous. |
| HomePage.TimerCycles | src/app/page.tsx:61-63 | The timer visits 0, 1, 2 and returns to the start after three ticks. |
| HomePage.OffsetIsNeeded | src/app/page.tsx:116 | Without the `+ banners.length`, "previous" from banner 0 would give −1. |
| HomePage.Featured | src/app/page.tsx:75 | At most the first eight products are shown, in order. |

## Left out

- HTTP, cookies, `localStorage`, the router and history navigation are not modelled. They are external I/O. Their outcome (success or failure, a stored value, the parsed query) is an input.
- React rendering, effects, timers, the debounce, alerts, `console` output, locale and currency formatting and `toFixed` are not modelled. They are presentation and timing.
- The cart enrichment fetches (`src/app/cart/page.tsx:31-102`) are not modelled. They are I/O. The page state starts from the enriched lines.
- The URL-to-state sync of the product list (`src/app/products/page.tsx:52-70`) is not modelled. It uses `Number()` on query text, and the filters are inputs instead.
- zod's `.email()` check is not modelled. It is a foreign library, and `RegisterForm.Validate` takes its verdict as the input `emailWellFormed`.
- The register page's debounced checks that the email and username are still free are not modelled. They are I/O.
- RegisterForm.Validate: lengths are counted in Dafny characters, while JavaScript counts UTF-16 units. The two differ only for characters outside the Basic Multilingual Plane.
- The `maxLength` attribute of the phone input is not modelled. It is an HTML constraint, not page logic.
- ColorPalette.ListedColorBorder, ColorPalette.CapitalisedColorBorder: both lemmas assume the table's labels are distinct after lower-casing. They do not prove this for the 71-entry table literal.
- ColorPalette.BorderColor, ColorPalette.UnlistedColorBorder: the inherited names "constructor" and "__proto__" are the only `Object.prototype` properties whose names are all lower case, so only they can match a lower-cased colour. For them the model gives the text `'' + value` produces, assuming V8's rendering of the native `Object` function. What the browser then does with that invalid CSS colour is not modelled.
- Text.LowerCase: only the Latin letters are lower-cased: ASCII, Latin-1, Latin Extended-A, `Ơ`, `Ư` and Latin Extended Additional, which covers every Vietnamese letter. Capitals of other scripts (Greek, Cyrillic and so on) are left as they are, and so is `İ` (U+0130), which JavaScript turns into two characters.
- The hard-coded chart data of the dashboard is not modelled. It has no logic.
- Dashboard.StatusCounts: a status outside 0..4 is ignored. The source would write `NaN` at that index.
- AddProductPage.RemoveVariant: the source does not renumber the error keys of later rows after a removal, and neither does the model. Those messages stay under their old row numbers. Nothing is proved about them.
- AddProductPage.ChosenCategoryIdOfOption: the source also clears the `categoryId` error message. This is not modelled.
- LoginPage.EmailError: a check that is still in flight when the form is submitted is not modelled. Its answer is an input. An answer for an earlier value that arrives after a later keystroke is not modelled either.
- LoginPage.ButtonEnabled, LoginPage.SendsRequest, LoginPage.UnknownEmailIsStoppedAtSubmit: react-hook-form's validity bookkeeping is simplified to two documented facts. `setError` forces `isValid` to false, and `handleSubmit` calls `onSubmit` only when the registered rules pass. `ButtonEnabled` describes the moment right after the check answers. A later keystroke in another field makes `isValid` follow the rules alone again, and this is not modelled. Which email message `handleSubmit` leaves in `errors` when line 68 reads it depends on the library's internals, so it is the input `emailErrorAtSubmit`.
- Text.IntToString, Text.ParseInt: the model works on unbounded integers. The program's numbers are doubles, so `toString` writes 1e21 and above in exponent form ("1e+21", which `parseInt` reads as 1), and `parseInt` rounds values above 2^53 to the nearest double ("9007199254740993" gives 9007199254740992). Text.IntToStringRoundTrip therefore holds in the program only for integers of magnitude below 2^53. Ids, quantities and page numbers stay far below that.
- `src/context/AuthContext.tsx`, `src/lib/api.ts`, the layout, the footer and the admin home page have no logic of their own. They are not part of this model.

## Findings

| source | as written | input that shows it | evidently intended | confidence | as-written member | corrected member |
|---|---|---|---|---|---|---|
| src/app/admin/products/page.tsx:123-125 | `goToPage(page)` calls `fetchProducts(page)`, so the search term falls back to "" | search "nike", then click page 2 | paging keeps the search the list is showing | high; not executed | AdminProductsPage.PageRequestAsWritten, AdminProductsPage.PagingDropsSearch | AdminProductsPage.PageRequest, AdminProductsPage.PagingKeepsSearch |
| src/app/cart/page.tsx:105 | the guard `newQuantity < 1` is false for `NaN` | clear the quantity box: `parseInt("")` is `NaN`, which is stored and sent | only whole quantities ≥ 1 are accepted | high; not executed | CartPage.ClearedBoxPassesGuard | CartPage.AcceptsQuantity, CartPage.UpdateQuantity, CartPage.UpdateKeepsQuantitiesPositive |
| src/app/cart/page.tsx:143-161 | the line is filtered out of the page before the server answers, and never restored | a signed-in removal that the server refuses | a refused removal leaves the page as it was, as the quantity update does | medium; not executed | CartPage.RemoveItemAsWritten, CartPage.RefusedRemovalHidesLine | CartPage.RemoveItem |
| src/app/cart/page.tsx:143-161 | removal leaves the variant in `selectedItems`, and the button checks only `selectedItems.length` (line 358) | tick a line, then remove it | a removed line is unticked, so checkout is enabled only with lines to order | medium; not executed | CartPage.RemoveItemAsWritten, CartPage.RemovedLineStaysSelected | CartPage.RemoveItem, CartPage.EnabledCheckoutHasItems, CartPage.OperationsKeepSelectionConsistent |
| src/app/admin/orders/page.tsx:94-100 | a new search keeps the current page | on page 3 of 3, search for a term with one page of results | a new search starts at page 0 | medium; not executed | AdminOrdersPage.ChangeSearchAsWritten, AdminOrdersPage.SearchFromLaterPageStrands | AdminOrdersPage.ChangeSearch, AdminOrdersPage.SearchRequestsAnExistingPage |
| src/components/Header.tsx:58-60 | a width below 100 gives a negative `maxVisible`, and `slice` counts it from the end | three categories in a bar 0 wide: two are shown | no category is shown when none fits | low; not executed | Header.SplitCategoriesAsWritten, Header.NarrowBarShowsAllButLast | Header.SplitCategories, Header.SplitsAgreeOnWideBars |
| src/middleware.ts:24-27 | refused visitors go to "/" with `redirect`, but only the sign-in page reads `redirect` | a visitor without a role cookie opens /orders | the visitor is sent to /login and returns to /orders after signing in | medium; not executed | RouteGuard.Guard, RouteGuard.RedirectMissesSignIn | RouteGuard.GuardToSignIn, LoginPage.SignInReturnsToRequestedPage |

=== FILE: add_product.dfy ===
/**
 * The state rules of the admin "add product" form: its copy of the category
 * flattening, the default category, and the editable list of variants with the
 * per-field error messages keyed `variants[<index>].<field>`.
 */
module AddProductPage {
  import opened Wrappers
  import opened CategoryTree
  import opened Text

  /**
   * This page's copy of `flattenCategories`: each category is pushed with its
   * level and leaf flag, and its subtree is concatenated only when it has children.
   */
  method FlattenCategories(categories: seq<Category>, level: int) returns (result: seq<FlatCategory>)
    ensures result == Flatten(categories, level)
    decreases categories
  {
    result := [];
    var i := 0;
    while i < |categories|
      invariant 0 <= i <= |categories|
      invariant result == Flatten(categories[..i], level)
    {
      var cat := categories[i];
      var isLeaf := |cat.children| == 0;
      result := result + [FlatCategory(cat.id, cat.name, level, isLeaf)];
      if |cat.children| > 0 {
        var sub := FlattenCategories(cat.children, level + 1);
        result := result + sub;
      }
      assert categories[..i + 1] == categories[..i] + [cat];
      FlattenSnoc(categories[..i], cat, level);
      i := i + 1;
    }
    assert categories[..|categories|] == categories;
  }

  /** `flattened.find(c => c.isLeaf)`, as a position. */
  function FirstLeaf(flattened: seq<FlatCategory>): (r: Option<nat>)
    ensures r.Some? ==>
      r.value < |flattened| && flattened[r.value].isLeaf
      && forall j :: 0 <= j < r.value ==> !flattened[j].isLeaf
    ensures r.None? <==> forall j :: 0 <= j < |flattened| ==> !flattened[j].isLeaf
  {
    if |flattened| == 0 then None
    else if flattened[0].isLeaf then Some(0)
    else match FirstLeaf(flattened[1..])
      case Some(k) => Some(k + 1)
      case None => None
  }

  /** The category id the form starts with once the tree arrives: the first leaf's id, else the current value. */
  function DefaultCategoryId(flattened: seq<FlatCategory>, current: string): (r: string)
    ensures (forall j :: 0 <= j < |flattened| ==> !flattened[j].isLeaf) ==> r == current
    ensures (exists j :: 0 <= j < |flattened| && flattened[j].isLeaf) ==>
      exists k :: 0 <= k < |flattened| && flattened[k].isLeaf
        && (forall j :: 0 <= j < k ==> !flattened[j].isLeaf)
        && r == IntToString(flattened[k].id)
  {
    match FirstLeaf(flattened)
    case Some(k) => IntToString(flattened[k].id)
    case None => current
  }

  /** Loading any non-empty tree selects a leaf category: one that has no sub-categories. */
  lemma DefaultIsALeafOfTheTree(tree: seq<Category>, current: string)
    requires |tree| > 0
    ensures exists i ::
      && 0 <= i < |PreOrder(tree)|
      && |PreOrder(tree)[i].node.children| == 0
      && DefaultCategoryId(Flatten(tree, 0), current) == IntToString(PreOrder(tree)[i].node.id)
  {
    var flat := Flatten(tree, 0);
    LastEntryIsLeaf(tree, 0);
    FlattenMatchesPreOrder(tree, 0);
    var k := FirstLeaf(flat).value;
    assert flat[k].isLeaf;
  }

  /** The category select: `parseInt(value).toString()`. */
  function ChosenCategoryId(value: string): string {
    match ParseInt(value)
    case Int(n) => IntToString(n)
    case NaN => "NaN"
  }

  /** Choosing an option stores exactly that option's id. */
  lemma ChosenCategoryIdOfOption(id: int)
    ensures ChosenCategoryId(IntToString(id)) == IntToString(id)
  {
    IntToStringRoundTrip(id);
  }

  // ------------------------------------------------------------ variants

  datatype Variant = Variant(size: string, color: string, stock: int)

  datatype VariantField = Size | Color | Stock

  /** The variant rows and the error messages shown under their inputs. */
  datatype VariantForm = VariantForm(variants: seq<Variant>, errors: map<string, string>)

  const BlankVariant := Variant("", "", 0)

  /** The form opens with one blank variant. */
  const InitialVariants := [BlankVariant]

  function FieldName(field: VariantField): string {
    match field
    case Size => "size"
    case Color => "color"
    case Stock => "stock"
  }

  /** The prefix `variants[<index>]` shared by every error key of one variant. */
  function VariantKeyPrefix(index: int): string {
    "variants[" + IntToString(index) + "]"
  }

  /** The error key `variants[<index>].<field>`. */
  function ErrorKey(index: int, field: VariantField): string {
    VariantKeyPrefix(index) + "." + FieldName(field)
  }

  /** "Add variant": one blank row at the end. */
  function AddVariant(variants: seq<Variant>): (r: seq<Variant>)
    ensures |r| == |variants| + 1
    ensures r[..|variants|] == variants
    ensures r[|variants|] == BlankVariant
  {
    variants + [BlankVariant]
  }

  /** `prev.filter((_, i) => i !== index)`, with `offset` the position of `vs[0]`. */
  function DropPosition(vs: seq<Variant>, index: int, offset: int): (r: seq<Variant>)
    ensures offset <= index < offset + |vs| ==>
      r == vs[..index - offset] + vs[index - offset + 1..]
    ensures !(offset <= index < offset + |vs|) ==> r == vs
  {
    if |vs| == 0 then []
    else if offset == index then
      var rest := DropPosition(vs[1..], index, offset + 1);
      assert rest == vs[1..];
      rest
    else
      var rest := DropPosition(vs[1..], index, offset + 1);
      assert offset <= index < offset + |vs| ==> vs[1..][..index - offset - 1] == vs[1..index - offset];
      [vs[0]] + rest
  }

  /**
   * "Remove variant": ignored while only one variant is left; otherwise the row
   * at `index` goes and so does every error whose key starts with `variants[index]`.
   */
  function RemoveVariant(form: VariantForm, index: int): (r: VariantForm)
    ensures |form.variants| <= 1 ==> r == form
    ensures |form.variants| > 1 && 0 <= index < |form.variants| ==>
      r.variants == form.variants[..index] + form.variants[index + 1..]
    ensures |form.variants| > 1 && !(0 <= index < |form.variants|) ==> r.variants == form.variants
    ensures |form.variants| > 1 ==>
      (forall k :: k in r.errors <==> k in form.errors && !StartsWith(k, VariantKeyPrefix(index)))
      && (forall k :: k in r.errors ==> r.errors[k] == form.errors[k])
  {
    if |form.variants| > 1 then
      var kept := map k | k in form.errors && !StartsWith(k, VariantKeyPrefix(index)) :: form.errors[k];
      VariantForm(DropPosition(form.variants, index, 0), kept)
    else form
  }

  /** The stock input: `parseInt(value) || 0`, so anything that does not start with a number gives 0. */
  function StockValue(value: string): (r: int)
    ensures ParseInt(value).Int? ==> r == ParseInt(value).value
    ensures ParseInt(value).NaN? ==> r == 0
  {
    match ParseInt(value)
    case Int(n) => n
    case NaN => 0
  }

  /** A typed stock number is stored as that number. */
  lemma StockValueOfNumber(n: int)
    ensures StockValue(IntToString(n)) == n
  {
    IntToStringRoundTrip(n);
  }

  function SetField(v: Variant, field: VariantField, value: string): Variant {
    match field
    case Size => v.(size := value)
    case Color => v.(color := value)
    case Stock => v.(stock := StockValue(value))
  }

  /**
   * Editing one input of one row: only that field of that row changes, and its
   * error message is cleared to "".
   */
  function ChangeVariant(form: VariantForm, index: int, field: VariantField, value: string): (r: VariantForm)
    requires 0 <= index < |form.variants|
    ensures |r.variants| == |form.variants|
    ensures forall j :: 0 <= j < |form.variants| && j != index ==> r.variants[j] == form.variants[j]
    ensures field == Size ==> r.variants[index] == form.variants[index].(size := value)
    ensures field == Color ==> r.variants[index] == form.variants[index].(color := value)
    ensures field == Stock ==>
      && r.variants[index].size == form.variants[index].size
      && r.variants[index].color == form.variants[index].color
      && r.variants[index].stock == StockValue(value)
      && (ParseInt(value).NaN? ==> r.variants[index].stock == 0)
    ensures r.errors.Keys == form.errors.Keys + {ErrorKey(index, field)}
    ensures r.errors[ErrorKey(index, field)] == ""
    ensures forall k :: k in form.errors && k != ErrorKey(index, field) ==> r.errors[k] == form.errors[k]
  {
    var v := form.variants[index];
    VariantForm(form.variants[index := SetField(v, field, value)], form.errors[ErrorKey(index, field) := ""])
  }

  /** Adding a row and removing it again gives back the rows before. */
  lemma RemoveUndoesAdd(form: VariantForm)
    requires |form.variants| >= 1
    ensures RemoveVariant(form.(variants := AddVariant(form.variants)), |form.variants|).variants == form.variants
  {
  }

  /**
   * The error key of row `i` starts with the removal prefix of row `j` exactly
   * when `i == j`: removing row 1 never touches the errors of row 10.
   */
  lemma ErrorKeyBelongsToItsRow(i: nat, j: nat, field: VariantField)
    ensures StartsWith(ErrorKey(i, field), VariantKeyPrefix(j)) <==> i == j
  {
    var si := IntToString(i);
    var sj := IntToString(j);
    var key := ErrorKey(i, field);
    var pre := VariantKeyPrefix(j);
    assert key == "variants[" + si + "]" + "." + FieldName(field);
    assert pre == "variants[" + sj + "]";
    assert forall k :: 0 <= k < |si| ==> key[9 + k] == si[k];
    assert key[9 + |si|] == ']';
    assert forall k :: 0 <= k < |sj| ==> pre[9 + k] == sj[k];
    assert pre[9 + |sj|] == ']';
    if i == j {
      assert key == pre + ("." + FieldName(field));
      assert key[..|pre|] == pre;
    } else if StartsWith(key, pre) {
      assert forall k :: 0 <= k < |pre| ==> key[k] == pre[k];
      if |sj| == |si| {
        forall k | 0 <= k < |si|
          ensures si[k] == sj[k]
        {
          assert key[9 + k] == si[k];
          assert pre[9 + k] == sj[k];
        }
        assert si == sj;
        IntToStringInjective(i, j);
      }
    }
  }
}

=== FILE: admin_categories.dfy ===
/**
 * The admin category screen: its copy of the category flattening (without the
 * leaf flag) that fills the parent select, and the "new category" dialog with
 * its name, parent, enabled Add button and the ways it closes.
 */
module AdminCategoriesPage {
  import opened Wrappers
  import opened Text
  import opened CategoryTree

  /** An entry of the parent select: id, name and depth. */
  datatype IndentedCategory = IndentedCategory(id: int, name: string, level: int)

  function Indented(c: FlatCategory): IndentedCategory {
    IndentedCategory(c.id, c.name, c.level)
  }

  function IndentedAll(cs: seq<FlatCategory>): (r: seq<IndentedCategory>)
    ensures |r| == |cs|
    ensures forall i :: 0 <= i < |cs| ==> r[i] == Indented(cs[i])
  {
    if |cs| == 0 then [] else [Indented(cs[0])] + IndentedAll(cs[1..])
  }

  lemma IndentedAllConcat(a: seq<FlatCategory>, b: seq<FlatCategory>)
    ensures IndentedAll(a + b) == IndentedAll(a) + IndentedAll(b)
  {
  }

  /** One more top-level category adds its own entry and then its indented subtree. */
  lemma IndentedSnoc(f: seq<Category>, c: Category, level: int)
    ensures IndentedAll(Flatten(f + [c], level))
      == IndentedAll(Flatten(f, level)) + [IndentedCategory(c.id, c.name, level)] + IndentedAll(Flatten(c.children, level + 1))
  {
    FlattenSnoc(f, c, level);
    IndentedAllConcat(Flatten(f, level) + [Entry(c, level)], Flatten(c.children, level + 1));
    IndentedAllConcat(Flatten(f, level), [Entry(c, level)]);
  }

  /**
   * This page's copy of `flattenCategories`: the same pre-order list as every
   * other page, each entry without its leaf flag.
   */
  method FlattenCategories(categories: seq<Category>, level: int) returns (result: seq<IndentedCategory>)
    ensures result == IndentedAll(Flatten(categories, level))
    decreases categories
  {
    result := [];
    var i := 0;
    while i < |categories|
      invariant 0 <= i <= |categories|
      invariant result == IndentedAll(Flatten(categories[..i], level))
    {
      var cat := categories[i];
      result := result + [IndentedCategory(cat.id, cat.name, level)];
      var sub := FlattenCategories(cat.children, level + 1);
      result := result + sub;
      assert categories[..i + 1] == categories[..i] + [cat];
      IndentedSnoc(categories[..i], cat, level);
      i := i + 1;
    }
    assert categories[..|categories|] == categories;
  }

  /** The parent select offers every category of the tree, each once, at its depth. */
  lemma ParentChoicesCoverTree(tree: seq<Category>, i: nat)
    requires i < |PreOrder(tree)|
    ensures |IndentedAll(Flatten(tree, 0))| == |PreOrder(tree)| == Count(tree)
    ensures IndentedAll(Flatten(tree, 0))[i]
      == IndentedCategory(PreOrder(tree)[i].node.id, PreOrder(tree)[i].node.name, |PreOrder(tree)[i].path| - 1)
  {
    FlattenMatchesPreOrder(tree, 0);
  }

  /** The "new category" dialog. */
  datatype Dialog = Dialog(open: bool, name: string, parent: Option<NumberOrNaN>)

  const ClosedBlank := Dialog(false, "", None)

  /** "Add category" opens the dialog with whatever it last held. */
  function Open(d: Dialog): Dialog {
    d.(open := true)
  }

  /** The Add button is enabled exactly when the name has a character that is not white space. */
  function AddEnabled(d: Dialog): (r: bool)
    ensures r <==> !AllSpace(d.name)
  {
    Trim(d.name) != ""
  }

  /** The parent select: the empty option means no parent, any other value goes through `parseInt`. */
  function ChooseParent(d: Dialog, value: string): (r: Dialog)
    ensures value == "" ==> r.parent == None
    ensures value != "" ==> r.parent == Some(ParseInt(value))
    ensures r.open == d.open && r.name == d.name
  {
    d.(parent := if value != "" then Some(ParseInt(value)) else None)
  }

  /** Choosing a category of the select makes exactly that category the parent. */
  lemma ChooseParentOfOption(d: Dialog, id: int)
    ensures ChooseParent(d, IntToString(id)).parent == Some(Int(id))
  {
    IntToStringRoundTrip(id);
  }

  /** The request body: the name exactly as typed (not trimmed) and the parent. */
  function AddRequest(d: Dialog): (string, Option<NumberOrNaN>) {
    (d.name, d.parent)
  }

  /** After the add request: on success the dialog closes and forgets its input; on failure nothing changes. */
  function AfterAdd(d: Dialog, succeeded: bool): (r: Dialog)
    ensures succeeded ==> r == ClosedBlank
    ensures !succeeded ==> r == d
  {
    if succeeded then Dialog(false, "", None) else d
  }

  /** Closing with the corner button or outside: the dialog forgets its input. */
  function Hide(d: Dialog): (r: Dialog)
    ensures r == ClosedBlank
  {
    Dialog(false, "", None)
  }

  /** The Cancel button only closes the dialog; name and parent stay. */
  function Cancel(d: Dialog): (r: Dialog)
    ensures !r.open && r.name == d.name && r.parent == d.parent
  {
    d.(open := false)
  }

  /** Reopening after Cancel shows the same input again; reopening after Hide or a successful add starts blank. */
  lemma ReopenAfterClosing(d: Dialog)
    ensures Open(Cancel(d)) == d.(open := true)
    ensures Open(Hide(d)) == Open(AfterAdd(d, true)) == Dialog(true, "", None)
    ensures !AddEnabled(Open(Hide(d)))
  {
  }
}

=== FILE: admin_orders.dfy ===
/**
 * The admin order list: status tabs, the action buttons each tab offers,
 * the status update, the phone-number search and the page navigation. The
 * outcome of each server request is an input.
 */
module AdminOrdersPage {
  import opened Wrappers
  import opened Text
  import opened Orders
  import opened Pagination

  /** The status column: the status name, or "Không xác định" for an unknown code. */
  function StatusLabel(status: int): (r: string)
    ensures Pending <= status <= Cancelled ==> Some(r) == StatusName(status)
    ensures !(Pending <= status <= Cancelled) ==> r == "Không xác định"
  {
    StatusName(status).GetOr("Không xác định")
  }

  /**
   * The order lifecycle: an order waiting, being prepared or on its way moves
   * one step forward or is cancelled; completed and cancelled orders stay.
   */
  predicate Advances(from: int, to: int) {
    Pending <= from <= Shipping && (to == from + 1 || to == Cancelled)
  }

  /** The status each action button of a tab sets: confirm, ship or complete, and cancel. */
  function TabActions(tab: string): (r: seq<int>)
    ensures |r| == 0 || |r| == 2
  {
    if tab == "0" then [Preparing, Cancelled]
    else if tab == "1" then [Shipping, Cancelled]
    else if tab == "2" then [Completed, Cancelled]
    else []
  }

  /** The completed tab offers a refund button that only shows a message and changes nothing. */
  predicate OffersRefund(tab: string) {
    tab == "3"
  }

  /** The action tabs are the tabs of the statuses 0, 1 and 2. */
  lemma ActionTabIsStatusTab(tab: string, target: int)
    requires target in TabActions(tab)
    ensures exists status :: (Pending <= status <= Shipping && tab == TabOf(status)
      && (target == status + 1 || target == Cancelled))
  {
    TabsOfStatuses();
    if tab == "0" {
      assert tab == TabOf(Pending);
    } else if tab == "1" {
      assert tab == TabOf(Preparing);
    } else {
      assert tab == TabOf(Shipping);
    }
  }

  /** Every action shown next to an order is a step of the lifecycle. */
  lemma ActionsFollowLifecycle(orders: seq<Order>, tab: string, o: Order, target: int)
    requires o in TabFilter(orders, tab) && target in TabActions(tab)
    ensures Advances(o.status, target)
  {
    ActionTabIsStatusTab(tab, target);
    var status :| Pending <= status <= Shipping && tab == TabOf(status)
      && (target == status + 1 || target == Cancelled);
    StatusTabShowsItsStatus(orders, status, o);
  }

  /** Every step of the lifecycle has its button on the tab of the current status. */
  lemma LifecycleHasItsAction(from: int, to: int)
    requires Advances(from, to)
    ensures to in TabActions(TabOf(from))
  {
    TabsOfStatuses();
  }

  /** The "all" tab offers no action at all. */
  lemma AllTabHasNoActions()
    ensures TabActions(AllTab) == [] && !OffersRefund(AllTab)
  {
  }

  const UpdateFailed := "Cập nhật trạng thái thất bại. Vui lòng thử lại."
  const LoadFailed := "Không thể tải danh sách đơn hàng. Vui lòng thử lại."

  /** The admin size of an order page. */
  const OrdersPageSize := 10

  datatype AdminOrdersState = AdminOrdersState(
    orders: seq<Order>, error: Option<string>, page: int, totalPages: int, search: string, tab: string)

  /** `handleUpdateStatus`: the row takes the new status when the server agrees; otherwise the error shows. */
  function UpdateStatus(s: AdminOrdersState, id: int, status: int, serverOk: bool): (r: AdminOrdersState)
    ensures serverOk ==> r == s.(orders := SetStatus(s.orders, id, status))
    ensures !serverOk ==> r == s.(error := Some(UpdateFailed))
  {
    if serverOk then s.(orders := SetStatus(s.orders, id, status)) else s.(error := Some(UpdateFailed))
  }

  /** After an accepted action the order leaves its tab and is listed under the new status. */
  lemma ActionMovesOrder(s: AdminOrdersState, id: int, from: int, to: int)
    requires Advances(from, to)
    ensures var r := UpdateStatus(s, id, to, true);
      forall o :: o in r.orders && o.id == id ==>
        o in TabFilter(r.orders, TabOf(to)) && o !in TabFilter(r.orders, TabOf(from))
  {
    var r := UpdateStatus(s, id, to, true);
    forall o | o in r.orders && o.id == id
      ensures o in TabFilter(r.orders, TabOf(to)) && o !in TabFilter(r.orders, TabOf(from))
    {
      var i :| 0 <= i < |r.orders| && r.orders[i] == o;
      assert o.status == to;
      StatusTabShowsItsStatus(r.orders, to, o);
      StatusTabShowsItsStatus(r.orders, from, o);
    }
  }

  /** `response.data.totalPages || 1`: a missing or zero page count reads as one page. */
  function TotalPagesOf(reported: Option<int>): (r: int)
    ensures reported.Some? && reported.value != 0 ==> r == reported.value
    ensures reported.None? || reported.value == 0 ==> r == 1
  {
    match reported
    case Some(n) => if n != 0 then n else 1
    case None => 1
  }

  /** The request the page sends: `{ page, size: 10, search }`. */
  datatype OrdersRequest = OrdersRequest(page: int, size: int, search: string)

  function Request(s: AdminOrdersState): (r: OrdersRequest)
    ensures r.size == OrdersPageSize && r.search == s.search && r.page == s.page
  {
    OrdersRequest(s.page, OrdersPageSize, s.search)
  }

  /** `goToPage`: the pager keeps the search and only moves within the pages. */
  function GoTo(s: AdminOrdersState, target: int): (r: AdminOrdersState)
    ensures r == s.(page := GoToPage(s.page, s.totalPages, target))
    ensures Request(r).search == Request(s).search
  {
    s.(page := GoToPage(s.page, s.totalPages, target))
  }

  /** The response to a request: its orders and page count, or a failure. */
  function Loaded(s: AdminOrdersState, response: Option<(seq<Order>, Option<int>)>): (r: AdminOrdersState)
    ensures response.Some? ==>
      r == s.(orders := response.value.0, totalPages := TotalPagesOf(response.value.1), error := None)
    ensures response.None? ==> r == s.(error := Some(LoadFailed))
  {
    match response
    case Some((orders, reported)) => s.(orders := orders, totalPages := TotalPagesOf(reported), error := None)
    case None => s.(error := Some(LoadFailed))
  }

  /** Typing in the search box as written: the search changes and the page stays where it was. */
  function ChangeSearchAsWritten(s: AdminOrdersState, term: string): (r: AdminOrdersState)
    ensures Request(r) == OrdersRequest(s.page, OrdersPageSize, term)
  {
    s.(search := term)
  }

  /**
   * Searching from page 3 of 3 asks for page 3 of the matches; when they fit
   * on one page the list is empty and, with a single page, the pager is
   * hidden, so no button leads back to the matches.
   */
  lemma SearchFromLaterPageStrands()
    ensures var s := AdminOrdersState([], None, 2, 3, "", AllTab);
      var searched := Loaded(ChangeSearchAsWritten(s, "0987654321"), Some(([], Some(1))));
      Request(ChangeSearchAsWritten(s, "0987654321")).page == 2
      && !ValidPage(searched.page, searched.totalPages)
      && PageButtons(searched.totalPages) == []
  {
  }

  /** Typing in the search box, corrected: a new search starts from the first page. */
  function ChangeSearch(s: AdminOrdersState, term: string): (r: AdminOrdersState)
    ensures Request(r) == OrdersRequest(0, OrdersPageSize, term)
    ensures r.orders == s.orders && r.tab == s.tab
  {
    s.(search := term, page := 0)
  }

  /** After a corrected search, whatever page count the server reports, the requested page exists. */
  lemma SearchRequestsAnExistingPage(s: AdminOrdersState, term: string, orders: seq<Order>, reported: Option<int>)
    requires reported.Some? ==> reported.value >= 0
    ensures var r := Loaded(ChangeSearch(s, term), Some((orders, reported)));
      ValidPage(r.page, r.totalPages)
  {
  }
}

=== FILE: admin_products.dfy ===
/**
 * The admin product list: the category breadcrumb shown for each product
 * (`getCategoryPath` with its recursive `findPath`), the top-level category
 * name lookup, and the request sent when the admin pages through the list.
 */
module AdminProductsPage {
  import opened Wrappers
  import opened Text
  import opened CategoryTree

  /**
   * `findPath`: siblings are tried in order; a sibling with the id gives its
   * own name, otherwise its subtree is searched (only when it has children)
   * and a hit there is prefixed with the sibling's name.
   */
  function FindPath(f: seq<Category>, target: int): Option<seq<string>>
    decreases f
  {
    if |f| == 0 then None
    else if f[0].id == target then Some([f[0].name])
    else
      var inChildren := if |f[0].children| > 0 then FindPath(f[0].children, target) else None;
      if inChildren.Some? then Some([f[0].name] + inChildren.value)
      else FindPath(f[1..], target)
  }

  /** The node at path `p` exists and has the id `target`. */
  predicate HasIdAt(f: seq<Category>, p: Path, target: int) {
    NodeAt(f, p).Some? && NodeAt(f, p).value.id == target
  }

  /** The names of the nodes met on the way down path `p`, root first. */
  function NamesAt(f: seq<Category>, p: Path): seq<string>
    decreases |p|
  {
    if |p| == 0 || p[0] >= |f| then [] else [f[p[0]].name] + NamesAt(f[p[0]].children, p[1..])
  }

  /** Along an existing path there is one name per level, from a root's name down to the node's own. */
  lemma {:induction false} NamesAtShape(f: seq<Category>, p: Path)
    requires NodeAt(f, p).Some?
    ensures |NamesAt(f, p)| == |p|
    ensures NamesAt(f, p)[0] == f[p[0]].name
    ensures NamesAt(f, p)[|p| - 1] == NodeAt(f, p).value.name
    decreases |p|
  {
    if |p| > 1 {
      NamesAtShape(f[p[0]].children, p[1..]);
    }
  }

  lemma NodeAtFirst(f: seq<Category>, rest: Path)
    requires |f| > 0 && |rest| > 0
    ensures NodeAt(f, [0] + rest) == NodeAt(f[0].children, rest)
    ensures NamesAt(f, [0] + rest) == [f[0].name] + NamesAt(f[0].children, rest)
  {
    assert ([0] + rest)[1..] == rest;
  }

  lemma NodeAtShift(f: seq<Category>, k: nat, rest: Path)
    requires |f| > 0
    ensures NodeAt(f, [k + 1] + rest) == NodeAt(f[1..], [k] + rest)
    ensures NamesAt(f, [k + 1] + rest) == NamesAt(f[1..], [k] + rest)
  {
    assert ([k + 1] + rest)[1..] == rest;
    assert ([k] + rest)[1..] == rest;
  }

  lemma BeforeShift(a: nat, x: Path, b: nat, y: Path)
    ensures Before([a + 1] + x, [b + 1] + y) == Before([a] + x, [b] + y)
  {
    assert ([a + 1] + x)[1..] == x && ([a] + x)[1..] == x;
    assert ([b + 1] + y)[1..] == y && ([b] + y)[1..] == y;
  }

  lemma NothingBeforeFirstRoot(q: Path)
    ensures Before(q, [0]) ==> |q| == 0
  {
    if |q| > 0 {
      assert [0][1..] == [];
      assert !Before(q[1..], []);
    }
  }

  /** A path of `f`'s first subtree found first there is found first in `f`. */
  lemma FirstInFirstSubtree(f: seq<Category>, target: int, pc: Path)
    requires |f| > 0 && f[0].id != target
    requires HasIdAt(f[0].children, pc, target)
    requires forall q :: Before(q, pc) ==> !HasIdAt(f[0].children, q, target)
    ensures HasIdAt(f, [0] + pc, target)
    ensures NamesAt(f, [0] + pc) == [f[0].name] + NamesAt(f[0].children, pc)
    ensures forall q :: Before(q, [0] + pc) ==> !HasIdAt(f, q, target)
  {
    var p := [0] + pc;
    NodeAtFirst(f, pc);
    assert p[0] == 0 && p[1..] == pc;
    forall q | Before(q, p)
      ensures !HasIdAt(f, q, target)
    {
      if |q| == 1 {
        assert q == [0];
        assert NodeAt(f, q) == Some(f[0]);
      } else if |q| > 1 {
        assert q[0] == 0;
        assert q == [0] + q[1..];
        NodeAtFirst(f, q[1..]);
        assert Before(q[1..], pc);
      }
    }
  }

  /** When neither the first sibling nor its subtree has the id, no path through it does. */
  lemma NoneInFirstSubtree(f: seq<Category>, target: int)
    requires |f| > 0 && f[0].id != target
    requires forall q :: !HasIdAt(f[0].children, q, target)
    ensures forall q :: |q| > 0 && q[0] == 0 ==> !HasIdAt(f, q, target)
  {
    forall q | |q| > 0 && q[0] == 0
      ensures !HasIdAt(f, q, target)
    {
      if |q| == 1 {
        assert NodeAt(f, q) == Some(f[0]);
      } else {
        assert q == [0] + q[1..];
        NodeAtFirst(f, q[1..]);
        assert !HasIdAt(f[0].children, q[1..], target);
      }
    }
  }

  /** Paths of the later siblings `f[1..]` are those of `f` shifted by one. */
  lemma NoneInLaterSiblings(f: seq<Category>, target: int)
    requires |f| > 0
    requires forall q :: |q| > 0 && q[0] == 0 ==> !HasIdAt(f, q, target)
    requires forall q :: !HasIdAt(f[1..], q, target)
    ensures forall q :: !HasIdAt(f, q, target)
  {
    forall q | |q| > 0 && q[0] > 0
      ensures !HasIdAt(f, q, target)
    {
      assert q == [(q[0] - 1) + 1] + q[1..];
      NodeAtShift(f, q[0] - 1, q[1..]);
      assert !HasIdAt(f[1..], [q[0] - 1] + q[1..], target);
    }
  }

  lemma ShiftedPath(f: seq<Category>, target: int, pr: Path, q: Path)
    requires |f| > 0 && |pr| > 0 && |q| > 0 && q[0] > 0
    requires Before(q, [pr[0] + 1] + pr[1..])
    requires forall q' :: Before(q', pr) ==> !HasIdAt(f[1..], q', target)
    ensures !HasIdAt(f, q, target)
  {
    var s := [q[0] - 1] + q[1..];
    assert q == [(q[0] - 1) + 1] + q[1..];
    NodeAtShift(f, q[0] - 1, q[1..]);
    BeforeShift(q[0] - 1, q[1..], pr[0], pr[1..]);
    assert pr == [pr[0]] + pr[1..];
    assert Before(s, pr);
  }

  lemma FirstInLaterSiblings(f: seq<Category>, target: int, pr: Path)
    requires |f| > 0
    requires HasIdAt(f[1..], pr, target)
    ensures HasIdAt(f, [pr[0] + 1] + pr[1..], target)
    ensures NamesAt(f, [pr[0] + 1] + pr[1..]) == NamesAt(f[1..], pr)
  {
    assert pr == [pr[0]] + pr[1..];
    NodeAtShift(f, pr[0], pr[1..]);
  }

  lemma NothingEarlierInLaterSiblings(f: seq<Category>, target: int, pr: Path)
    requires |f| > 0 && |pr| > 0
    requires forall q :: |q| > 0 && q[0] == 0 ==> !HasIdAt(f, q, target)
    requires forall q :: Before(q, pr) ==> !HasIdAt(f[1..], q, target)
    ensures forall q :: Before(q, [pr[0] + 1] + pr[1..]) ==> !HasIdAt(f, q, target)
  {
    forall q | Before(q, [pr[0] + 1] + pr[1..])
      ensures !HasIdAt(f, q, target)
    {
      if |q| > 0 && q[0] > 0 {
        ShiftedPath(f, target, pr, q);
      }
    }
  }

  /**
   * What `findPath` returns: nothing exactly when no node has the id;
   * otherwise the names along the path to a node with the id, and no node
   * earlier in pre-order has that id (with duplicate ids, the first one wins).
   */
  lemma {:induction false} FindPathFindsFirst(f: seq<Category>, target: int)
    ensures FindPath(f, target).None? ==> forall p :: !HasIdAt(f, p, target)
    ensures FindPath(f, target).Some? ==>
      exists p :: HasIdAt(f, p, target) && FindPath(f, target).value == NamesAt(f, p)
        && forall q :: Before(q, p) ==> !HasIdAt(f, q, target)
    decreases f
  {
    if |f| == 0 {
      return;
    }
    var head := f[0];
    if head.id == target {
      assert HasIdAt(f, [0], target);
      forall q | Before(q, [0])
        ensures !HasIdAt(f, q, target)
      {
        NothingBeforeFirstRoot(q);
      }
      return;
    }
    var inChildren := if |head.children| > 0 then FindPath(head.children, target) else None;
    if |head.children| > 0 {
      FindPathFindsFirst(head.children, target);
    }
    if inChildren.Some? {
      var pc :| HasIdAt(head.children, pc, target) && inChildren.value == NamesAt(head.children, pc)
        && forall q :: Before(q, pc) ==> !HasIdAt(head.children, q, target);
      FirstInFirstSubtree(f, target, pc);
      return;
    }
    NoneInFirstSubtree(f, target);
    FindPathFindsFirst(f[1..], target);
    if FindPath(f[1..], target).None? {
      NoneInLaterSiblings(f, target);
    } else {
      var pr :| HasIdAt(f[1..], pr, target) && FindPath(f[1..], target).value == NamesAt(f[1..], pr)
        && forall q :: Before(q, pr) ==> !HasIdAt(f[1..], q, target);
      FirstInLaterSiblings(f, target, pr);
      NothingEarlierInLaterSiblings(f, target, pr);
    }
  }

  /** A found breadcrumb starts at a root's name and ends at the category's own name, one name per level. */
  lemma FoundPathShape(f: seq<Category>, target: int)
    requires FindPath(f, target).Some?
    ensures exists p ::
      && HasIdAt(f, p, target)
      && |FindPath(f, target).value| == |p|
      && FindPath(f, target).value[0] == f[p[0]].name
      && FindPath(f, target).value[|p| - 1] == NodeAt(f, p).value.name
  {
    FindPathFindsFirst(f, target);
    var p :| HasIdAt(f, p, target) && FindPath(f, target).value == NamesAt(f, p)
      && forall q :: Before(q, p) ==> !HasIdAt(f, q, target);
    NamesAtShape(f, p);
  }

  const UnknownCategory := "Không xác định"

  /** `getCategoryPath`: the names on the way to the category joined with " > ", or "Không xác định". */
  function CategoryPath(tree: seq<Category>, categoryId: int): (r: string)
    ensures FindPath(tree, categoryId).None? ==> r == UnknownCategory
    ensures FindPath(tree, categoryId).Some? ==> r == Join(FindPath(tree, categoryId).value, " > ")
  {
    match FindPath(tree, categoryId)
    case Some(names) => Join(names, " > ")
    case None => UnknownCategory
  }

  /** A root category's breadcrumb is just its name. */
  lemma RootBreadcrumb(tree: seq<Category>, k: nat)
    requires k < |tree|
    requires forall j :: 0 <= j < k ==> !HasIdAt(tree, [j], tree[k].id)
    requires forall p :: Before(p, [k]) && |p| > 1 ==> !HasIdAt(tree, p, tree[k].id)
    ensures CategoryPath(tree, tree[k].id) == tree[k].name
  {
    var t := tree[k].id;
    FindPathFindsFirst(tree, t);
    assert HasIdAt(tree, [k], t);
    var p :| HasIdAt(tree, p, t) && FindPath(tree, t).value == NamesAt(tree, p)
      && forall q :: Before(q, p) ==> !HasIdAt(tree, q, t);
    NamesAtShape(tree, p);
    assert !Before([k], p);
    if |p| == 1 {
      assert p == [p[0]];
    }
    assert !Before(p, [k]);
    PathOrderTotal(p, [k]);
  }

  /** Pre-order on paths is total: of two different paths, one comes first. */
  lemma {:induction false} PathOrderTotal(p: Path, q: Path)
    ensures p == q || Before(p, q) || Before(q, p)
    decreases |p|
  {
    if |p| > 0 && |q| > 0 && p[0] == q[0] {
      PathOrderTotal(p[1..], q[1..]);
      assert p[1..] == q[1..] ==> p == q by {
        assert p == [p[0]] + p[1..] && q == [q[0]] + q[1..];
      }
    }
  }

  const LoadingName := "Đang tải..."

  /** `getCategoryName`: only the top-level categories are searched; "Đang tải..." otherwise. */
  function CategoryName(tree: seq<Category>, categoryId: int): (r: string)
    ensures (forall j :: 0 <= j < |tree| ==> tree[j].id != categoryId) ==> r == LoadingName
    ensures (exists j :: 0 <= j < |tree| && tree[j].id == categoryId) ==>
      exists j :: 0 <= j < |tree| && tree[j].id == categoryId && r == tree[j].name
        && forall i :: 0 <= i < j ==> tree[i].id != categoryId
  {
    if |tree| == 0 then LoadingName
    else if tree[0].id == categoryId then tree[0].name
    else
      var r := CategoryName(tree[1..], categoryId);
      assert forall j :: 0 < j < |tree| ==> tree[j] == tree[1..][j - 1];
      r
  }

  // ------------------------------------------------------------ paging

  /** The product request: page number, page size and search text. */
  datatype ProductRequest = ProductRequest(page: int, size: int, search: string)

  const AdminPageSize := 10

  /** Typing in the search box fetches the first page of the matching products. */
  function SearchRequest(searchTerm: string): (r: ProductRequest)
    ensures r.page == 0 && r.search == searchTerm
  {
    ProductRequest(0, AdminPageSize, searchTerm)
  }

  /** `goToPage` as written: `fetchProducts(page)`, so the search falls back to its default "". */
  function PageRequestAsWritten(page: int, searchTerm: string): (r: ProductRequest)
    ensures r.page == page && r.size == AdminPageSize
    ensures r.search == ""
  {
    ProductRequest(page, AdminPageSize, "")
  }

  /** While a search is active, paging as written fetches the unfiltered list. */
  lemma PagingDropsSearch()
    ensures PageRequestAsWritten(1, "nike").search != SearchRequest("nike").search
  {
  }

  /** Paging as evidently intended: the search term of the current list is kept. */
  function PageRequest(page: int, searchTerm: string): (r: ProductRequest)
    ensures r.page == page && r.size == AdminPageSize
  {
    ProductRequest(page, AdminPageSize, searchTerm)
  }

  /** With the corrected paging, every page of a search result belongs to the same search. */
  lemma PagingKeepsSearch(page: int, searchTerm: string)
    ensures PageRequest(page, searchTerm).search == SearchRequest(searchTerm).search
    ensures PageRequest(0, searchTerm) == SearchRequest(searchTerm)
  {
  }
}

=== FILE: cart.dfy ===
/**
 * The shopping cart shared by every page: a list of items keyed by product
 * variant, the `addToCart` update, the badge count, and the list sent to the
 * server to merge a guest cart into a user's cart at login.
 */
module Cart {

  /** A cart line: the variant, how many, its unit price and its discount in percent. */
  datatype CartItem = CartItem(variantId: int, quantity: int, price: real, discount: real)

  /** No two lines share a variant. */
  predicate UniqueIds(items: seq<CartItem>) {
    forall i, j :: 0 <= i < j < |items| ==> items[i].variantId != items[j].variantId
  }

  predicate HasVariant(items: seq<CartItem>, variantId: int) {
    exists i :: 0 <= i < |items| && items[i].variantId == variantId
  }

  /** Sum of the quantities: the number on the cart badge. */
  function TotalQuantity(items: seq<CartItem>): int {
    if |items| == 0 then 0 else TotalQuantity(items[..|items| - 1]) + items[|items| - 1].quantity
  }

  /** `prev.map(...)`: every line of the variant gets `extra` more. */
  function AddQuantity(items: seq<CartItem>, variantId: int, extra: int): (r: seq<CartItem>)
    ensures |r| == |items|
    ensures forall i :: 0 <= i < |items| ==> r[i].variantId == items[i].variantId
    ensures forall i :: 0 <= i < |items| && items[i].variantId == variantId ==>
      r[i] == items[i].(quantity := items[i].quantity + extra)
    ensures forall i :: 0 <= i < |items| && items[i].variantId != variantId ==> r[i] == items[i]
  {
    if |items| == 0 then []
    else
      var last := items[|items| - 1];
      AddQuantity(items[..|items| - 1], variantId, extra)
        + [if last.variantId == variantId then last.(quantity := last.quantity + extra) else last]
  }

  /**
   * `addToCart`: a variant already in the cart gets the new quantity added to
   * its line; a new variant is appended at the end.
   */
  function AddToCart(items: seq<CartItem>, item: CartItem): (r: seq<CartItem>)
    ensures HasVariant(items, item.variantId) ==> |r| == |items|
    ensures !HasVariant(items, item.variantId) ==> r == items + [item]
    ensures HasVariant(items, item.variantId) ==>
      forall i :: 0 <= i < |items| ==>
        r[i] == if items[i].variantId == item.variantId
          then items[i].(quantity := items[i].quantity + item.quantity) else items[i]
  {
    if HasVariant(items, item.variantId) then AddQuantity(items, item.variantId, item.quantity)
    else items + [item]
  }

  /** Adding never creates a second line for a variant. */
  lemma AddToCartKeepsUniqueIds(items: seq<CartItem>, item: CartItem)
    requires UniqueIds(items)
    ensures UniqueIds(AddToCart(items, item))
  {
  }

  lemma {:induction false} TotalQuantityAppend(items: seq<CartItem>, item: CartItem)
    ensures TotalQuantity(items + [item]) == TotalQuantity(items) + item.quantity
  {
    assert (items + [item])[..|items|] == items;
  }

  lemma TotalQuantityOfSnoc(all: seq<CartItem>, items: seq<CartItem>, item: CartItem)
    requires all == items + [item]
    ensures TotalQuantity(all) == TotalQuantity(items) + item.quantity
  {
    TotalQuantityAppend(items, item);
  }

  /** The badge count after `AddQuantity`, one line at a time from the end. */
  lemma AddQuantityTotalStep(items: seq<CartItem>, variantId: int, extra: int)
    requires |items| > 0
    ensures TotalQuantity(AddQuantity(items, variantId, extra))
      == TotalQuantity(AddQuantity(items[..|items| - 1], variantId, extra))
        + items[|items| - 1].quantity + (if items[|items| - 1].variantId == variantId then extra else 0)
  {
    var last := items[|items| - 1];
    var lastAfter := if last.variantId == variantId then last.(quantity := last.quantity + extra) else last;
    TotalQuantityOfSnoc(AddQuantity(items, variantId, extra), AddQuantity(items[..|items| - 1], variantId, extra), lastAfter);
  }

  lemma {:induction false} AddQuantityTotal(items: seq<CartItem>, variantId: int, extra: int, k: nat)
    requires k < |items| && items[k].variantId == variantId
    requires forall i :: 0 <= i < |items| && i != k ==> items[i].variantId != variantId
    ensures TotalQuantity(AddQuantity(items, variantId, extra)) == TotalQuantity(items) + extra
  {
    var init := items[..|items| - 1];
    AddQuantityTotalStep(items, variantId, extra);
    if k == |items| - 1 {
      UnchangedTotal(init, variantId, extra);
    } else {
      AddQuantityTotal(init, variantId, extra, k);
    }
  }

  lemma {:induction false} UnchangedTotal(items: seq<CartItem>, variantId: int, extra: int)
    requires forall i :: 0 <= i < |items| ==> items[i].variantId != variantId
    ensures TotalQuantity(AddQuantity(items, variantId, extra)) == TotalQuantity(items)
  {
    if |items| > 0 {
      AddQuantityTotalStep(items, variantId, extra);
      UnchangedTotal(items[..|items| - 1], variantId, extra);
    }
  }

  /** The badge grows by exactly the quantity added. */
  lemma AddToCartTotal(items: seq<CartItem>, item: CartItem)
    requires UniqueIds(items)
    ensures TotalQuantity(AddToCart(items, item)) == TotalQuantity(items) + item.quantity
  {
    if HasVariant(items, item.variantId) {
      var k :| 0 <= k < |items| && items[k].variantId == item.variantId;
      AddQuantityTotal(items, item.variantId, item.quantity, k);
    } else {
      TotalQuantityAppend(items, item);
    }
  }

  /** An entry of the merge request: only variant and quantity. */
  datatype MergeEntry = MergeEntry(variantId: int, quantity: int)

  /** The guest cart as sent to `/api/cart/merge`, line by line. */
  function MergePayload(items: seq<CartItem>): (r: seq<MergeEntry>)
    ensures |r| == |items|
    ensures forall i :: 0 <= i < |items| ==> r[i] == MergeEntry(items[i].variantId, items[i].quantity)
  {
    if |items| == 0 then []
    else MergePayload(items[..|items| - 1]) + [MergeEntry(items[|items| - 1].variantId, items[|items| - 1].quantity)]
  }

  function PayloadQuantity(entries: seq<MergeEntry>): int {
    if |entries| == 0 then 0 else PayloadQuantity(entries[..|entries| - 1]) + entries[|entries| - 1].quantity
  }

  /** The merge request carries the guest cart's whole quantity. */
  lemma {:induction false} MergeKeepsQuantity(items: seq<CartItem>)
    ensures PayloadQuantity(MergePayload(items)) == TotalQuantity(items)
  {
    if |items| > 0 {
      var n := |items|;
      assert MergePayload(items)[..n - 1] == MergePayload(items[..n - 1]);
      MergeKeepsQuantity(items[..n - 1]);
    }
  }
}

=== FILE: cart_page.dfy ===
/**
 * The cart page: its own copy of the cart lines (`details`), the shared cart
 * behind the header badge (`cart`), and the variant ids ticked for checkout
 * (`selected`). Whether a user is logged in and whether the server accepted a
 * request are inputs; a guest's changes never wait for a server.
 */
module CartPage {
  import opened Wrappers
  import opened Text
  import opened Cart
  import opened Pricing

  datatype CartPageState = CartPageState(details: seq<CartItem>, cart: seq<CartItem>, selected: seq<int>)

  /** Every line of the variant gets quantity `q`; the others are untouched. */
  function SetQuantity(items: seq<CartItem>, variantId: int, q: int): (r: seq<CartItem>)
    ensures |r| == |items|
    ensures forall i :: 0 <= i < |items| ==> r[i].variantId == items[i].variantId
    ensures forall i :: 0 <= i < |items| && items[i].variantId == variantId ==> r[i] == items[i].(quantity := q)
    ensures forall i :: 0 <= i < |items| && items[i].variantId != variantId ==> r[i] == items[i]
  {
    if |items| == 0 then []
    else
      var last := items[|items| - 1];
      SetQuantity(items[..|items| - 1], variantId, q)
        + [if last.variantId == variantId then last.(quantity := q) else last]
  }

  /** `items.find(i => i.variantId === variantId)`. */
  function FindLine(items: seq<CartItem>, variantId: int): (r: Option<CartItem>)
    ensures r.None? <==> !HasVariant(items, variantId)
    ensures r.Some? ==> exists k :: (0 <= k < |items| && items[k] == r.value && items[k].variantId == variantId
      && forall j :: 0 <= j < k ==> items[j].variantId != variantId)
  {
    if |items| == 0 then None
    else if items[0].variantId == variantId then Some(items[0])
    else
      var r := FindLine(items[1..], variantId);
      assert r.Some? ==> exists k :: (0 <= k < |items| && items[k] == r.value && items[k].variantId == variantId
        && forall j :: 0 <= j < k ==> items[j].variantId != variantId) by {
        if r.Some? {
          var k :| 0 <= k < |items[1..]| && items[1..][k] == r.value && items[1..][k].variantId == variantId
            && forall j :: 0 <= j < k ==> items[1..][j].variantId != variantId;
          assert items[k + 1] == r.value;
          assert forall j :: 1 <= j < k + 1 ==> items[j] == items[1..][j - 1];
        }
      }
      r
  }

  // ------------------------------------------------------------ quantities

  /**
   * The guard `if (newQuantity < 1) return` as written. The quantity box passes
   * `parseInt(value)`, and `NaN < 1` is false, so a `NaN` gets through.
   */
  function AcceptsQuantityAsWritten(q: NumberOrNaN): bool {
    match q
    case Int(n) => !(n < 1)
    case NaN => true
  }

  /** Clearing the quantity box gives `parseInt("")`, which is `NaN`, and the guard lets it through. */
  lemma ClearedBoxPassesGuard()
    ensures ParseInt("") == NaN
    ensures AcceptsQuantityAsWritten(ParseInt(""))
  {
    assert TrimStart("") == "";
    assert DigitPrefix("", Decimal) == "";
  }

  /** The guard the page needs: only a whole number of at least one. */
  function AcceptsQuantity(q: NumberOrNaN): (r: bool)
    ensures r ==> q.Int? && q.value >= 1
    ensures r ==> AcceptsQuantityAsWritten(q)
    ensures q.Int? && AcceptsQuantityAsWritten(q) ==> r
  {
    q.Int? && q.value >= 1
  }

  /** Whatever is typed into the quantity box, an accepted value is a positive integer, and typing a positive integer is accepted. */
  lemma AcceptedQuantityIsPositive(typed: string, n: int)
    ensures AcceptsQuantity(ParseInt(typed)) ==> ParseInt(typed).Int? && ParseInt(typed).value >= 1
    ensures n >= 1 ==> AcceptsQuantity(ParseInt(IntToString(n)))
    ensures !AcceptsQuantity(ParseInt(""))
  {
    IntToStringRoundTrip(n);
    ClearedBoxPassesGuard();
  }

  /**
   * `handleUpdateQuantity` with the corrected guard. The new quantity is shown
   * at once; a guest's cart and a logged-in user's cart after the server agrees
   * take the same lines; when the server refuses, the shown lines of that
   * variant go back to the quantity of its first line and the cart stays.
   */
  function UpdateQuantity(s: CartPageState, variantId: int, input: NumberOrNaN, loggedIn: bool, serverOk: bool)
    : (r: CartPageState)
    ensures !AcceptsQuantity(input) ==> r == s
    ensures r.selected == s.selected
    ensures AcceptsQuantity(input) && (!loggedIn || serverOk) ==>
      r.details == SetQuantity(s.details, variantId, input.value) && r.cart == r.details
    ensures AcceptsQuantity(input) && loggedIn && !serverOk ==> r.cart == s.cart
  {
    if !AcceptsQuantity(input) then s
    else
      var updated := SetQuantity(s.details, variantId, input.value);
      if !loggedIn || serverOk then s.(details := updated, cart := updated)
      else
        match FindLine(s.details, variantId)
        case Some(original) => s.(details := SetQuantity(s.details, variantId, original.quantity))
        case None => s.(details := updated)
  }

  lemma {:induction false} SetQuantityAbsent(items: seq<CartItem>, variantId: int, q: int)
    requires !HasVariant(items, variantId)
    ensures SetQuantity(items, variantId, q) == items
  {
  }

  lemma SetQuantityToOwn(items: seq<CartItem>, k: nat)
    requires UniqueIds(items) && k < |items|
    ensures SetQuantity(items, items[k].variantId, items[k].quantity) == items
  {
  }

  /** A refused update leaves the page as it was, when each variant has one line. */
  lemma RefusedUpdateRestores(s: CartPageState, variantId: int, input: NumberOrNaN)
    requires UniqueIds(s.details)
    ensures UpdateQuantity(s, variantId, input, true, false) == s
  {
    if AcceptsQuantity(input) {
      match FindLine(s.details, variantId)
      case Some(original) =>
        var k :| 0 <= k < |s.details| && s.details[k] == original && s.details[k].variantId == variantId;
        SetQuantityToOwn(s.details, k);
      case None =>
        SetQuantityAbsent(s.details, variantId, input.value);
    }
  }

  /** Setting a quantity twice keeps only the second. */
  lemma SetQuantityTwice(items: seq<CartItem>, variantId: int, a: int, b: int)
    ensures SetQuantity(SetQuantity(items, variantId, a), variantId, b) == SetQuantity(items, variantId, b)
  {
  }

  /** An accepted update leaves every shown quantity positive when they all were. */
  lemma UpdateKeepsQuantitiesPositive(s: CartPageState, variantId: int, input: NumberOrNaN, loggedIn: bool, serverOk: bool)
    requires forall i :: 0 <= i < |s.details| ==> s.details[i].quantity >= 1
    ensures var r := UpdateQuantity(s, variantId, input, loggedIn, serverOk);
      forall i :: 0 <= i < |r.details| ==> r.details[i].quantity >= 1
  {
    if AcceptsQuantity(input) && loggedIn && !serverOk {
      match FindLine(s.details, variantId)
      case Some(original) =>
        var k :| 0 <= k < |s.details| && s.details[k] == original;
        assert original.quantity >= 1;
      case None =>
    }
  }

  // ------------------------------------------------------------ removal

  /** `items.filter(item => item.variantId !== variantId)`. */
  function WithoutVariant(items: seq<CartItem>, variantId: int): (r: seq<CartItem>)
    ensures |r| <= |items|
    ensures !HasVariant(r, variantId)
    ensures forall x :: x in r <==> x in items && x.variantId != variantId
  {
    if |items| == 0 then []
    else
      var last := items[|items| - 1];
      var init := WithoutVariant(items[..|items| - 1], variantId);
      assert forall x :: x in items <==> x in items[..|items| - 1] || x == last;
      init + (if last.variantId == variantId then [] else [last])
  }

  /** `filter` keeps the other lines in their order: it keeps or drops each line and distributes over concatenation. */
  lemma WithoutVariantKeepsOrder(a: seq<CartItem>, b: seq<CartItem>, variantId: int)
    ensures WithoutVariant([], variantId) == []
    ensures forall x :: WithoutVariant([x], variantId) == (if x.variantId == variantId then [] else [x])
    ensures WithoutVariant(a + b, variantId) == WithoutVariant(a, variantId) + WithoutVariant(b, variantId)
  {
    forall x ensures WithoutVariant([x], variantId) == (if x.variantId == variantId then [] else [x]) {
      assert [x][..0] == [];
    }
    WithoutVariantConcat(a, b, variantId);
  }

  /** `WithoutVariant` distributes over concatenation, by induction on the list it recurses on. */
  lemma {:induction false} WithoutVariantConcat(a: seq<CartItem>, b: seq<CartItem>, variantId: int)
    ensures WithoutVariant(a + b, variantId) == WithoutVariant(a, variantId) + WithoutVariant(b, variantId)
    decreases |b|
  {
    if |b| == 0 {
      assert a + b == a;
    } else {
      var init, last := b[..|b| - 1], b[|b| - 1];
      WithoutVariantStep(b, init, last, variantId);
      WithoutVariantStep(a + b, a + init, last, variantId);
      WithoutVariantConcat(a, init, variantId);
      AppendAssociative(WithoutVariant(a, variantId), WithoutVariant(init, variantId), if last.variantId == variantId then [] else [last]);
    }
  }

  /** One step of the recursion, with the list split at its last element. */
  lemma WithoutVariantStep(all: seq<CartItem>, init: seq<CartItem>, last: CartItem, variantId: int)
    requires all == init + [last]
    ensures WithoutVariant(all, variantId) == WithoutVariant(init, variantId) + (if last.variantId == variantId then [] else [last])
  {
    assert all[..|all| - 1] == init;
  }

  /** Removing a variant that was just added new gives back the cart before. */
  lemma {:induction false} RemoveUndoesAdd(items: seq<CartItem>, item: CartItem)
    requires !HasVariant(items, item.variantId)
    ensures WithoutVariant(AddToCart(items, item), item.variantId) == items
  {
    WithoutAbsent(items, item.variantId);
    assert (items + [item])[..|items|] == items;
  }

  lemma {:induction false} WithoutAbsent(items: seq<CartItem>, variantId: int)
    requires !HasVariant(items, variantId)
    ensures WithoutVariant(items, variantId) == items
  {
    if |items| > 0 {
      var init := items[..|items| - 1];
      assert !HasVariant(init, variantId);
      WithoutAbsent(init, variantId);
      assert items == init + [items[|items| - 1]];
    }
  }

  /**
   * `handleRemoveItem` as written: the line leaves the page at once, but when
   * the server refuses, the shared cart keeps it, and the id stays ticked.
   */
  function RemoveItemAsWritten(s: CartPageState, variantId: int, loggedIn: bool, serverOk: bool): (r: CartPageState)
    ensures r.details == WithoutVariant(s.details, variantId)
    ensures r.selected == s.selected
    ensures !loggedIn || serverOk ==> r.cart == r.details
    ensures loggedIn && !serverOk ==> r.cart == s.cart
  {
    var updated := WithoutVariant(s.details, variantId);
    if !loggedIn || serverOk then s.(details := updated, cart := updated) else s.(details := updated)
  }

  /** A refused removal hides a line the cart still holds. */
  lemma RefusedRemovalHidesLine()
    ensures var line := CartItem(7, 1, 100000.0, 0.0);
      var s := CartPageState([line], [line], []);
      var r := RemoveItemAsWritten(s, 7, true, false);
      r.details == [] && r.cart == [line]
  {
    var line := CartItem(7, 1, 100000.0, 0.0);
    assert [line][..0] == [];
  }

  /** A removed line stays ticked, so the checkout button is enabled with nothing to pay for. */
  lemma RemovedLineStaysSelected()
    ensures var line := CartItem(7, 1, 100000.0, 0.0);
      var s := CartPageState([line], [line], [7]);
      var r := RemoveItemAsWritten(s, 7, false, true);
      CheckoutEnabled(r) && SelectedItems(r.details, r.selected) == []
  {
    var line := CartItem(7, 1, 100000.0, 0.0);
    assert [line][..0] == [];
  }

  /**
   * Removal as it is meant to behave: when it goes through, the line leaves the
   * page, the cart and the selection together; when the server refuses, nothing changes.
   */
  function RemoveItem(s: CartPageState, variantId: int, loggedIn: bool, serverOk: bool): (r: CartPageState)
    ensures loggedIn && !serverOk ==> r == s
    ensures !loggedIn || serverOk ==>
      r.details == WithoutVariant(s.details, variantId) && r.cart == r.details
      && r.selected == ToggleSelected(s.selected, variantId, false)
  {
    if !loggedIn || serverOk then
      var updated := WithoutVariant(s.details, variantId);
      CartPageState(updated, updated, ToggleSelected(s.selected, variantId, false))
    else s
  }

  // ------------------------------------------------------------ selection

  /** The checkbox of a line: ticking appends its id, unticking drops every copy of it. */
  function ToggleSelected(selected: seq<int>, variantId: int, checked: bool): (r: seq<int>)
    ensures checked ==> r == selected + [variantId]
    ensures !checked ==> variantId !in r && forall x :: x != variantId ==> (x in r <==> x in selected)
    ensures !checked ==> |r| <= |selected|
  {
    if checked then selected + [variantId]
    else if |selected| == 0 then []
    else
      var rest := ToggleSelected(selected[1..], variantId, false);
      assert forall x :: x in selected <==> x == selected[0] || x in selected[1..];
      (if selected[0] == variantId then [] else [selected[0]]) + rest
  }

  /** Unticking what was just ticked gives back the selection, when it was not ticked before. */
  lemma {:induction false} UntickUndoesTick(selected: seq<int>, variantId: int)
    requires variantId !in selected
    ensures ToggleSelected(ToggleSelected(selected, variantId, true), variantId, false) == selected
  {
    UntickAbsent(selected, variantId);
    UntickAppend(selected, variantId);
  }

  lemma {:induction false} UntickAbsent(selected: seq<int>, variantId: int)
    requires variantId !in selected
    ensures ToggleSelected(selected, variantId, false) == selected
  {
    if |selected| > 0 {
      UntickAbsent(selected[1..], variantId);
    }
  }

  lemma {:induction false} UntickAppend(selected: seq<int>, variantId: int)
    ensures ToggleSelected(selected + [variantId], variantId, false) == ToggleSelected(selected, variantId, false)
  {
    if |selected| == 0 {
      assert ToggleSelected([variantId], variantId, false) == [] + ToggleSelected([], variantId, false);
    } else {
      assert (selected + [variantId])[1..] == selected[1..] + [variantId];
      UntickAppend(selected[1..], variantId);
    }
  }

  /** The lines whose id is ticked, in page order: what `handleCheckout` hands to checkout. */
  function SelectedItems(items: seq<CartItem>, selected: seq<int>): (r: seq<CartItem>)
    ensures |r| <= |items|
    ensures forall x :: x in r <==> x in items && x.variantId in selected
  {
    if |items| == 0 then []
    else
      var last := items[|items| - 1];
      assert forall x :: x in items <==> x in items[..|items| - 1] || x == last;
      SelectedItems(items[..|items| - 1], selected) + (if last.variantId in selected then [last] else [])
  }

  /** The ticked lines form an order-preserving sublist: each line is kept or dropped, and concatenation distributes. */
  lemma SelectedItemsKeepOrder(a: seq<CartItem>, b: seq<CartItem>, selected: seq<int>)
    ensures SelectedItems([], selected) == []
    ensures forall x :: SelectedItems([x], selected) == (if x.variantId in selected then [x] else [])
    ensures SelectedItems(a + b, selected) == SelectedItems(a, selected) + SelectedItems(b, selected)
  {
    forall x ensures SelectedItems([x], selected) == (if x.variantId in selected then [x] else []) {
      assert [x][..0] == [];
    }
    SelectedItemsConcat(a, b, selected);
  }

  /** `SelectedItems` distributes over concatenation, by induction on the list it recurses on. */
  lemma {:induction false} SelectedItemsConcat(a: seq<CartItem>, b: seq<CartItem>, selected: seq<int>)
    ensures SelectedItems(a + b, selected) == SelectedItems(a, selected) + SelectedItems(b, selected)
    decreases |b|
  {
    if |b| == 0 {
      assert a + b == a;
    } else {
      var init, last := b[..|b| - 1], b[|b| - 1];
      SelectedItemsStep(b, init, last, selected);
      SelectedItemsStep(a + b, a + init, last, selected);
      SelectedItemsConcat(a, init, selected);
      AppendAssociative(SelectedItems(a, selected), SelectedItems(init, selected), if last.variantId in selected then [last] else []);
    }
  }

  /** One step of the recursion, with the list split at its last element. */
  lemma SelectedItemsStep(all: seq<CartItem>, init: seq<CartItem>, last: CartItem, selected: seq<int>)
    requires all == init + [last]
    ensures SelectedItems(all, selected) == SelectedItems(init, selected) + (if last.variantId in selected then [last] else [])
  {
    assert all[..|all| - 1] == init;
  }

  /** The checkout button is enabled when some id is ticked. */
  predicate CheckoutEnabled(s: CartPageState) {
    |s.selected| != 0
  }

  /** The selected total never exceeds the cart total when prices are sane. */
  lemma {:induction false} SelectedTotalAtMostTotal(items: seq<CartItem>, selected: seq<int>)
    requires AllWellPriced(items)
    ensures 0.0 <= Subtotal(SelectedItems(items, selected)) <= Subtotal(items)
  {
    if |items| > 0 {
      var init := items[..|items| - 1];
      var last := items[|items| - 1];
      SelectedTotalAtMostTotal(init, selected);
      LineTotalBounds(last);
      assert items == init + [last];
      SubtotalAppend(init, last);
      if last.variantId in selected {
        SubtotalAppend(SelectedItems(init, selected), last);
      } else {
        assert SelectedItems(items, selected) == SelectedItems(init, selected) + [];
        assert SelectedItems(init, selected) + [] == SelectedItems(init, selected);
      }
    }
  }

  /** Every ticked id names a line on the page. */
  predicate SelectionConsistent(s: CartPageState) {
    forall id :: id in s.selected ==> HasVariant(s.details, id)
  }

  lemma {:induction false} SelectedItemsNonEmpty(items: seq<CartItem>, selected: seq<int>, id: int)
    requires id in selected && HasVariant(items, id)
    ensures |SelectedItems(items, selected)| > 0
  {
    var k :| 0 <= k < |items| && items[k].variantId == id;
    assert items[k] in SelectedItems(items, selected);
  }

  /** On a consistent page an enabled checkout button always has something to pay for. */
  lemma EnabledCheckoutHasItems(s: CartPageState)
    requires SelectionConsistent(s) && CheckoutEnabled(s)
    ensures |SelectedItems(s.details, s.selected)| > 0
  {
    SelectedItemsNonEmpty(s.details, s.selected, s.selected[0]);
  }

  /** Ticking a shown line, changing a quantity and the corrected removal keep the page consistent. */
  lemma OperationsKeepSelectionConsistent(s: CartPageState, variantId: int, input: NumberOrNaN,
                                          loggedIn: bool, serverOk: bool, checked: bool)
    requires SelectionConsistent(s)
    ensures HasVariant(s.details, variantId) ==>
      SelectionConsistent(s.(selected := ToggleSelected(s.selected, variantId, checked)))
    ensures !checked ==> SelectionConsistent(s.(selected := ToggleSelected(s.selected, variantId, checked)))
    ensures SelectionConsistent(RemoveItem(s, variantId, loggedIn, serverOk))
    ensures SelectionConsistent(UpdateQuantity(s, variantId, input, loggedIn, serverOk))
  {
    UpdateKeepsSelectionConsistent(s, variantId, input, loggedIn, serverOk);
    RemoveKeepsSelectionConsistent(s, variantId, loggedIn, serverOk);
  }

  lemma UpdateKeepsSelectionConsistent(s: CartPageState, variantId: int, input: NumberOrNaN, loggedIn: bool, serverOk: bool)
    requires SelectionConsistent(s)
    ensures SelectionConsistent(UpdateQuantity(s, variantId, input, loggedIn, serverOk))
  {
    var u := UpdateQuantity(s, variantId, input, loggedIn, serverOk);
    assert |u.details| == |s.details| && forall i :: 0 <= i < |s.details| ==> u.details[i].variantId == s.details[i].variantId by {
      if AcceptsQuantity(input) && loggedIn && !serverOk {
        match FindLine(s.details, variantId)
        case Some(original) =>
        case None =>
      }
    }
    forall id | id in u.selected
      ensures HasVariant(u.details, id)
    {
      var k :| 0 <= k < |s.details| && s.details[k].variantId == id;
      assert u.details[k].variantId == id;
    }
  }

  lemma RemoveKeepsSelectionConsistent(s: CartPageState, variantId: int, loggedIn: bool, serverOk: bool)
    requires SelectionConsistent(s)
    ensures SelectionConsistent(RemoveItem(s, variantId, loggedIn, serverOk))
  {
    var r := RemoveItem(s, variantId, loggedIn, serverOk);
    forall id | id in r.selected
      ensures HasVariant(r.details, id)
    {
      var k :| 0 <= k < |s.details| && s.details[k].variantId == id;
      assert s.details[k] in s.details;
      if !loggedIn || serverOk {
        assert id != variantId;
        assert s.details[k] in r.details;
        var j :| 0 <= j < |r.details| && r.details[j] == s.details[k];
      }
    }
  }
}

=== FILE: category_tree.dfy ===
/**
 * The category tree the backend serves (`/api/admin/categories/tree`) and the
 * flattened, indented list the select boxes render from it.
 *
 * The meaning of "pre-order" is pinned down independently of the flattening
 * code: a node is addressed by its path of child indices from the root list,
 * `PreOrder` lists every (path, node) pair, and the lemmas below prove that this
 * list is sorted in pre-order (a parent before its subtree, siblings left to
 * right), that every path in it leads to its node, and that every node of the
 * tree is in it. `Flatten` is then proved to agree with it entry by entry.
 */
module CategoryTree {
  import opened Wrappers

  datatype Category = Category(id: int, name: string, children: seq<Category>)

  /** One option of a category select box: the node, its depth and whether it has children. */
  datatype FlatCategory = FlatCategory(id: int, name: string, level: int, isLeaf: bool)

  type Path = seq<nat>

  /** A node together with the path that reaches it. */
  datatype Visit = Visit(path: Path, node: Category)

  /** The node reached from the list `f` by following child indices `p`. */
  function NodeAt(f: seq<Category>, p: Path): Option<Category>
    decreases |p|
  {
    if |p| == 0 || p[0] >= |f| then None
    else if |p| == 1 then Some(f[p[0]])
    else NodeAt(f[p[0]].children, p[1..])
  }

  /** Number of nodes in a forest. */
  function Count(f: seq<Category>): nat {
    if |f| == 0 then 0 else 1 + Count(f[0].children) + Count(f[1..])
  }

  /** Pre-order position: `p` is visited before `q` (a proper prefix first, otherwise the smaller index where they differ). */
  predicate Before(p: Path, q: Path) {
    if |p| == 0 then |q| > 0
    else |q| > 0 && (p[0] < q[0] || (p[0] == q[0] && Before(p[1..], q[1..])))
  }

  ghost predicate Sorted(vs: seq<Visit>) {
    forall i, j :: 0 <= i < j < |vs| ==> Before(vs[i].path, vs[j].path)
  }

  /**
   * The reference walk of the siblings `f`, whose first element is the child
   * number `start` under the path `prefix`.
   */
  function PreOrderFrom(f: seq<Category>, prefix: Path, start: nat): seq<Visit>
  {
    if |f| == 0 then []
    else
      [Visit(prefix + [start], f[0])]
      + PreOrderFrom(f[0].children, prefix + [start], 0)
      + PreOrderFrom(f[1..], prefix, start + 1)
  }

  /** Every node of the forest `f`, in pre-order, with its path. */
  function PreOrder(f: seq<Category>): seq<Visit> {
    PreOrderFrom(f, [], 0)
  }

  // ------------------------------------------------------------ path order

  lemma {:induction false} BeforeIrreflexive(p: Path)
    ensures !Before(p, p)
  {
    if |p| > 0 {
      BeforeIrreflexive(p[1..]);
    }
  }

  lemma {:induction false} BeforeCommonPrefix(prefix: Path, a: Path, b: Path)
    ensures Before(prefix + a, prefix + b) == Before(a, b)
  {
    if |prefix| > 0 {
      assert (prefix + a)[0] == prefix[0] && (prefix + b)[0] == prefix[0];
      assert (prefix + a)[1..] == prefix[1..] + a;
      assert (prefix + b)[1..] == prefix[1..] + b;
      BeforeCommonPrefix(prefix[1..], a, b);
    } else {
      assert prefix + a == a && prefix + b == b;
    }
  }

  /** A path is visited before every path that extends it. */
  lemma BeforeExtension(p: Path, x: Path)
    requires |x| > 0
    ensures Before(p, p + x)
  {
    BeforeCommonPrefix(p, [], x);
    assert p + [] == p;
  }

  /** Below a common prefix, the smaller child index is visited first. */
  lemma BeforeSmallerIndex(prefix: Path, a: Path, b: Path)
    requires |a| > 0 && |b| > 0 && a[0] < b[0]
    ensures Before(prefix + a, prefix + b)
  {
    BeforeCommonPrefix(prefix, a, b);
  }

  lemma SortedConcat(a: seq<Visit>, b: seq<Visit>)
    requires Sorted(a) && Sorted(b)
    requires forall x, y :: x in a && y in b ==> Before(x.path, y.path)
    ensures Sorted(a + b)
  {
    var c := a + b;
    forall i, j | 0 <= i < j < |c| ensures Before(c[i].path, c[j].path) {
      if j < |a| {
        assert c[i] == a[i] && c[j] == a[j];
      } else if i >= |a| {
        assert c[i] == b[i - |a|] && c[j] == b[j - |a|];
      } else {
        assert c[i] in a && c[j] in b;
      }
    }
  }

  // ------------------------------------------------------------ the walk

  /** Shape of the walk: every path lies below `prefix`, at a child number of `f`. */
  lemma {:induction false} PreOrderShape(f: seq<Category>, prefix: Path, start: nat)
    ensures forall v :: v in PreOrderFrom(f, prefix, start) ==>
      |v.path| > |prefix| && v.path[..|prefix|] == prefix && start <= v.path[|prefix|] < start + |f|
  {
    if |f| > 0 {
      var h := prefix + [start];
      PreOrderShape(f[0].children, h, 0);
      PreOrderShape(f[1..], prefix, start + 1);
      forall v | v in PreOrderFrom(f[0].children, h, 0)
        ensures |v.path| > |prefix| && v.path[..|prefix|] == prefix && v.path[|prefix|] == start
      {
        assert v.path[..|h|][..|prefix|] == prefix;
        assert v.path[..|h|][|prefix|] == start;
      }
    }
  }

  lemma {:induction false} PreOrderSorted(f: seq<Category>, prefix: Path, start: nat)
    ensures Sorted(PreOrderFrom(f, prefix, start))
  {
    if |f| > 0 {
      var h := prefix + [start];
      var head := [Visit(h, f[0])];
      var mid := PreOrderFrom(f[0].children, h, 0);
      var tail := PreOrderFrom(f[1..], prefix, start + 1);
      PreOrderSorted(f[0].children, h, 0);
      PreOrderSorted(f[1..], prefix, start + 1);
      PreOrderShape(f[0].children, h, 0);
      PreOrderShape(f[1..], prefix, start + 1);
      forall y | y in mid ensures Before(h, y.path) {
        assert y.path == h + y.path[|h|..];
        BeforeExtension(h, y.path[|h|..]);
      }
      SortedConcat(head, mid);
      forall x, y | x in head + mid && y in tail ensures Before(x.path, y.path) {
        var a := x.path[|prefix|..];
        var b := y.path[|prefix|..];
        assert x.path == prefix + a && y.path == prefix + b;
        if x in head {
          assert a == [start];
        } else {
          assert x.path[..|h|] == h;
          assert a[0] == x.path[|prefix|] == h[|prefix|];
        }
        BeforeSmallerIndex(prefix, a, b);
      }
      SortedConcat(head + mid, tail);
    }
  }

  /** Every visit names the node its path leads to. */
  lemma {:induction false} PreOrderSound(g: seq<Category>, prefix: Path, start: nat)
    requires start <= |g|
    ensures forall v :: v in PreOrderFrom(g[start..], prefix, start) ==>
      |v.path| > |prefix| && v.path[..|prefix|] == prefix && NodeAt(g, v.path[|prefix|..]) == Some(v.node)
    decreases g, |g| - start
  {
    var f := g[start..];
    if |f| > 0 {
      var h := prefix + [start];
      var kids := g[start].children;
      assert kids[0..] == kids;
      PreOrderSound(kids, h, 0);
      assert g[start + 1..] == f[1..];
      PreOrderSound(g, prefix, start + 1);
      forall v | v in PreOrderFrom(f, prefix, start)
        ensures |v.path| > |prefix| && v.path[..|prefix|] == prefix && NodeAt(g, v.path[|prefix|..]) == Some(v.node)
      {
        if v in PreOrderFrom(kids, h, 0) {
          var q := v.path[|prefix|..];
          assert v.path[..|h|][..|prefix|] == prefix;
          assert q[0] == v.path[..|h|][|prefix|] == start;
          assert q[1..] == v.path[|h|..];
        } else if v !in PreOrderFrom(f[1..], prefix, start + 1) {
          assert v.path == prefix + [start];
          assert v.path[|prefix|..] == [start];
        }
      }
    }
  }

  /** Every node of the tree is visited. */
  lemma {:induction false} PreOrderComplete(g: seq<Category>, prefix: Path, start: nat, q: Path)
    requires start <= |g|
    requires NodeAt(g, q).Some? && q[0] >= start
    ensures Visit(prefix + q, NodeAt(g, q).value) in PreOrderFrom(g[start..], prefix, start)
    decreases |q|, |g| - start
  {
    var f := g[start..];
    var h := prefix + [start];
    if q[0] == start {
      if |q| == 1 {
        assert prefix + q == h;
      } else {
        var kids := g[start].children;
        assert kids[0..] == kids;
        PreOrderComplete(kids, h, 0, q[1..]);
        assert h + q[1..] == prefix + q;
      }
    } else {
      assert g[start + 1..] == f[1..];
      PreOrderComplete(g, prefix, start + 1, q);
    }
  }

  /**
   * The reference walk lists every node exactly once and in pre-order: its
   * paths are strictly increasing in pre-order, each leads to its node, and
   * each node of the tree appears.
   */
  lemma PreOrderCharacterized(f: seq<Category>)
    ensures Sorted(PreOrder(f))
    ensures forall v :: v in PreOrder(f) ==> NodeAt(f, v.path) == Some(v.node)
    ensures forall p :: NodeAt(f, p).Some? ==> Visit(p, NodeAt(f, p).value) in PreOrder(f)
  {
    PreOrderSorted(f, [], 0);
    assert f[0..] == f;
    PreOrderSound(f, [], 0);
    forall v | v in PreOrder(f) ensures NodeAt(f, v.path) == Some(v.node) {
      assert v.path[0..] == v.path;
    }
    forall p | NodeAt(f, p).Some? ensures Visit(p, NodeAt(f, p).value) in PreOrder(f) {
      PreOrderComplete(f, [], 0, p);
      assert [] + p == p;
    }
  }

  /** No node is listed twice: distinct positions of the walk hold distinct paths. */
  lemma PreOrderDistinct(f: seq<Category>, i: nat, j: nat)
    requires i < j < |PreOrder(f)|
    ensures PreOrder(f)[i].path != PreOrder(f)[j].path
  {
    PreOrderCharacterized(f);
    if PreOrder(f)[i].path == PreOrder(f)[j].path {
      BeforeIrreflexive(PreOrder(f)[i].path);
    }
  }

  /** The walk has one entry per node. */
  lemma {:induction false} PreOrderCount(f: seq<Category>, prefix: Path, start: nat)
    ensures |PreOrderFrom(f, prefix, start)| == Count(f)
  {
    if |f| > 0 {
      PreOrderCount(f[0].children, prefix + [start], 0);
      PreOrderCount(f[1..], prefix, start + 1);
    }
  }

  // ------------------------------------------------------------ flattening

  /** The select-box option for a node at a given depth. */
  function Entry(c: Category, level: int): FlatCategory {
    FlatCategory(c.id, c.name, level, |c.children| == 0)
  }

  /**
   * The flattened list every page renders: each node followed by its
   * subtree one level deeper, siblings in order.
   */
  function Flatten(f: seq<Category>, level: int): seq<FlatCategory> {
    if |f| == 0 then []
    else [Entry(f[0], level)] + Flatten(f[0].children, level + 1) + Flatten(f[1..], level)
  }

  lemma {:induction false} FlattenConcat(a: seq<Category>, b: seq<Category>, level: int)
    ensures Flatten(a + b, level) == Flatten(a, level) + Flatten(b, level)
  {
    if |a| == 0 {
      assert a + b == b;
    } else {
      assert (a + b)[0] == a[0];
      assert (a + b)[1..] == a[1..] + b;
      FlattenConcat(a[1..], b, level);
    }
  }

  /** Flattening one more top-level category appends its entry and then its subtree. */
  lemma FlattenSnoc(f: seq<Category>, c: Category, level: int)
    ensures Flatten(f + [c], level) == Flatten(f, level) + [Entry(c, level)] + Flatten(c.children, level + 1)
  {
    FlattenConcat(f, [c], level);
    assert [c][1..] == [];
    assert Flatten([c], level) == [Entry(c, level)] + Flatten(c.children, level + 1) + [];
  }

  /** The options a walk yields when its paths sit `depth` steps below the forest the walk started from. */
  function Entries(vs: seq<Visit>, level: int, depth: int): (r: seq<FlatCategory>)
    ensures |r| == |vs|
  {
    if |vs| == 0 then []
    else [Entry(vs[0].node, level + |vs[0].path| - depth - 1)] + Entries(vs[1..], level, depth)
  }

  lemma {:induction false} EntriesConcat(a: seq<Visit>, b: seq<Visit>, level: int, depth: int)
    ensures Entries(a + b, level, depth) == Entries(a, level, depth) + Entries(b, level, depth)
  {
    if |a| == 0 {
      assert a + b == b;
    } else {
      assert (a + b)[0] == a[0];
      assert (a + b)[1..] == a[1..] + b;
      EntriesConcat(a[1..], b, level, depth);
    }
  }

  lemma {:induction false} EntriesDeeper(vs: seq<Visit>, level: int, depth: int)
    ensures Entries(vs, level, depth) == Entries(vs, level + 1, depth + 1)
  {
    if |vs| > 0 {
      EntriesDeeper(vs[1..], level, depth);
    }
  }

  lemma {:induction false} FlattenIsEntriesOfWalk(f: seq<Category>, level: int, prefix: Path, start: nat)
    ensures Flatten(f, level) == Entries(PreOrderFrom(f, prefix, start), level, |prefix|)
  {
    if |f| > 0 {
      var h := prefix + [start];
      var head := [Visit(h, f[0])];
      var mid := PreOrderFrom(f[0].children, h, 0);
      var tail := PreOrderFrom(f[1..], prefix, start + 1);
      FlattenIsEntriesOfWalk(f[0].children, level + 1, h, 0);
      FlattenIsEntriesOfWalk(f[1..], level, prefix, start + 1);
      EntriesDeeper(mid, level, |prefix|);
      EntriesConcat(head + mid, tail, level, |prefix|);
      EntriesConcat(head, mid, level, |prefix|);
    }
  }

  /**
   * Entry `i` of the flattened list is the `i`-th node of the pre-order walk,
   * at `level` plus its depth, flagged as a leaf exactly when it has no children.
   */
  lemma FlattenMatchesPreOrder(f: seq<Category>, level: int)
    ensures |Flatten(f, level)| == |PreOrder(f)| == Count(f)
    ensures forall i :: 0 <= i < |Flatten(f, level)| ==>
      && Flatten(f, level)[i].id == PreOrder(f)[i].node.id
      && Flatten(f, level)[i].name == PreOrder(f)[i].node.name
      && Flatten(f, level)[i].level == level + |PreOrder(f)[i].path| - 1
      && (Flatten(f, level)[i].isLeaf <==> |PreOrder(f)[i].node.children| == 0)
  {
    FlattenIsEntriesOfWalk(f, level, [], 0);
    PreOrderCount(f, [], 0);
    forall i | 0 <= i < |PreOrder(f)|
      ensures Entries(PreOrder(f), level, 0)[i] == Entry(PreOrder(f)[i].node, level + |PreOrder(f)[i].path| - 1)
    {
      EntriesIndex(PreOrder(f), level, 0, i);
    }
  }

  lemma {:induction false} EntriesIndex(vs: seq<Visit>, level: int, depth: int, i: nat)
    requires i < |vs|
    ensures Entries(vs, level, depth)[i] == Entry(vs[i].node, level + |vs[i].path| - depth - 1)
  {
    if i > 0 {
      EntriesIndex(vs[1..], level, depth, i - 1);
    }
  }

  /**
   * Levels follow the tree: a root option has the base level, and every other
   * option has an earlier option for its parent node, exactly one level up.
   */
  lemma FlattenLevels(f: seq<Category>, level: int, i: nat)
    requires i < |PreOrder(f)|
    ensures |Flatten(f, level)| == |PreOrder(f)|
    ensures Flatten(f, level)[i].level >= level
    ensures |PreOrder(f)[i].path| == 1 <==> Flatten(f, level)[i].level == level
    ensures |PreOrder(f)[i].path| > 1 ==>
      exists j :: 0 <= j < i
        && PreOrder(f)[j].path == PreOrder(f)[i].path[..|PreOrder(f)[i].path| - 1]
        && PreOrder(f)[i].node in PreOrder(f)[j].node.children
        && Flatten(f, level)[j].level + 1 == Flatten(f, level)[i].level
  {
    FlattenMatchesPreOrder(f, level);
    var walk := PreOrder(f);
    var p := walk[i].path;
    assert |p| >= 1 by {
      PreOrderCharacterized(f);
      assert walk[i] in walk;
    }
    if |p| > 1 {
      ParentVisitedBefore(f, i);
      var j :| 0 <= j < i && walk[j].path == p[..|p| - 1] && walk[i].node in walk[j].node.children;
      assert Flatten(f, level)[j].level + 1 == Flatten(f, level)[i].level;
    }
  }

  /** The parent of a visited node that is not a root is visited earlier in the walk. */
  lemma ParentVisitedBefore(f: seq<Category>, i: nat)
    requires i < |PreOrder(f)| && |PreOrder(f)[i].path| > 1
    ensures exists j ::
      && 0 <= j < i
      && PreOrder(f)[j].path == PreOrder(f)[i].path[..|PreOrder(f)[i].path| - 1]
      && PreOrder(f)[i].node in PreOrder(f)[j].node.children
  {
    PreOrderCharacterized(f);
    var walk := PreOrder(f);
    var p := walk[i].path;
    assert walk[i] in walk;
    var parent := p[..|p| - 1];
    NodeAtParent(f, p);
    var pn := NodeAt(f, parent).value;
    var j :| 0 <= j < |walk| && walk[j] == Visit(parent, pn);
    BeforeExtension(parent, [p[|p| - 1]]);
    assert parent + [p[|p| - 1]] == p;
    if j > i {
      assert Before(walk[i].path, walk[j].path);
      BeforeAsymmetric(parent, p);
    }
    assert j < i;
  }

  lemma {:induction false} BeforeAsymmetric(p: Path, q: Path)
    requires Before(p, q)
    ensures !Before(q, p)
  {
    if |p| > 0 && p[0] == q[0] {
      BeforeAsymmetric(p[1..], q[1..]);
    }
  }

  /** Following a path goes through its parent path, whose node has the target among its children. */
  lemma {:induction false} NodeAtParent(f: seq<Category>, p: Path)
    requires |p| > 1 && NodeAt(f, p).Some?
    ensures NodeAt(f, p[..|p| - 1]).Some?
    ensures NodeAt(f, p).value in NodeAt(f, p[..|p| - 1]).value.children
  {
    if |p| == 2 {
      assert p[..1] == [p[0]];
      assert NodeAt(f[p[0]].children, p[1..]) == Some(f[p[0]].children[p[1]]);
    } else {
      NodeAtParent(f[p[0]].children, p[1..]);
      assert p[1..][..|p| - 2] == p[..|p| - 1][1..];
    }
  }

  /** A non-empty tree always has a leaf: the last option of the flattened list is one. */
  lemma {:induction false} LastEntryIsLeaf(f: seq<Category>, level: int)
    requires |f| > 0
    ensures |Flatten(f, level)| > 0 && Flatten(f, level)[|Flatten(f, level)| - 1].isLeaf
  {
    var r := Flatten(f, level);
    var tail := Flatten(f[1..], level);
    var mid := Flatten(f[0].children, level + 1);
    if |f| > 1 {
      LastEntryIsLeaf(f[1..], level);
      assert r[|r| - 1] == tail[|tail| - 1];
    } else if |f[0].children| > 0 {
      LastEntryIsLeaf(f[0].children, level + 1);
      assert f[1..] == [];
      assert r[|r| - 1] == mid[|mid| - 1];
    } else {
      assert r == [Entry(f[0], level)];
    }
  }
}

=== FILE: checkout.dfy ===
/**
 * The checkout page: the lines handed over from the cart, the delivery address
 * and phone typed by the customer, and the shared cart. Whether the server
 * accepted the order is an input.
 */
module Checkout {
  import opened Wrappers
  import opened Text
  import opened Cart
  import opened Pricing

  datatype CheckoutState = CheckoutState(selected: seq<CartItem>, address: string, phone: string, cart: seq<CartItem>)

  /** One ordered line as sent to the server. */
  datatype OrderLine = OrderLine(variantId: int, quantity: int)

  datatype OrderRequest = OrderRequest(address: string, phone: string, items: seq<OrderLine>)

  function OrderLines(items: seq<CartItem>): (r: seq<OrderLine>)
    ensures |r| == |items|
    ensures forall i :: 0 <= i < |items| ==> r[i] == OrderLine(items[i].variantId, items[i].quantity)
  {
    if |items| == 0 then []
    else OrderLines(items[..|items| - 1]) + [OrderLine(items[|items| - 1].variantId, items[|items| - 1].quantity)]
  }

  /** `!address || !phone` refuses the order: both must be non-empty, nothing else is checked. */
  predicate CanSubmit(s: CheckoutState) {
    s.address != "" && s.phone != ""
  }

  /** `cartItems.filter(item => !selectedItems.some(s => s.variantId === item.variantId))`. */
  function Remaining(cart: seq<CartItem>, ordered: seq<CartItem>): (r: seq<CartItem>)
    ensures |r| <= |cart|
    ensures forall x :: x in r <==> x in cart && !HasVariant(ordered, x.variantId)
  {
    if |cart| == 0 then []
    else
      var last := cart[|cart| - 1];
      assert forall x :: x in cart <==> x in cart[..|cart| - 1] || x == last;
      Remaining(cart[..|cart| - 1], ordered) + (if HasVariant(ordered, last.variantId) then [] else [last])
  }

  /** The remaining cart is the old cart filtered in order: each line is kept or dropped, and concatenation distributes. */
  lemma RemainingKeepsOrder(a: seq<CartItem>, b: seq<CartItem>, ordered: seq<CartItem>)
    ensures Remaining([], ordered) == []
    ensures forall x :: Remaining([x], ordered) == (if HasVariant(ordered, x.variantId) then [] else [x])
    ensures Remaining(a + b, ordered) == Remaining(a, ordered) + Remaining(b, ordered)
  {
    forall x ensures Remaining([x], ordered) == (if HasVariant(ordered, x.variantId) then [] else [x]) {
      assert [x][..0] == [];
    }
    RemainingConcat(a, b, ordered);
  }

  /** `Remaining` distributes over concatenation, by induction on the list it recurses on. */
  lemma {:induction false} RemainingConcat(a: seq<CartItem>, b: seq<CartItem>, ordered: seq<CartItem>)
    ensures Remaining(a + b, ordered) == Remaining(a, ordered) + Remaining(b, ordered)
    decreases |b|
  {
    if |b| == 0 {
      assert a + b == a;
    } else {
      var init, last := b[..|b| - 1], b[|b| - 1];
      RemainingStep(b, init, last, ordered);
      RemainingStep(a + b, a + init, last, ordered);
      RemainingConcat(a, init, ordered);
      AppendAssociative(Remaining(a, ordered), Remaining(init, ordered), if HasVariant(ordered, last.variantId) then [] else [last]);
    }
  }

  /** One step of the recursion, with the list split at its last element. */
  lemma RemainingStep(all: seq<CartItem>, init: seq<CartItem>, last: CartItem, ordered: seq<CartItem>)
    requires all == init + [last]
    ensures Remaining(all, ordered) == Remaining(init, ordered) + (if HasVariant(ordered, last.variantId) then [] else [last])
  {
    assert all[..|all| - 1] == init;
  }

  /** The cart lines the order takes away: the complement of `Remaining`. */
  function Taken(cart: seq<CartItem>, ordered: seq<CartItem>): (r: seq<CartItem>)
    ensures forall x :: x in r <==> x in cart && HasVariant(ordered, x.variantId)
  {
    if |cart| == 0 then []
    else
      var last := cart[|cart| - 1];
      assert forall x :: x in cart <==> x in cart[..|cart| - 1] || x == last;
      Taken(cart[..|cart| - 1], ordered) + (if HasVariant(ordered, last.variantId) then [last] else [])
  }

  /** The order splits the cart: every line is either kept or taken, and the quantities add up. */
  lemma {:induction false} OrderSplitsCart(cart: seq<CartItem>, ordered: seq<CartItem>)
    ensures |Remaining(cart, ordered)| + |Taken(cart, ordered)| == |cart|
    ensures TotalQuantity(Remaining(cart, ordered)) + TotalQuantity(Taken(cart, ordered)) == TotalQuantity(cart)
  {
    if |cart| > 0 {
      var init := cart[..|cart| - 1];
      var last := cart[|cart| - 1];
      OrderSplitsCart(init, ordered);
      if HasVariant(ordered, last.variantId) {
        assert Remaining(cart, ordered) == Remaining(init, ordered) + [];
        assert Remaining(init, ordered) + [] == Remaining(init, ordered);
        TotalQuantityAppend(Taken(init, ordered), last);
      } else {
        assert Taken(cart, ordered) == Taken(init, ordered) + [];
        assert Taken(init, ordered) + [] == Taken(init, ordered);
        TotalQuantityAppend(Remaining(init, ordered), last);
      }
    }
  }

  /**
   * `handleOrderSubmit`: with an address and a phone the order is sent; when
   * the server accepts it, the ordered variants leave the cart and the form is
   * cleared, otherwise the page stays as it was.
   */
  function Submit(s: CheckoutState, serverOk: bool): (r: (CheckoutState, Option<OrderRequest>))
    ensures !CanSubmit(s) ==> r == (s, None)
    ensures CanSubmit(s) ==> r.1 == Some(OrderRequest(s.address, s.phone, OrderLines(s.selected)))
    ensures CanSubmit(s) && !serverOk ==> r.0 == s
    ensures CanSubmit(s) && serverOk ==>
      && r.0.selected == [] && r.0.address == "" && r.0.phone == ""
      && r.0.cart == Remaining(s.cart, s.selected)
      && (forall x :: x in r.0.cart <==> x in s.cart && !HasVariant(s.selected, x.variantId))
  {
    if !CanSubmit(s) then (s, None)
    else
      var request := OrderRequest(s.address, s.phone, OrderLines(s.selected));
      if serverOk then (CheckoutState([], "", "", Remaining(s.cart, s.selected)), Some(request))
      else (s, Some(request))
  }

  /** After an accepted order nothing is left to submit, and submitting again is refused. */
  lemma SubmitTwiceIsRefused(s: CheckoutState)
    requires CanSubmit(s)
    ensures Submit(Submit(s, true).0, true).1 == None
  {
  }

  /** The phone box: `value.replace(/\D/g, "")` keeps the ASCII digits, in order. */
  function KeepDigits(typed: string): (r: string)
    ensures |r| <= |typed|
    ensures forall i :: 0 <= i < |r| ==> IsDigit(r[i])
    ensures forall c :: c in r <==> c in typed && IsDigit(c)
  {
    if |typed| == 0 then ""
    else
      var rest := KeepDigits(typed[1..]);
      assert forall c :: c in typed <==> c == typed[0] || c in typed[1..];
      (if IsDigit(typed[0]) then [typed[0]] else "") + rest
  }

  /** The digits keep their order and repetition: each character is kept or dropped, and concatenation distributes. */
  lemma KeepDigitsKeepsOrder(a: string, b: string)
    ensures KeepDigits("") == ""
    ensures forall c :: KeepDigits([c]) == (if IsDigit(c) then [c] else "")
    ensures KeepDigits(a + b) == KeepDigits(a) + KeepDigits(b)
  {
    forall c ensures KeepDigits([c]) == (if IsDigit(c) then [c] else "") {
      assert [c][1..] == "";
    }
    KeepDigitsConcat(a, b);
  }

  /** `KeepDigits` distributes over concatenation, by induction on the list it recurses on. */
  lemma {:induction false} KeepDigitsConcat(a: string, b: string)
    ensures KeepDigits(a + b) == KeepDigits(a) + KeepDigits(b)
    decreases |a|
  {
    if |a| == 0 {
      assert a + b == b;
    } else {
      var head, rest := a[0], a[1..];
      KeepDigitsStep(a, head, rest);
      KeepDigitsStep(a + b, head, rest + b);
      KeepDigitsConcat(rest, b);
      AppendAssociative(if IsDigit(head) then [head] else "", KeepDigits(rest), KeepDigits(b));
    }
  }

  /** One step of the recursion, with the list split at its first element. */
  lemma KeepDigitsStep(all: string, head: char, rest: string)
    requires all == [head] + rest
    ensures KeepDigits(all) == (if IsDigit(head) then [head] else "") + KeepDigits(rest)
  {
    assert all[1..] == rest;
  }

  /** A number typed with only digits is kept as typed; filtering a second time changes nothing. */
  lemma {:induction false} KeepDigitsOfDigits(typed: string)
    requires forall i :: 0 <= i < |typed| ==> IsDigit(typed[i])
    ensures KeepDigits(typed) == typed
  {
    if |typed| > 0 {
      KeepDigitsOfDigits(typed[1..]);
    }
  }

  lemma KeepDigitsIdempotent(typed: string)
    ensures KeepDigits(KeepDigits(typed)) == KeepDigits(typed)
  {
    KeepDigitsOfDigits(KeepDigits(typed));
  }

  /** `handleCancel`: the selection and the form are cleared; the cart stays. */
  function Cancel(s: CheckoutState): (r: CheckoutState)
    ensures r.cart == s.cart
    ensures r.selected == [] && OrderTotal(r.selected) == ShippingFee
    ensures r.address == "" && r.phone == "" && !CanSubmit(r)
  {
    CheckoutState([], "", "", s.cart)
  }
}

=== FILE: color_palette.dfy ===
/**
 * The colour palette of the admin "add product" form: the fixed table of
 * Vietnamese colour names and CSS colour words, its grouping by the first word
 * of each name for the colour select, and the name-to-colour lookup that paints
 * a variant's border.
 */
module ColorPalette {
  import opened Wrappers
  import opened Text

  datatype ColorOption = ColorOption(name: string, value: string)

  datatype ColorGroup = ColorGroup(group: string, options: seq<ColorOption>)

  /** The colour table, in the order its entries are written. */
  const ColorMap: seq<ColorOption> := [
    ColorOption("đỏ", "red"),
    ColorOption("xanh", "blue"),
    ColorOption("vàng", "yellow"),
    ColorOption("trắng", "white"),
    ColorOption("đen", "black"),
    ColorOption("xám", "gray"),
    ColorOption("xanh lá", "green"),
    ColorOption("hồng", "pink"),
    ColorOption("tím", "purple"),
    ColorOption("nâu", "brown"),
    ColorOption("cam", "orange"),
    ColorOption("be", "beige"),
    ColorOption("vàng chanh", "lemon"),
    ColorOption("màu mận", "plum"),
    ColorOption("xanh da trời", "skyblue"),
    ColorOption("xanh dương", "navy"),
    ColorOption("xanh lục", "teal"),
    ColorOption("xanh lam", "cyan"),
    ColorOption("vàng đậm", "gold"),
    ColorOption("bạc", "silver"),
    ColorOption("trắng ngà", "ivory"),
    ColorOption("hồng nhạt", "lightpink"),
    ColorOption("hồng đậm", "-deeppink"),
    ColorOption("đỏ đậm", "darkred"),
    ColorOption("đỏ nhạt", "lightcoral"),
    ColorOption("xanh lá đậm", "darkgreen"),
    ColorOption("xanh lá nhạt", "lightgreen"),
    ColorOption("xanh da trời đậm", "darkblue"),
    ColorOption("xanh da trời nhạt", "lightskyblue"),
    ColorOption("vàng nhạt", "lightyellow"),
    ColorOption("nâu đậm", "saddlebrown"),
    ColorOption("nâu nhạt", "sandybrown"),
    ColorOption("cam đậm", "darkorange"),
    ColorOption("cam nhạt", "peachpuff"),
    ColorOption("xám đậm", "dimgray"),
    ColorOption("xám nhạt", "lightgray"),
    ColorOption("trắng sữa", "seashell"),
    ColorOption("trắng bạc", "ghostwhite"),
    ColorOption("màu rượu vang", "wine"),
    ColorOption("màu cafe", "coffee"),
    ColorOption("màu mực", "midnightblue"),
    ColorOption("màu hạt dẻ", "chestnut"),
    ColorOption("màu thạch anh", "amethyst"),
    ColorOption("màu xám đá", "slategray"),
    ColorOption("màu than", "charcoal"),
    ColorOption("màu cát", "sand"),
    ColorOption("màu hoa hồng", "rose"),
    ColorOption("màu nắng", "sunflower"),
    ColorOption("màu gạch", "brickred"),
    ColorOption("màu lúa mì", "wheat"),
    ColorOption("màu xám bạc", "silvergray"),
    ColorOption("màu bùn", "mud"),
    ColorOption("màu xanh bạc hà", "mint"),
    ColorOption("màu trà xanh", "matcha"),
    ColorOption("màu mơ", "peach"),
    ColorOption("màu lá phong", "maple"),
    ColorOption("màu ngọc bích", "turquoise"),
    ColorOption("màu ngọc lục bảo", "emerald"),
    ColorOption("màu ngọc bích xanh", "aquamarine"),
    ColorOption("màu hoa anh đào", "cherryblossom"),
    ColorOption("màu bạc hà", "honeydew"),
    ColorOption("màu hạt dẻ nướng", "roastedchestnut"),
    ColorOption("màu đậu phộng", "peanut"),
    ColorOption("màu cẩm thạch", "marble"),
    ColorOption("màu cánh sen", "lotus"),
    ColorOption("màu băng", "iceblue"),
    ColorOption("màu lá cây", "olive"),
    ColorOption("màu hoa violet", "violet"),
    ColorOption("màu kim cương", "diamond"),
    ColorOption("màu xà cừ", "pearl"),
    ColorOption("màu mật ong", "honey")
  ]

  /** The colour used when a variant's colour is not in the table. */
  const FallbackHex := "#ccc"

  /** The group a colour name falls in: its first word. */
  function Root(name: string): string {
    FirstWord(name)
  }

  /** The entries of `es` whose root is `root`, in table order. */
  function WithRoot(es: seq<ColorOption>, root: string): (r: seq<ColorOption>)
    ensures |r| <= |es|
    ensures forall o :: o in r <==> o in es && Root(o.name) == root
  {
    if |es| == 0 then []
    else
      var last := es[|es| - 1];
      WithRoot(es[..|es| - 1], root) + (if Root(last.name) == root then [last] else [])
  }

  /** The list without its repetitions, each element where it first appears. */
  function FirstAppearances(xs: seq<string>): (r: seq<string>)
    ensures forall x :: x in r <==> x in xs
    ensures forall i, j :: 0 <= i < j < |r| ==> r[i] != r[j]
  {
    if |xs| == 0 then []
    else
      var d := FirstAppearances(xs[..|xs| - 1]);
      var x := xs[|xs| - 1];
      assert forall y :: y in xs <==> y in xs[..|xs| - 1] || y == x;
      if x in d then d else d + [x]
  }

  function RootsOf(es: seq<ColorOption>): (r: seq<string>)
    ensures |r| == |es|
    ensures forall i :: 0 <= i < |es| ==> r[i] == Root(es[i].name)
  {
    if |es| == 0 then [] else RootsOf(es[..|es| - 1]) + [Root(es[|es| - 1].name)]
  }

  /** One group per root of `ds`, each holding that root's entries of `es`. */
  function GroupsFor(ds: seq<string>, es: seq<ColorOption>): (r: seq<ColorGroup>)
    ensures |r| == |ds|
    ensures forall k :: 0 <= k < |ds| ==> r[k] == ColorGroup(ds[k], WithRoot(es, ds[k]))
  {
    if |ds| == 0 then [] else [ColorGroup(ds[0], WithRoot(es, ds[0]))] + GroupsFor(ds[1..], es)
  }

  /**
   * Reference grouping: one group per distinct root, in order of first
   * appearance, holding that root's entries in table order.
   */
  function GroupsOf(es: seq<ColorOption>): seq<ColorGroup> {
    GroupsFor(FirstAppearances(RootsOf(es)), es)
  }

  /** Position of the group named `root`, if any. */
  function FindGroup(groups: seq<ColorGroup>, root: string): (r: Option<nat>)
    ensures r.Some? ==> r.value < |groups| && groups[r.value].group == root
    ensures r.None? ==> forall k :: 0 <= k < |groups| ==> groups[k].group != root
  {
    if |groups| == 0 then None
    else if groups[0].group == root then Some(0)
    else match FindGroup(groups[1..], root)
      case Some(k) => Some(k + 1)
      case None => None
  }

  lemma RootsOfSnoc(es: seq<ColorOption>, e: ColorOption)
    ensures RootsOf(es + [e]) == RootsOf(es) + [Root(e.name)]
  {
    assert (es + [e])[..|es|] == es;
  }

  lemma FirstAppearancesSnoc(xs: seq<string>, x: string)
    ensures FirstAppearances(xs + [x])
      == if x in FirstAppearances(xs) then FirstAppearances(xs) else FirstAppearances(xs) + [x]
  {
    assert (xs + [x])[..|xs|] == xs;
  }

  lemma WithRootSnoc(es: seq<ColorOption>, e: ColorOption, root: string)
    ensures WithRoot(es + [e], root) == WithRoot(es, root) + (if Root(e.name) == root then [e] else [])
  {
    assert (es + [e])[..|es|] == es;
  }

  lemma {:induction false} NoRootNoEntries(es: seq<ColorOption>, root: string)
    requires root !in RootsOf(es)
    ensures WithRoot(es, root) == []
  {
    if |es| > 0 {
      var init := es[..|es| - 1];
      assert RootsOf(init) == RootsOf(es)[..|es| - 1];
      assert RootsOf(es)[|es| - 1] == Root(es[|es| - 1].name);
      NoRootNoEntries(init, root);
    }
  }

  /** With distinct group roots, a new entry changes only the group of its own root. */
  lemma GroupsForAddsToOwnGroup(ds: seq<string>, es: seq<ColorOption>, e: ColorOption, k: nat)
    requires k < |ds| && ds[k] == Root(e.name)
    requires forall i, j :: 0 <= i < j < |ds| ==> ds[i] != ds[j]
    ensures GroupsFor(ds, es + [e])
      == GroupsFor(ds, es)[k := GroupsFor(ds, es)[k].(options := GroupsFor(ds, es)[k].options + [e])]
  {
    var gs := GroupsFor(ds, es);
    var lhs := GroupsFor(ds, es + [e]);
    var rhs := gs[k := gs[k].(options := gs[k].options + [e])];
    forall j | 0 <= j < |ds|
      ensures lhs[j] == rhs[j]
    {
      WithRootSnoc(es, e, ds[j]);
      if j != k {
        assert ds[j] != ds[k];
      }
    }
  }

  /** One table entry whose root already has a group lands at the end of that group. */
  lemma GroupStepExisting(es: seq<ColorOption>, e: ColorOption, k: nat)
    requires FindGroup(GroupsOf(es), Root(e.name)) == Some(k)
    ensures GroupsOf(es + [e]) == GroupsOf(es)[k := GroupsOf(es)[k].(options := GroupsOf(es)[k].options + [e])]
  {
    var root := Root(e.name);
    var ds := FirstAppearances(RootsOf(es));
    assert GroupsOf(es)[k].group == ds[k] == root;
    calc {
      GroupsOf(es + [e]);
      GroupsFor(FirstAppearances(RootsOf(es + [e])), es + [e]);
      { RootsOfSnoc(es, e); FirstAppearancesSnoc(RootsOf(es), root); }
      GroupsFor(ds, es + [e]);
      { GroupsForAddsToOwnGroup(ds, es, e, k); }
      GroupsOf(es)[k := GroupsOf(es)[k].(options := GroupsOf(es)[k].options + [e])];
    }
  }

  /** Groups for roots other than the new entry's do not see it. */
  lemma GroupsForIgnoresOtherRoot(ds: seq<string>, es: seq<ColorOption>, e: ColorOption)
    requires Root(e.name) !in ds
    ensures GroupsFor(ds, es + [e]) == GroupsFor(ds, es)
  {
    forall j | 0 <= j < |ds|
      ensures GroupsFor(ds, es + [e])[j] == GroupsFor(ds, es)[j]
    {
      WithRootSnoc(es, e, ds[j]);
    }
  }

  lemma GroupsForSnoc(ds: seq<string>, d: string, es: seq<ColorOption>)
    ensures GroupsFor(ds + [d], es) == GroupsFor(ds, es) + [ColorGroup(d, WithRoot(es, d))]
  {
    var lhs := GroupsFor(ds + [d], es);
    var rhs := GroupsFor(ds, es) + [ColorGroup(d, WithRoot(es, d))];
    forall j | 0 <= j < |ds| + 1
      ensures lhs[j] == rhs[j]
    {
      if j < |ds| {
        assert (ds + [d])[j] == ds[j];
      }
    }
  }

  /** No group is named `root` exactly when no table entry has that root. */
  lemma NoGroupMeansNewRoot(es: seq<ColorOption>, root: string)
    requires FindGroup(GroupsOf(es), root) == None
    ensures root !in FirstAppearances(RootsOf(es))
    ensures root !in RootsOf(es)
  {
    var ds := FirstAppearances(RootsOf(es));
    forall j | 0 <= j < |ds|
      ensures ds[j] != root
    {
      assert GroupsOf(es)[j].group == ds[j];
    }
  }

  /** An entry with a new root is the only entry with that root. */
  lemma NewRootEntries(es: seq<ColorOption>, e: ColorOption)
    requires Root(e.name) !in RootsOf(es)
    ensures WithRoot(es + [e], Root(e.name)) == [e]
  {
    WithRootSnoc(es, e, Root(e.name));
    NoRootNoEntries(es, Root(e.name));
    assert WithRoot(es, Root(e.name)) + [e] == [e];
  }

  /** One table entry with a root not seen before opens a new group at the end. */
  lemma GroupStepNew(es: seq<ColorOption>, e: ColorOption)
    requires FindGroup(GroupsOf(es), Root(e.name)) == None
    ensures GroupsOf(es + [e]) == GroupsOf(es) + [ColorGroup(Root(e.name), [e])]
  {
    var root := Root(e.name);
    var ds := FirstAppearances(RootsOf(es));
    var x := es + [e];
    NoGroupMeansNewRoot(es, root);
    calc {
      GroupsOf(x);
      GroupsFor(FirstAppearances(RootsOf(x)), x);
      { RootsOfSnoc(es, e); FirstAppearancesSnoc(RootsOf(es), root); }
      GroupsFor(ds + [root], x);
      { GroupsForSnoc(ds, root, x); }
      GroupsFor(ds, x) + [ColorGroup(root, WithRoot(x, root))];
      { GroupsForIgnoresOtherRoot(ds, es, e); }
      GroupsFor(ds, es) + [ColorGroup(root, WithRoot(x, root))];
      { NewRootEntries(es, e); }
      GroupsFor(ds, es) + [ColorGroup(root, [e])];
    }
  }

  /**
   * One step of `groupedColors`: push the entry onto the group of its root, or
   * open a new group at the end for a root not seen before.
   */
  function AddEntry(groups: seq<ColorGroup>, e: ColorOption): seq<ColorGroup> {
    var root := Root(e.name);
    match FindGroup(groups, root)
    case Some(k) => groups[k := groups[k].(options := groups[k].options + [e])]
    case None => groups + [ColorGroup(root, [e])]
  }

  lemma GroupStep(es: seq<ColorOption>, e: ColorOption)
    ensures GroupsOf(es + [e]) == AddEntry(GroupsOf(es), e)
  {
    match FindGroup(GroupsOf(es), Root(e.name))
    case Some(k) => GroupStepExisting(es, e, k);
    case None => GroupStepNew(es, e);
  }

  /** `GroupStep` for a table given as a whole that ends with `e`. */
  lemma GroupStepOf(all: seq<ColorOption>, es: seq<ColorOption>, e: ColorOption)
    requires all == es + [e]
    ensures GroupsOf(all) == AddEntry(GroupsOf(es), e)
  {
    GroupStep(es, e);
  }

  /** `groupedColors`: the table walked once, in order, one `AddEntry` per entry. */
  method GroupColors(entries: seq<ColorOption>) returns (groups: seq<ColorGroup>)
    ensures groups == GroupsOf(entries)
  {
    groups := [];
    var i := 0;
    while i < |entries|
      invariant 0 <= i <= |entries|
      invariant groups == GroupsOf(entries[..i])
    {
      GroupStepOf(entries[..i + 1], entries[..i], entries[i]);
      groups := AddEntry(groups, entries[i]);
      i := i + 1;
    }
    assert entries[..|entries|] == entries;
  }

  /**
   * The grouping is a partition of the table: group names are distinct, every
   * entry sits in the group named by its first word, and a group holds nothing else.
   */
  lemma GroupsPartitionTable(es: seq<ColorOption>)
    ensures forall j, k :: 0 <= j < k < |GroupsOf(es)| ==> GroupsOf(es)[j].group != GroupsOf(es)[k].group
    ensures forall k, o :: 0 <= k < |GroupsOf(es)| && o in GroupsOf(es)[k].options ==>
      o in es && Root(o.name) == GroupsOf(es)[k].group
    ensures forall o :: o in es ==>
      exists k :: 0 <= k < |GroupsOf(es)| && GroupsOf(es)[k].group == Root(o.name) && o in GroupsOf(es)[k].options
  {
    var ds := FirstAppearances(RootsOf(es));
    var gs := GroupsOf(es);
    forall o | o in es
      ensures exists k :: 0 <= k < |gs| && gs[k].group == Root(o.name) && o in gs[k].options
    {
      var i :| 0 <= i < |es| && es[i] == o;
      assert RootsOf(es)[i] == Root(o.name);
      assert Root(o.name) in RootsOf(es);
      assert Root(o.name) in ds;
      var k :| 0 <= k < |ds| && ds[k] == Root(o.name);
      assert gs[k].group == Root(o.name) && o in gs[k].options;
    }
  }

  /** Number of options over all groups. */
  function OptionCount(gs: seq<ColorGroup>): nat {
    if |gs| == 0 then 0 else OptionCount(gs[..|gs| - 1]) + |gs[|gs| - 1].options|
  }

  lemma {:induction false} OptionCountAppendGroup(gs: seq<ColorGroup>, g: ColorGroup)
    ensures OptionCount(gs + [g]) == OptionCount(gs) + |g.options|
  {
    assert (gs + [g])[..|gs|] == gs;
  }

  lemma {:induction false} OptionCountGrowOne(gs: seq<ColorGroup>, k: nat, e: ColorOption)
    requires k < |gs|
    ensures OptionCount(gs[k := gs[k].(options := gs[k].options + [e])]) == OptionCount(gs) + 1
  {
    var gs' := gs[k := gs[k].(options := gs[k].options + [e])];
    if k < |gs| - 1 {
      assert gs'[..|gs| - 1] == gs[..|gs| - 1][k := gs[k].(options := gs[k].options + [e])];
      OptionCountGrowOne(gs[..|gs| - 1], k, e);
    } else {
      assert gs'[..|gs| - 1] == gs[..|gs| - 1];
    }
  }

  /** Grouping loses and duplicates nothing: the groups hold exactly as many options as the table has entries. */
  lemma {:induction false} GroupsKeepEveryEntry(es: seq<ColorOption>)
    ensures OptionCount(GroupsOf(es)) == |es|
  {
    if |es| > 0 {
      var init := es[..|es| - 1];
      var e := es[|es| - 1];
      GroupsKeepEveryEntry(init);
      GroupStepOf(es, init, e);
      OptionCountAddEntry(GroupsOf(init), e);
    }
  }

  /** Filing one entry adds exactly one option to the groups. */
  lemma OptionCountAddEntry(gs: seq<ColorGroup>, e: ColorOption)
    ensures OptionCount(AddEntry(gs, e)) == OptionCount(gs) + 1
  {
    match FindGroup(gs, Root(e.name))
    case Some(k) => OptionCountGrowOne(gs, k, e);
    case None => OptionCountAppendGroup(gs, ColorGroup(Root(e.name), [e]));
  }

  // ------------------------------------------------------------ name to colour

  /** Every option of every group, group by group. */
  function AllOptions(gs: seq<ColorGroup>): (r: seq<ColorOption>)
    ensures forall o :: o in r <==> exists k :: 0 <= k < |gs| && o in gs[k].options
  {
    if |gs| == 0 then [] else
      var r := gs[0].options + AllOptions(gs[1..]);
      assert forall o :: (exists k :: 0 <= k < |gs| && o in gs[k].options) ==>
        o in gs[0].options || exists k :: 0 <= k < |gs[1..]| && o in gs[1..][k].options by {
        forall o | exists k :: 0 <= k < |gs| && o in gs[k].options
          ensures o in gs[0].options || exists k :: 0 <= k < |gs[1..]| && o in gs[1..][k].options
        {
          var k :| 0 <= k < |gs| && o in gs[k].options;
          if k > 0 {
            assert gs[1..][k - 1] == gs[k];
          }
        }
      }
      r
  }

  /** The map filled by assigning `map[label.toLowerCase()] = value` for each option in turn. */
  function Assign(m: map<string, string>, opts: seq<ColorOption>): (r: map<string, string>)
    ensures forall n :: n in r <==> n in m || exists o :: o in opts && LowerCase(o.name) == n
    ensures forall n :: n in r ==>
      (n in m && r[n] == m[n]) || exists o :: o in opts && LowerCase(o.name) == n && r[n] == o.value
    decreases |opts|
  {
    if |opts| == 0 then m
    else
      var r := Assign(m[LowerCase(opts[0].name) := opts[0].value], opts[1..]);
      assert forall o :: o in opts[1..] ==> o in opts;
      r
  }

  /** `labelToHexMap`: every option of every group, lower-cased name to CSS colour. */
  function LabelToHex(gs: seq<ColorGroup>): map<string, string> {
    Assign(map[], AllOptions(gs))
  }

  /**
   * The lower-case names `labelToHexMap`, a plain object, inherits from
   * `Object.prototype`, with the text `'' + value` gives for what they hold:
   * the `Object` function and the prototype object itself. Both are truthy, so
   * `|| "#ccc"` does not apply to them.
   */
  const InheritedLookups: map<string, string> := map[
    "constructor" := "function Object() { [native code] }",
    "__proto__" := "[object Object]"
  ]

  /**
   * The border colour of a variant: `labelToHexMap[color.toLowerCase()] || "#ccc"`.
   * The map's own entry comes first; a name the map lacks falls through to the
   * inherited properties, and only then to grey.
   */
  function BorderColor(hexes: map<string, string>, color: string): (r: string)
    ensures LowerCase(color) in hexes && hexes[LowerCase(color)] != "" ==> r == hexes[LowerCase(color)]
    ensures LowerCase(color) in hexes && hexes[LowerCase(color)] == "" ==> r == FallbackHex
    ensures LowerCase(color) !in hexes && LowerCase(color) in InheritedLookups ==>
      r == InheritedLookups[LowerCase(color)] && r != FallbackHex
    ensures LowerCase(color) !in hexes && LowerCase(color) !in InheritedLookups ==> r == FallbackHex
  {
    var key := LowerCase(color);
    if key in hexes then (if hexes[key] != "" then hexes[key] else FallbackHex)
    else if key in InheritedLookups then InheritedLookups[key]
    else FallbackHex
  }

  /** Typing "Constructor" finds the inherited `Object` function, not the grey fallback. */
  lemma InheritedNameIsNotGrey()
    ensures BorderColor(map[], "Constructor") != FallbackHex
  {
    LowerCaseOfConstructor();
    assert "constructor" in InheritedLookups;
  }

  /** No two entries share a name once lower-cased, so no entry's key is overwritten by another's. */
  predicate DistinctNames(es: seq<ColorOption>) {
    forall i, j :: 0 <= i < j < |es| ==> LowerCase(es[i].name) != LowerCase(es[j].name)
  }

  /** A colour named in the table, typed in any case, paints the border with its own table colour. */
  lemma ListedColorBorder(es: seq<ColorOption>, e: ColorOption, color: string)
    requires DistinctNames(es)
    requires e in es && e.value != ""
    requires LowerCase(color) == LowerCase(e.name)
    ensures BorderColor(LabelToHex(GroupsOf(es)), color) == e.value
  {
    var gs := GroupsOf(es);
    var m := LabelToHex(gs);
    var key := LowerCase(e.name);
    assert e in AllOptions(gs) by {
      GroupsPartitionTable(es);
    }
    assert key in m;
    var o :| o in AllOptions(gs) && LowerCase(o.name) == key && m[key] == o.value;
    assert o in es by {
      GroupsPartitionTable(es);
    }
    SameNameSameOption(es, o, e);
  }

  lemma SameNameSameOption(es: seq<ColorOption>, a: ColorOption, b: ColorOption)
    requires DistinctNames(es) && a in es && b in es && LowerCase(a.name) == LowerCase(b.name)
    ensures a == b
  {
    var i :| 0 <= i < |es| && es[i] == a;
    var j :| 0 <= j < |es| && es[j] == b;
    assert i == j;
  }

  /** Typing "Đỏ" for the table's "đỏ" still gives the red border. */
  lemma CapitalisedColorBorder(es: seq<ColorOption>)
    requires DistinctNames(es) && ColorOption("đỏ", "red") in es
    ensures BorderColor(LabelToHex(GroupsOf(es)), "Đỏ") == "red"
  {
    LowerCaseOfCapitalRed();
    ListedColorBorder(es, ColorOption("đỏ", "red"), "Đỏ");
  }

  /** A colour that matches no table name and no inherited name, in any case, gets the grey border. */
  lemma UnlistedColorBorder(es: seq<ColorOption>, color: string)
    requires forall o :: o in es ==> LowerCase(o.name) != LowerCase(color)
    requires LowerCase(color) !in InheritedLookups
    ensures BorderColor(LabelToHex(GroupsOf(es)), color) == FallbackHex
  {
    var gs := GroupsOf(es);
    GroupsPartitionTable(es);
    assert LowerCase(color) !in LabelToHex(gs);
  }
}

=== FILE: customer_orders.dfy ===
/**
 * The customer's own order list: the same status tabs as the admin list,
 * and a cancel button on orders not yet shipped. The confirmation dialog and
 * the server's answer are inputs.
 */
module CustomerOrdersPage {
  import opened Wrappers
  import opened Orders
  import AdminOrdersPage

  /** The status column: the status name, or nothing for an unknown code. */
  function StatusLabel(status: int): (r: string)
    ensures Pending <= status <= Cancelled ==> Some(r) == StatusName(status)
    ensures !(Pending <= status <= Cancelled) ==> r == ""
  {
    StatusName(status).GetOr("")
  }

  /** The cancel button is shown while the order waits or is being prepared. */
  predicate CanCancel(status: int) {
    status == Pending || status == Preparing
  }

  /** `handleCancelOrder`: nothing happens unless the customer confirms and the server accepts. */
  function CancelOrder(orders: seq<Order>, id: int, confirmed: bool, serverOk: bool): (r: seq<Order>)
    ensures !(confirmed && serverOk) ==> r == orders
    ensures confirmed && serverOk ==> r == SetStatus(orders, id, Cancelled)
  {
    if confirmed && serverOk then SetStatus(orders, id, Cancelled) else orders
  }

  /** A customer may only cancel what the admin lifecycle allows to be cancelled, and less: a shipped order can no longer be. */
  lemma CustomerCancelFollowsLifecycle(status: int)
    ensures CanCancel(status) ==> AdminOrdersPage.Advances(status, Cancelled)
    ensures status == Shipping ==> AdminOrdersPage.Advances(status, Cancelled) && !CanCancel(status)
  {
  }

  /** Once cancelled, an order is listed under "Đã hủy" and no longer offers the cancel button. */
  lemma CancelledOrderMovesToItsTab(orders: seq<Order>, id: int)
    ensures var r := CancelOrder(orders, id, true, true);
      forall o :: o in r && o.id == id ==> !CanCancel(o.status) && o in TabFilter(r, TabOf(Cancelled))
  {
    var r := CancelOrder(orders, id, true, true);
    forall o | o in r && o.id == id
      ensures !CanCancel(o.status) && o in TabFilter(r, TabOf(Cancelled))
    {
      var i :| 0 <= i < |r| && r[i] == o;
      StatusTabShowsItsStatus(r, Cancelled, o);
    }
  }

  /** Cancelling twice is cancelling once. */
  lemma CancelIdempotent(orders: seq<Order>, id: int)
    ensures CancelOrder(CancelOrder(orders, id, true, true), id, true, true) == CancelOrder(orders, id, true, true)
  {
    SetStatusTwice(orders, id, Cancelled, Cancelled);
  }
}

=== FILE: dashboard.dfy ===
/**
 * The admin dashboard's figures: revenue over all orders and the number of
 * orders per status shown as a bar chart.
 */
module Dashboard {
  import opened Wrappers
  import opened Text
  import opened Orders

  /** How many orders have the status. */
  function CountStatus(orders: seq<Order>, status: int): (r: nat)
    ensures r <= |orders|
  {
    if |orders| == 0 then 0
    else CountStatus(orders[..|orders| - 1], status) + (if orders[|orders| - 1].status == status then 1 else 0)
  }

  /** The bar for a status counts exactly the orders its tab lists. */
  lemma {:induction false} CountIsTabSize(orders: seq<Order>, status: int)
    ensures CountStatus(orders, status) == |ByStatus(orders, Int(status))|
  {
    if |orders| > 0 {
      CountIsTabSize(orders[..|orders| - 1], status);
    }
  }

  /**
   * `getOrderStatusData`: one counter per status 0 to 4, each order adding one
   * to the counter of its status. A status outside 0 to 4 adds to no bar.
   */
  method StatusCounts(orders: seq<Order>) returns (counts: seq<int>)
    ensures |counts| == 5
    ensures forall s :: 0 <= s < 5 ==> counts[s] == CountStatus(orders, s)
  {
    counts := [0, 0, 0, 0, 0];
    var i := 0;
    while i < |orders|
      invariant 0 <= i <= |orders|
      invariant |counts| == 5
      invariant forall s :: 0 <= s < 5 ==> counts[s] == CountStatus(orders[..i], s)
    {
      var status := orders[i].status;
      assert orders[..i + 1][..i] == orders[..i];
      if 0 <= status < 5 {
        counts := counts[status := counts[status] + 1];
      }
      i := i + 1;
    }
    assert orders[..|orders|] == orders;
  }

  function SumOfCounts(orders: seq<Order>): int {
    CountStatus(orders, 0) + CountStatus(orders, 1) + CountStatus(orders, 2)
      + CountStatus(orders, 3) + CountStatus(orders, 4)
  }

  /** When every status is known, the bars add up to the number of orders shown below the chart. */
  lemma {:induction false} CountsAddUp(orders: seq<Order>)
    requires forall i :: 0 <= i < |orders| ==> Pending <= orders[i].status <= Cancelled
    ensures SumOfCounts(orders) == |orders|
  {
    if |orders| > 0 {
      CountsAddUp(orders[..|orders| - 1]);
    }
  }

  /** The sum of the amounts the order lists show. */
  function AmountsTotal(orders: seq<Order>): real {
    if |orders| == 0 then 0.0 else AmountsTotal(orders[..|orders| - 1]) + OrderAmount(orders[|orders| - 1])
  }

  predicate AllHaveItems(orders: seq<Order>) {
    forall i :: 0 <= i < |orders| ==> orders[i].items.Some?
  }

  /**
   * `getTotalRevenue`: the price sum of every order, cancelled ones included.
   * It reads `order.items` without a guard, so an order without items makes
   * the page fail (`None`).
   */
  function Revenue(orders: seq<Order>): (r: Option<real>)
    ensures r.None? <==> !AllHaveItems(orders)
  {
    if |orders| == 0 then Some(0.0)
    else
      var last := orders[|orders| - 1];
      match (Revenue(orders[..|orders| - 1]), last.items)
      case (Some(total), Some(items)) => Some(total + ItemsTotal(items))
      case _ => None
  }

  /** When it renders, the revenue is the sum of the amounts in the order lists. */
  lemma {:induction false} RevenueMatchesLists(orders: seq<Order>)
    requires AllHaveItems(orders)
    ensures Revenue(orders) == Some(AmountsTotal(orders))
  {
    if |orders| > 0 {
      RevenueMatchesLists(orders[..|orders| - 1]);
    }
  }

  function Revenues(orders: seq<Order>, status: int): real {
    AmountsTotal(ByStatus(orders, Int(status)))
  }

  lemma {:induction false} AmountsTotalAppend(orders: seq<Order>, o: Order)
    ensures AmountsTotal(orders + [o]) == AmountsTotal(orders) + OrderAmount(o)
  {
    assert (orders + [o])[..|orders|] == orders;
  }

  /** When every status is known, the revenue is split without loss among the five tabs. */
  lemma {:induction false} RevenueSplitsByStatus(orders: seq<Order>)
    requires forall i :: 0 <= i < |orders| ==> Pending <= orders[i].status <= Cancelled
    ensures AmountsTotal(orders) ==
      Revenues(orders, 0) + Revenues(orders, 1) + Revenues(orders, 2) + Revenues(orders, 3) + Revenues(orders, 4)
  {
    if |orders| > 0 {
      var init := orders[..|orders| - 1];
      var last := orders[|orders| - 1];
      RevenueSplitsByStatus(init);
      forall s | 0 <= s < 5
        ensures Revenues(orders, s) == Revenues(init, s) + (if last.status == s then OrderAmount(last) else 0.0)
      {
        if last.status == s {
          AmountsTotalAppend(ByStatus(init, Int(s)), last);
        } else {
          assert ByStatus(orders, Int(s)) == ByStatus(init, Int(s)) + [];
          assert ByStatus(init, Int(s)) + [] == ByStatus(init, Int(s));
        }
      }
    }
  }
}

=== FILE: header.dfy ===
/**
 * The storefront header: how many top-level categories fit in the navigation
 * bar and which go into the "more" menu, the category links, the cart badge,
 * the admin flag and logout. The bar's pixel width, the stored role and the
 * outcome of the logout request are inputs.
 */
module Header {
  import opened Wrappers
  import opened Text
  import opened Cart
  import opened CategoryTree

  /** Each category takes 150 pixels of the bar; 100 pixels are kept free. */
  const ItemWidth := 150
  const ReservedWidth := 100

  /** `Math.floor((navWidth - 100) / 150)`; negative when the bar is narrower than 100 pixels. */
  function MaxVisible(navWidth: int): (r: int)
    ensures r * ItemWidth <= navWidth - ReservedWidth < (r + 1) * ItemWidth
  {
    (navWidth - ReservedWidth) / ItemWidth
  }

  /** How `Array.prototype.slice` reads an index: a negative one counts from the end, and both are clamped to the list. */
  function SliceIndex(len: nat, k: int): (r: nat)
    ensures r <= len
    ensures 0 <= k ==> r == if k <= len then k else len
    ensures k < 0 ==> r == if len + k >= 0 then len + k else 0
  {
    if k < 0 then (if len + k >= 0 then len + k else 0)
    else if k <= len then k else len
  }

  /** `categories.slice(0, k)` and `categories.slice(k)`. */
  function SliceTo<T>(xs: seq<T>, k: int): seq<T> {
    xs[..SliceIndex(|xs|, k)]
  }

  function SliceFrom<T>(xs: seq<T>, k: int): seq<T> {
    xs[SliceIndex(|xs|, k)..]
  }

  /** `calculateVisibleItems` as written: the visible categories and those in the "more" menu. */
  function SplitCategoriesAsWritten(categories: seq<Category>, navWidth: int): (r: (seq<Category>, seq<Category>))
    ensures r.0 + r.1 == categories
    ensures navWidth >= ReservedWidth ==>
      |r.0| == if MaxVisible(navWidth) <= |categories| then MaxVisible(navWidth) else |categories|
  {
    var k := MaxVisible(navWidth);
    (SliceTo(categories, k), SliceFrom(categories, k))
  }

  /**
   * Before the bar has room for even one item, `maxVisible` is -1, and a slice
   * to -1 stops one short of the end: all categories but the last are shown.
   */
  lemma NarrowBarShowsAllButLast()
    ensures var cats := [Category(1, "Nam", []), Category(2, "Nữ", []), Category(3, "Trẻ em", [])];
      SplitCategoriesAsWritten(cats, 0).0 == cats[..2] && SplitCategories(cats, 0).0 == []
  {
  }

  /** The split with the index clamped at zero, so a narrow bar shows nothing. */
  function SplitCategories(categories: seq<Category>, navWidth: int): (r: (seq<Category>, seq<Category>))
    ensures r.0 + r.1 == categories
    ensures |r.0| * ItemWidth <= if navWidth >= ReservedWidth then navWidth - ReservedWidth else 0
    ensures |r.0| < |categories| ==> (|r.0| + 1) * ItemWidth > navWidth - ReservedWidth
  {
    var k := if MaxVisible(navWidth) < 0 then 0 else MaxVisible(navWidth);
    (SliceTo(categories, k), SliceFrom(categories, k))
  }

  /** Where the bar is wide enough for one item, both splits agree. */
  lemma SplitsAgreeOnWideBars(categories: seq<Category>, navWidth: int)
    requires navWidth >= ReservedWidth
    ensures SplitCategories(categories, navWidth) == SplitCategoriesAsWritten(categories, navWidth)
  {
  }

  /** The link of a category: `/products?categoryId=<id>`. */
  function CategoryLink(id: int): (r: string)
    ensures StartsWith(r, "/products?categoryId=")
  {
    "/products?categoryId=" + IntToString(id)
  }

  /** The id can be read back from the link: the text after the prefix parses to it. */
  lemma CategoryLinkReadsBack(id: int)
    ensures ParseInt(CategoryLink(id)[|"/products?categoryId="|..]) == Int(id)
  {
    assert CategoryLink(id)[|"/products?categoryId="|..] == IntToString(id);
    IntToStringRoundTrip(id);
  }

  /** The role name of an administrator. */
  const AdminRole := "ROLE_ADMIN"

  /**
   * The effect that runs when the user changes: the user's role or, failing
   * that, the role kept in storage, can only switch the admin flag on.
   */
  function AdminFlagAfter(current: bool, userRole: Option<string>, storedRole: Option<string>): (r: bool)
    ensures r <==> current || userRole == Some(AdminRole) || storedRole == Some(AdminRole)
  {
    if userRole == Some(AdminRole) then true
    else if storedRole == Some(AdminRole) then true
    else current
  }

  datatype HeaderState = HeaderState(loggedIn: bool, isAdmin: bool, cart: seq<CartItem>, storage: map<string, string>)

  /** The storage keys logout clears. */
  const SessionKeys: set<string> := {"user", "cart", "selectedItems", "userRole"}

  function Lookup(storage: map<string, string>, key: string): Option<string> {
    if key in storage then Some(storage[key]) else None
  }

  /** `handleLogout`: when the server logs the user out, the session is forgotten; otherwise nothing changes. */
  function Logout(s: HeaderState, serverOk: bool): (r: HeaderState)
    ensures !serverOk ==> r == s
    ensures serverOk ==> !r.loggedIn && !r.isAdmin && r.cart == []
    ensures serverOk ==> forall k :: k in r.storage <==> k in s.storage && k !in SessionKeys
    ensures forall k :: k in r.storage ==> k in s.storage && r.storage[k] == s.storage[k]
  {
    if serverOk then HeaderState(false, false, [], s.storage - SessionKeys) else s
  }

  /** After logout the admin flag cannot come back from storage: the effect leaves it off. */
  lemma LogoutEndsAdmin(s: HeaderState)
    ensures var r := Logout(s, true);
      !AdminFlagAfter(r.isAdmin, None, Lookup(r.storage, "userRole")) && TotalQuantity(r.cart) == 0
  {
  }

  /** The user-menu arrow: each click flips the dropdown. */
  function ToggleDropdown(open: bool): (r: bool)
    ensures r != open
  {
    !open
  }
}

=== FILE: home_page.dfy ===
/**
 * The home page: the rotating banner, moved by a timer and by the previous and
 * next buttons, and the first products of the featured category.
 */
module HomePage {

  const BannerCount := 3

  /** How many products the featured strip shows. */
  const FeaturedCount := 8

  /**
   * JavaScript's `%` on integers: the remainder takes the sign of the dividend
   * and differs from it by a multiple of the divisor.
   */
  function JsRem(a: int, n: int): (r: int)
    requires n > 0
    ensures a >= 0 ==> r == a % n
    ensures -n < r < n
    ensures a < 0 ==> r <= 0
    ensures (a - r) % n == 0
  {
    if a >= 0 then
      RemainderOffDividend(a, n);
      a % n
    else
      NegatedRemainder(a, n);
      -((-a) % n)
  }

  /** A non-zero multiple of `n` is at least `n` away from zero. */
  lemma {:induction false} ProductAwayFromZero(c: int, n: int)
    requires n > 0
    ensures c == 0 || c * n >= n || c * n <= -n
    decreases if c < 0 then -c else c
  {
    if c > 1 {
      ProductAwayFromZero(c - 1, n);
      assert c * n == (c - 1) * n + n;
    } else if c < -1 {
      ProductAwayFromZero(c + 1, n);
      assert c * n == (c + 1) * n - n;
    }
  }

  lemma MultipleHasNoRemainder(q: int, n: int)
    requires n > 0
    ensures (q * n) % n == 0
  {
    var d, e := (q * n) / n, (q * n) % n;
    assert q * n == d * n + e;
    assert (q - d) * n == e;
    ProductAwayFromZero(q - d, n);
  }

  /** Taking off the remainder leaves a multiple of the divisor. */
  lemma RemainderOffDividend(a: int, n: int)
    requires n > 0
    ensures (a - a % n) % n == 0
  {
    assert a - a % n == (a / n) * n;
    MultipleHasNoRemainder(a / n, n);
  }

  /** The negated remainder of `-a` also differs from `a` by a multiple of the divisor. */
  lemma NegatedRemainder(a: int, n: int)
    requires n > 0
    ensures (a + (-a) % n) % n == 0
  {
    var q, m := (-a) / n, (-a) % n;
    assert -a == q * n + m;
    MultipleHasNoRemainder(-q, n);
    assert a + m == (-q) * n;
  }

  /** `-4 % 3` is `-1` in JavaScript, where the Euclidean remainder is 2. */
  lemma JsRemOfNegative()
    ensures JsRem(-4, 3) == -1
  {
  }

  /** A banner index the page can show. */
  predicate ValidBanner(i: int) {
    0 <= i < BannerCount
  }

  /** The timer and the next button: `(prev + 1) % banners.length`. */
  function NextBanner(i: int): (r: int)
    requires ValidBanner(i)
    ensures ValidBanner(r)
  {
    JsRem(i + 1, BannerCount)
  }

  /** The previous button: `(prev - 1 + banners.length) % banners.length`. */
  function PrevBanner(i: int): (r: int)
    requires ValidBanner(i)
    ensures ValidBanner(r)
  {
    JsRem(i - 1 + BannerCount, BannerCount)
  }

  /** Previous undoes next and next undoes previous. */
  lemma PrevNextInverse(i: int)
    requires ValidBanner(i)
    ensures PrevBanner(NextBanner(i)) == i
    ensures NextBanner(PrevBanner(i)) == i
  {
  }

  /** Three steps of the timer bring back the same banner, and every banner is reached from the first. */
  lemma TimerCycles(i: int)
    requires ValidBanner(i)
    ensures NextBanner(NextBanner(NextBanner(i))) == i
    ensures NextBanner(0) == 1 && NextBanner(1) == 2 && NextBanner(2) == 0
  {
  }

  /** Without the added length, going back from the first banner would give -1, which names no banner. */
  lemma OffsetIsNeeded()
    ensures JsRem(0 - 1, BannerCount) == -1 && !ValidBanner(JsRem(0 - 1, BannerCount))
  {
  }

  /** `content.slice(0, 8)`: the first eight products, or all of them when there are fewer. */
  function Featured<T>(products: seq<T>): (r: seq<T>)
    ensures |r| == if |products| < FeaturedCount then |products| else FeaturedCount
    ensures forall i :: 0 <= i < |r| ==> r[i] == products[i]
  {
    if |products| < FeaturedCount then products else products[..FeaturedCount]
  }
}

=== FILE: login.dfy ===
/**
 * The sign-in page: the email and password checks, the early return on an
 * email error, the role read from the server's answer and the error shown when
 * signing in fails. The email-existence check and the server's answers are inputs.
 */
module LoginPage {
  import opened Wrappers
  import opened Text
  import opened QueryParams
  import RouteGuard
  import Header

  /** `/^\S+@\S+$/i`: a non-empty run of non-space characters, `@`, and another one. */
  ghost predicate MatchesEmailPattern(s: string) {
    exists a: string, b: string :: s == a + "@" + b && |a| > 0 && |b| > 0 && NoSpace(a) && NoSpace(b)
  }

  /** The same test as a scan: no white space anywhere, and an `@` with a character on each side. */
  function EmailPatternOk(s: string): (r: bool)
    ensures r <==> MatchesEmailPattern(s)
  {
    ScanMatchesPattern(s);
    NoSpace(s) && exists k :: 0 < k < |s| - 1 && s[k] == '@'
  }

  lemma ScanMatchesPattern(s: string)
    ensures (NoSpace(s) && exists k :: 0 < k < |s| - 1 && s[k] == '@') <==> MatchesEmailPattern(s)
  {
    if NoSpace(s) && exists k :: 0 < k < |s| - 1 && s[k] == '@' {
      var k :| 0 < k < |s| - 1 && s[k] == '@';
      assert s == s[..k] + "@" + s[k + 1..];
      assert NoSpace(s[..k]) && NoSpace(s[k + 1..]);
    }
    if MatchesEmailPattern(s) {
      var a: string, b: string :| s == a + "@" + b && |a| > 0 && |b| > 0 && NoSpace(a) && NoSpace(b);
      assert s[|a|] == '@';
      forall i | 0 <= i < |s| ensures !IsSpace(s[i]) {
        if i < |a| { assert s[i] == a[i]; }
        else if i > |a| { assert s[i] == b[i - |a| - 1]; }
      }
    }
  }

  const EmailRequired := "Email không được để trống"
  const EmailMalformed := "Email không hợp lệ"
  const EmailUnknown := "Email không tồn tại trong hệ thống!"
  const PasswordRequired := "Mật khẩu không được để trống"
  const WrongPassword := "Sai mật khẩu!"

  /** The rule-based email message: required first, then the pattern. */
  function EmailRuleError(email: string): (r: Option<string>)
    ensures r.None? <==> email != "" && MatchesEmailPattern(email)
    ensures email == "" ==> r == Some(EmailRequired)
  {
    if email == "" then Some(EmailRequired)
    else if !EmailPatternOk(email) then Some(EmailMalformed)
    else None
  }

  function PasswordRuleError(password: string): (r: Option<string>)
    ensures r.None? <==> password != ""
  {
    if password == "" then Some(PasswordRequired) else None
  }

  /**
   * `errors.email` for the current value. Each keystroke validates the rules
   * (`mode: 'onChange'`). A non-empty value is then sent to the existence
   * check, whose answer (`known`; `None` before it arrives or when it fails)
   * comes last: "unknown" replaces the message with `setError`, "known" removes
   * it with `clearErrors`, whatever the rules said.
   */
  function EmailError(email: string, known: Option<bool>): (r: Option<string>)
    ensures email == "" ==> r == Some(EmailRequired)
    ensures email != "" && known.None? ==> r == EmailRuleError(email)
    ensures email != "" && known == Some(false) ==> r == Some(EmailUnknown)
    ensures email != "" && known == Some(true) ==> r.None?
  {
    if email == "" then EmailRuleError(email)
    else match known
      case None => EmailRuleError(email)
      case Some(false) => Some(EmailUnknown)
      case Some(true) => None
  }

  /** The server's answer overrides the pattern: a malformed address it knows shows no message, one it does not know shows "unknown". */
  lemma ServerAnswerOverridesPattern()
    ensures EmailRuleError("abc") == Some(EmailMalformed)
    ensures EmailError("abc", None) == Some(EmailMalformed)
    ensures EmailError("abc", Some(false)) == Some(EmailUnknown)
    ensures EmailError("abc", Some(true)) == None
  {
    assert !EmailPatternOk("abc");
  }

  /**
   * `disabled={!isValid}` right after the existence check has answered, with
   * no later keystroke: `isValid` holds when the registered rules pass, and
   * `setError` forces it to false.
   */
  function ButtonEnabled(email: string, password: string, known: Option<bool>): (r: bool)
    ensures r <==> email != "" && MatchesEmailPattern(email) && password != "" && known != Some(false)
  {
    EmailRuleError(email).None? && PasswordRuleError(password).None? && known != Some(false)
  }

  /**
   * Whether submitting reaches the server: `handleSubmit` calls `onSubmit`
   * only when the registered rules pass, and line 68 then returns early when
   * `errors.email` still holds a message (`emailErrorAtSubmit`).
   */
  function SendsRequest(email: string, password: string, emailErrorAtSubmit: Option<string>): (r: bool)
    ensures r <==> email != "" && MatchesEmailPattern(email) && password != "" && emailErrorAtSubmit.None?
  {
    EmailRuleError(email).None? && PasswordRuleError(password).None? && emailErrorAtSubmit.None?
  }

  /**
   * An address the server does not know disables the button, and if its
   * message is still in `errors` at submit the early return keeps the request
   * back; an address it knows enables the button and is sent.
   */
  lemma UnknownEmailIsStoppedAtSubmit(password: string)
    requires password != ""
    ensures !ButtonEnabled("a@b", password, Some(false))
    ensures !SendsRequest("a@b", password, EmailError("a@b", Some(false)))
    ensures ButtonEnabled("a@b", password, Some(true))
    ensures SendsRequest("a@b", password, EmailError("a@b", Some(true)))
  {
    var s := "a@b";
    assert s == "a" + "@" + "b";
    assert NoSpace("a") && NoSpace("b");
  }

  /** `role[0]?.authority ?? ''`: the first authority, or "" when there is none. */
  function RoleOf(authorities: seq<string>): (r: string)
    ensures |authorities| == 0 ==> r == ""
    ensures |authorities| > 0 ==> r == authorities[0]
  {
    if |authorities| == 0 then "" else authorities[0]
  }

  /** The stored role makes the header show the admin menu exactly when the first authority is the admin role. */
  lemma StoredRoleDrivesAdminMenu(authorities: seq<string>)
    ensures Header.AdminFlagAfter(false, None, Some(RoleOf(authorities)))
      <==> |authorities| > 0 && authorities[0] == Header.AdminRole
  {
  }

  /** The message after a failed sign-in: `error.response?.data || 'Sai mật khẩu!'`. */
  function SignInError(responseData: Option<string>): (r: string)
    ensures r != ""
    ensures responseData.Some? && responseData.value != "" ==> r == responseData.value
    ensures responseData.None? || responseData == Some("") ==> r == WrongPassword
  {
    match responseData
    case Some(d) => if d != "" then d else WrongPassword
    case None => WrongPassword
  }

  /** `searchParams.get('redirect') || ''`. */
  function RedirectParam(query: Params): (r: string)
    ensures Get(query, "redirect").Some? ==> r == Get(query, "redirect").value
    ensures Get(query, "redirect").None? ==> r == ""
  {
    Get(query, "redirect").GetOr("")
  }

  /** With refused visitors sent to the sign-in page, signing in hands back the page they asked for. */
  lemma SignInReturnsToRequestedPage(path: string, query: Params, role: Option<string>)
    requires !RouteGuard.Admitted(path, role)
    ensures var d := RouteGuard.GuardToSignIn(path, query, role);
      d.Redirect? && d.target == RouteGuard.LoginPath && RedirectParam(d.query) == path
  {
  }
}

=== FILE: orders.dfy ===
/**
 * Orders as the order lists and the dashboard receive them: a status code
 * 0 to 4, and items that carry a price which may be missing. The status names,
 * the status tabs and the price sum are shared by the admin list, the
 * customer's list and the dashboard.
 */
module Orders {
  import opened Wrappers
  import opened Text

  datatype OrderItem = OrderItem(price: Option<real>)

  /** `items` is absent when the server sends an order without it. */
  datatype Order = Order(id: int, status: int, items: Option<seq<OrderItem>>)

  const Pending := 0
  const Preparing := 1
  const Shipping := 2
  const Completed := 3
  const Cancelled := 4

  /** `statusMap`: the name of each known status. */
  function StatusName(status: int): (r: Option<string>)
    ensures r.Some? <==> Pending <= status <= Cancelled
  {
    if status == Pending then Some("Chờ xử lý")
    else if status == Preparing then Some("Đang chuẩn bị")
    else if status == Shipping then Some("Đang vận chuyển")
    else if status == Completed then Some("Đã hoàn thành")
    else if status == Cancelled then Some("Đã hủy")
    else None
  }

  /** The five status names are pairwise different, so a label identifies its status. */
  lemma StatusNamesDistinct(a: int, b: int)
    requires StatusName(a).Some? && StatusName(a) == StatusName(b)
    ensures a == b
  {
    var names := ["Chờ xử lý", "Đang chuẩn bị", "Đang vận chuyển", "Đã hoàn thành", "Đã hủy"];
    assert forall i :: 0 <= i < 5 ==> StatusName(i) == Some(names[i]);
    assert names[0][0] != names[1][0] && names[0][0] != names[3][0];
    assert names[1][5] != names[2][5] && names[0][0] != names[2][0] && names[0][0] != names[4][0];
    assert names[1][2] != names[3][2] && names[1][2] != names[4][2];
    assert names[2][2] != names[3][2] && names[2][2] != names[4][2] && names[3][4] != names[4][4];
  }

  /** `item.price || 0`: a missing price counts as nothing. */
  function PriceOrZero(item: OrderItem): real {
    item.price.GetOr(0.0)
  }

  /** `items.reduce((total, item) => total + (item.price || 0), 0)`. */
  function ItemsTotal(items: seq<OrderItem>): real {
    if |items| == 0 then 0.0 else ItemsTotal(items[..|items| - 1]) + PriceOrZero(items[|items| - 1])
  }

  /** The amount column of both order lists: the price sum, or 0 when the order has no items. */
  function OrderAmount(order: Order): (r: real)
    ensures order.items.None? ==> r == 0.0
    ensures order.items.Some? ==> r == ItemsTotal(order.items.value)
  {
    match order.items
    case None => 0.0
    case Some(items) => ItemsTotal(items)
  }

  lemma {:induction false} ItemsTotalNonNegative(items: seq<OrderItem>)
    requires forall i :: 0 <= i < |items| ==> items[i].price.Some? ==> items[i].price.value >= 0.0
    ensures ItemsTotal(items) >= 0.0
  {
    if |items| > 0 {
      ItemsTotalNonNegative(items[..|items| - 1]);
    }
  }

  /** Items without a price contribute nothing: dropping them leaves the sum unchanged. */
  lemma {:induction false} UnpricedItemsAddNothing(items: seq<OrderItem>)
    ensures ItemsTotal(items + [OrderItem(None)]) == ItemsTotal(items)
  {
    assert (items + [OrderItem(None)])[..|items|] == items;
  }

  /** The keys of the status tabs, in display order. */
  const AllTab := "all"
  const TabKeys: seq<string> := [AllTab, "0", "1", "2", "3", "4"]

  /** `currentTab === "all" ? orders : orders.filter(o => o.status === parseInt(currentTab))`. */
  function TabFilter(orders: seq<Order>, tab: string): (r: seq<Order>)
    ensures tab == AllTab ==> r == orders
    ensures tab != AllTab ==> forall o :: o in r <==> o in orders && ParseInt(tab) == Int(o.status)
    ensures tab != AllTab ==> r == ByStatus(orders, ParseInt(tab))
    ensures |r| <= |orders|
  {
    if tab == AllTab then orders else ByStatus(orders, ParseInt(tab))
  }

  function ByStatus(orders: seq<Order>, wanted: NumberOrNaN): (r: seq<Order>)
    ensures forall o :: o in r <==> o in orders && wanted == Int(o.status)
    ensures |r| <= |orders|
  {
    if |orders| == 0 then []
    else
      var last := orders[|orders| - 1];
      assert forall o :: o in orders <==> o in orders[..|orders| - 1] || o == last;
      ByStatus(orders[..|orders| - 1], wanted) + (if wanted == Int(last.status) then [last] else [])
  }

  /**
   * `filter` keeps the order and the multiplicity of what it keeps: it maps
   * the empty list to itself, keeps or drops a single order by its status,
   * and distributes over concatenation.
   */
  lemma ByStatusKeepsOrder(a: seq<Order>, b: seq<Order>, wanted: NumberOrNaN)
    ensures ByStatus([], wanted) == []
    ensures forall o :: ByStatus([o], wanted) == (if wanted == Int(o.status) then [o] else [])
    ensures ByStatus(a + b, wanted) == ByStatus(a, wanted) + ByStatus(b, wanted)
  {
    forall o ensures ByStatus([o], wanted) == (if wanted == Int(o.status) then [o] else []) {
      assert [o][..0] == [];
    }
    ByStatusConcat(a, b, wanted);
  }

  /** `ByStatus` distributes over concatenation, by induction on the list it recurses on. */
  lemma {:induction false} ByStatusConcat(a: seq<Order>, b: seq<Order>, wanted: NumberOrNaN)
    ensures ByStatus(a + b, wanted) == ByStatus(a, wanted) + ByStatus(b, wanted)
    decreases |b|
  {
    if |b| == 0 {
      assert a + b == a;
    } else {
      var init, last := b[..|b| - 1], b[|b| - 1];
      ByStatusStep(b, init, last, wanted);
      ByStatusStep(a + b, a + init, last, wanted);
      ByStatusConcat(a, init, wanted);
      AppendAssociative(ByStatus(a, wanted), ByStatus(init, wanted), if wanted == Int(last.status) then [last] else []);
    }
  }

  /** One step of the recursion, with the list split at its last element. */
  lemma ByStatusStep(all: seq<Order>, init: seq<Order>, last: Order, wanted: NumberOrNaN)
    requires all == init + [last]
    ensures ByStatus(all, wanted) == ByStatus(init, wanted) + (if wanted == Int(last.status) then [last] else [])
  {
    assert all[..|all| - 1] == init;
  }

  /** The tab of a status: `s.toString()`. */
  function TabOf(status: int): string {
    IntToString(status)
  }

  /** The status tabs are the codes written out. */
  lemma TabsOfStatuses()
    ensures TabOf(0) == "0" && TabOf(1) == "1" && TabOf(2) == "2" && TabOf(3) == "3" && TabOf(4) == "4"
  {
  }

  /** Each status tab shows exactly the orders of its status. */
  lemma StatusTabShowsItsStatus(orders: seq<Order>, status: int, o: Order)
    requires Pending <= status <= Cancelled
    ensures TabOf(status) in TabKeys
    ensures o in TabFilter(orders, TabOf(status)) <==> o in orders && o.status == status
  {
    TabsOfStatuses();
    var tab := TabOf(status);
    assert tab in TabKeys && tab != AllTab by {
      if status == 0 { assert tab == TabKeys[1]; }
      else if status == 1 { assert tab == TabKeys[2]; }
      else if status == 2 { assert tab == TabKeys[3]; }
      else if status == 3 { assert tab == TabKeys[4]; }
      else { assert tab == TabKeys[5]; }
    }
    IntToStringRoundTrip(status);
    assert ParseInt(tab) == Int(status);
  }

  /** An order with a known status is listed under exactly one status tab. */
  lemma StatusTabsPartition(orders: seq<Order>, o: Order, a: int, b: int)
    requires o in orders && Pending <= o.status <= Cancelled
    requires Pending <= a <= Cancelled && Pending <= b <= Cancelled
    requires o in TabFilter(orders, TabOf(a)) && o in TabFilter(orders, TabOf(b))
    ensures a == b
  {
    StatusTabShowsItsStatus(orders, a, o);
    StatusTabShowsItsStatus(orders, b, o);
  }

  /** `orders.map(o => o.id === id ? { ...o, status } : o)`. */
  function SetStatus(orders: seq<Order>, id: int, status: int): (r: seq<Order>)
    ensures |r| == |orders|
    ensures forall i :: 0 <= i < |orders| && orders[i].id == id ==> r[i] == orders[i].(status := status)
    ensures forall i :: 0 <= i < |orders| && orders[i].id != id ==> r[i] == orders[i]
  {
    if |orders| == 0 then []
    else
      var last := orders[|orders| - 1];
      SetStatus(orders[..|orders| - 1], id, status) + [if last.id == id then last.(status := status) else last]
  }

  /** Setting a status twice keeps only the second. */
  lemma SetStatusTwice(orders: seq<Order>, id: int, a: int, b: int)
    ensures SetStatus(SetStatus(orders, id, a), id, b) == SetStatus(orders, id, b)
  {
  }
}

=== FILE: pagination.dfy ===
/**
 * The page navigation shared by the product list and the admin lists: one
 * button per page (zero-based) shown only when there is more than one page,
 * optional previous/next buttons, and the range-checked page change of the
 * order lists.
 */
module Pagination {

  predicate ValidPage(page: int, totalPages: int) {
    0 <= page < totalPages
  }

  /** The numbered buttons: pages `0 .. totalPages - 1`, or none while there is at most one page. */
  function PageButtons(totalPages: int): (r: seq<int>)
    ensures totalPages <= 1 ==> r == []
    ensures totalPages > 1 ==> |r| == totalPages
    ensures forall i :: 0 <= i < |r| ==> r[i] == i
  {
    if totalPages <= 1 then [] else ButtonsFrom(0, totalPages)
  }

  function ButtonsFrom(first: int, totalPages: int): (r: seq<int>)
    requires 0 <= first <= totalPages
    ensures |r| == totalPages - first
    ensures forall i :: 0 <= i < |r| ==> r[i] == first + i
    decreases totalPages - first
  {
    if first == totalPages then [] else [first] + ButtonsFrom(first + 1, totalPages)
  }

  /** Every numbered button leads to an existing page, and every page has its button. */
  lemma ButtonsAreTheValidPages(totalPages: int, page: int)
    requires totalPages > 1
    ensures page in PageButtons(totalPages) <==> ValidPage(page, totalPages)
  {
    if ValidPage(page, totalPages) {
      assert PageButtons(totalPages)[page] == page;
    }
  }

  /** `goToPage` of the order lists: a page outside `0 .. totalPages - 1` is ignored. */
  function GoToPage(current: int, totalPages: int, target: int): (r: int)
    ensures ValidPage(target, totalPages) ==> r == target
    ensures !ValidPage(target, totalPages) ==> r == current
  {
    if 0 <= target && target < totalPages then target else current
  }

  /** Clicking any button, previous or next never leaves the valid pages. */
  lemma GoToPageStaysValid(current: int, totalPages: int, target: int)
    requires ValidPage(current, totalPages)
    ensures ValidPage(GoToPage(current, totalPages, target), totalPages)
  {
  }

  /** The previous/next buttons of the admin product list, driven by the server's `first` and `last` flags. */
  datatype PagerView = PagerView(shown: bool, prevDisabled: bool, nextDisabled: bool, prevTarget: int, nextTarget: int, buttons: seq<int>)

  /** A page of results as the server describes it. */
  datatype PageInfo = PageInfo(number: int, totalPages: int, first: bool, last: bool)

  predicate Consistent(p: PageInfo) {
    && ValidPage(p.number, p.totalPages)
    && (p.first <==> p.number == 0)
    && (p.last <==> p.number == p.totalPages - 1)
  }

  function Pager(p: PageInfo): (r: PagerView)
    ensures r.shown <==> p.totalPages > 1
    ensures r.buttons == PageButtons(p.totalPages)
  {
    PagerView(p.totalPages > 1, p.first, p.last, p.number - 1, p.number + 1, PageButtons(p.totalPages))
  }

  /** With consistent server flags, an enabled previous or next button always targets an existing page. */
  lemma EnabledArrowsStayInRange(p: PageInfo)
    requires Consistent(p)
    ensures !Pager(p).prevDisabled ==> ValidPage(Pager(p).prevTarget, p.totalPages)
    ensures !Pager(p).nextDisabled ==> ValidPage(Pager(p).nextTarget, p.totalPages)
    ensures Pager(p).prevDisabled ==> !ValidPage(Pager(p).prevTarget, p.totalPages)
    ensures Pager(p).nextDisabled ==> !ValidPage(Pager(p).nextTarget, p.totalPages)
  {
  }
}

=== FILE: pricing.dfy ===
/**
 * Money on the cart and checkout pages: a line costs its unit price less its
 * percentage discount, times its quantity; a list costs the left-to-right sum
 * of its lines; checkout adds a flat shipping fee below a free-shipping threshold.
 * Amounts are exact reals; the two-decimal rounding used for display is left out.
 */
module Pricing {
  import opened Cart

  /** Shipping fee in VND (checkout page, `SHIPPING_FEE`). */
  const ShippingFee: real := 50000.0

  /** Orders whose subtotal reaches this amount ship free (`FREE_SHIPPING_THRESHOLD`). */
  const FreeShippingThreshold: real := 490000.0

  /** A line the shop can sell: non-negative price and quantity, a discount between 0% and 100%. */
  predicate WellPriced(item: CartItem) {
    item.price >= 0.0 && 0.0 <= item.discount <= 100.0 && item.quantity >= 0
  }

  predicate AllWellPriced(items: seq<CartItem>) {
    forall i :: 0 <= i < |items| ==> WellPriced(items[i])
  }

  /** `price * (1 - discount / 100) * quantity`. */
  function LineTotal(item: CartItem): real {
    item.price * (1.0 - item.discount / 100.0) * (item.quantity as real)
  }

  /** A well-priced line costs between nothing and its undiscounted price. */
  lemma LineTotalBounds(item: CartItem)
    requires WellPriced(item)
    ensures 0.0 <= LineTotal(item) <= item.price * (item.quantity as real)
  {
    var f := 1.0 - item.discount / 100.0;
    assert 0.0 <= f <= 1.0;
    var pq := item.price * (item.quantity as real);
    assert pq >= 0.0;
    assert LineTotal(item) == f * pq;
  }

  /** `items.reduce((total, item) => total + lineTotal(item), 0)`. */
  function Subtotal(items: seq<CartItem>): real {
    if |items| == 0 then 0.0 else Subtotal(items[..|items| - 1]) + LineTotal(items[|items| - 1])
  }

  lemma {:induction false} SubtotalAppend(items: seq<CartItem>, item: CartItem)
    ensures Subtotal(items + [item]) == Subtotal(items) + LineTotal(item)
  {
    assert (items + [item])[..|items|] == items;
  }

  /** The subtotal of two lists put together is the sum of their subtotals. */
  lemma {:induction false} SubtotalConcat(a: seq<CartItem>, b: seq<CartItem>)
    ensures Subtotal(a + b) == Subtotal(a) + Subtotal(b)
  {
    if |b| == 0 {
      assert a + b == a;
    } else {
      var init := b[..|b| - 1];
      var last := b[|b| - 1];
      assert a + b == (a + init) + [last];
      assert b == init + [last];
      SubtotalAppend(a + init, last);
      SubtotalAppend(init, last);
      SubtotalConcat(a, init);
    }
  }

  /** A list of well-priced lines never costs a negative amount. */
  lemma {:induction false} SubtotalNonNegative(items: seq<CartItem>)
    requires AllWellPriced(items)
    ensures Subtotal(items) >= 0.0
  {
    if |items| > 0 {
      SubtotalNonNegative(items[..|items| - 1]);
      LineTotalBounds(items[|items| - 1]);
    }
  }

  /** `calculateShippingFee`: free from the threshold up, the flat fee below it. */
  function ShippingFeeFor(subtotal: real): (r: real)
    ensures r == 0.0 || r == ShippingFee
    ensures r == 0.0 <==> subtotal >= FreeShippingThreshold
  {
    if subtotal >= FreeShippingThreshold then 0.0 else ShippingFee
  }

  /** `calculateTotal`: what the customer pays for the selected lines. */
  function OrderTotal(items: seq<CartItem>): (r: real)
    ensures r - Subtotal(items) == 0.0 || r - Subtotal(items) == ShippingFee
    ensures r == Subtotal(items) <==> Subtotal(items) >= FreeShippingThreshold
  {
    Subtotal(items) + ShippingFeeFor(Subtotal(items))
  }

  /** An order of well-priced lines never has a negative total. */
  lemma OrderTotalNonNegative(items: seq<CartItem>)
    requires AllWellPriced(items)
    ensures OrderTotal(items) >= 0.0
  {
    SubtotalNonNegative(items);
  }

  /** Every order total is at least the threshold or pays the fee on top of the subtotal. */
  lemma OrderTotalCases(items: seq<CartItem>)
    ensures OrderTotal(items) >= FreeShippingThreshold
      || OrderTotal(items) == Subtotal(items) + ShippingFee
  {
  }

  /**
   * The total is not monotone in the basket: a basket just under the threshold
   * costs more than the same basket with one more item that reaches it.
   */
  lemma AddingAnItemCanLowerTheTotal()
    ensures var small := [CartItem(1, 1, 480000.0, 0.0)];
      var large := small + [CartItem(2, 1, 10000.0, 0.0)];
      AllWellPriced(large) && OrderTotal(large) < OrderTotal(small)
  {
    var small := [CartItem(1, 1, 480000.0, 0.0)];
    var large := small + [CartItem(2, 1, 10000.0, 0.0)];
    assert Subtotal(small) == 480000.0;
    SubtotalAppend(small, CartItem(2, 1, 10000.0, 0.0));
    assert Subtotal(large) == 490000.0;
  }
}

=== FILE: products_page.dfy ===
/**
 * The customer product list: its copy of the category flattening, the size
 * checkboxes, the category select that also rewrites the address bar, and the
 * query string of the product request built from the current filters.
 */
module ProductsPage {
  import opened Wrappers
  import opened Text
  import opened QueryParams
  import opened CategoryTree
  import Search

  /** Products requested per page. */
  const ProductsPerPage := 12

  /**
   * This page's copy of `flattenCategories`: each category is pushed with its
   * level and leaf flag, and the flattening of its children (empty for a leaf)
   * is concatenated after it.
   */
  method FlattenCategories(categories: seq<Category>, level: int) returns (result: seq<FlatCategory>)
    ensures result == Flatten(categories, level)
    decreases categories
  {
    result := [];
    var i := 0;
    while i < |categories|
      invariant 0 <= i <= |categories|
      invariant result == Flatten(categories[..i], level)
    {
      var cat := categories[i];
      result := result + [FlatCategory(cat.id, cat.name, level, |cat.children| == 0)];
      var sub := FlattenCategories(cat.children, level + 1);
      result := result + sub;
      assert categories[..i + 1] == categories[..i] + [cat];
      FlattenSnoc(categories[..i], cat, level);
      i := i + 1;
    }
    assert categories[..|categories|] == categories;
  }

  /** The size checkboxes: `(33 + i).toString()` for `i` below 13. */
  function SizeOptions(): (r: seq<string>)
    ensures |r| == 13
  {
    SizesFrom(33, 13)
  }

  function SizesFrom(first: int, count: nat): (r: seq<string>)
    ensures |r| == count
    ensures forall i :: 0 <= i < count ==> r[i] == IntToString(first + i)
    decreases count
  {
    if count == 0 then [] else [IntToString(first)] + SizesFrom(first + 1, count - 1)
  }

  /** The boxes read back as the whole sizes 33 to 45, in increasing order. */
  lemma SizeOptionsAreSizes()
    ensures forall i :: 0 <= i < 13 ==> ParseInt(SizeOptions()[i]) == Int(33 + i)
  {
    forall i | 0 <= i < 13
      ensures ParseInt(SizeOptions()[i]) == Int(33 + i)
    {
      IntToStringRoundTrip(33 + i);
    }
  }

  /** Every whole size from 33 to 45 has exactly one checkbox. */
  lemma SizeOptionsDistinct()
    ensures forall i, j :: 0 <= i < j < 13 ==> SizeOptions()[i] != SizeOptions()[j]
  {
    SizeOptionsAreSizes();
    forall i, j | 0 <= i < j < 13
      ensures SizeOptions()[i] != SizeOptions()[j]
    {
      assert ParseInt(SizeOptions()[i]) != ParseInt(SizeOptions()[j]);
    }
  }

  /** `prev.filter(s => s !== size)`. */
  function Without(sizes: seq<string>, size: string): (r: seq<string>)
    ensures size !in r
    ensures forall s :: s in r <==> s in sizes && s != size
    ensures |r| <= |sizes|
  {
    if |sizes| == 0 then []
    else if sizes[0] == size then Without(sizes[1..], size)
    else [sizes[0]] + Without(sizes[1..], size)
  }

  /** Ticking a size box: a selected size is removed, an unselected one goes at the end. */
  function ToggleSize(sizes: seq<string>, size: string): (r: seq<string>)
    ensures size in sizes ==> size !in r
    ensures size in sizes ==> r == Without(sizes, size)
    ensures size !in sizes ==> r == sizes + [size]
    ensures forall s :: s != size ==> (s in r <==> s in sizes)
  {
    if size in sizes then Without(sizes, size) else sizes + [size]
  }

  /** `filter` keeps the other sizes in their order: each size is kept or dropped, and concatenation distributes. */
  lemma WithoutKeepsOrder(a: seq<string>, b: seq<string>, size: string)
    ensures Without([], size) == []
    ensures forall s :: Without([s], size) == (if s == size then [] else [s])
    ensures Without(a + b, size) == Without(a, size) + Without(b, size)
  {
    forall s ensures Without([s], size) == (if s == size then [] else [s]) {
      assert [s][1..] == [];
    }
    WithoutConcat(a, b, size);
  }

  /** `Without` distributes over concatenation, by induction on the list it recurses on. */
  lemma {:induction false} WithoutConcat(a: seq<string>, b: seq<string>, size: string)
    ensures Without(a + b, size) == Without(a, size) + Without(b, size)
    decreases |a|
  {
    if |a| == 0 {
      assert a + b == b;
    } else {
      var head, rest := a[0], a[1..];
      WithoutStep(a, head, rest, size);
      WithoutStep(a + b, head, rest + b, size);
      WithoutConcat(rest, b, size);
      AppendAssociative(if head == size then [] else [head], Without(rest, size), Without(b, size));
    }
  }

  /** One step of the recursion, with the list split at its first element. */
  lemma WithoutStep(all: seq<string>, head: string, rest: seq<string>, size: string)
    requires all == [head] + rest
    ensures Without(all, size) == (if head == size then [] else [head]) + Without(rest, size)
  {
    assert all[1..] == rest;
  }

  predicate NoDuplicates(xs: seq<string>) {
    forall i, j :: 0 <= i < j < |xs| ==> xs[i] != xs[j]
  }

  lemma {:induction false} WithoutAbsent(sizes: seq<string>, size: string)
    requires size !in sizes
    ensures Without(sizes, size) == sizes
  {
    if |sizes| > 0 {
      WithoutAbsent(sizes[1..], size);
    }
  }

  lemma {:induction false} WithoutNoDuplicates(sizes: seq<string>, size: string)
    requires NoDuplicates(sizes)
    ensures NoDuplicates(Without(sizes, size))
  {
    if |sizes| > 0 {
      WithoutNoDuplicates(sizes[1..], size);
      assert sizes[0] !in sizes[1..];
    }
  }

  /** The selected sizes never hold the same size twice. */
  lemma ToggleKeepsNoDuplicates(sizes: seq<string>, size: string)
    requires NoDuplicates(sizes)
    ensures NoDuplicates(ToggleSize(sizes, size))
  {
    if size in sizes {
      WithoutNoDuplicates(sizes, size);
    }
  }

  /** Ticking an unselected box twice restores the selection. */
  lemma ToggleTwiceRestores(sizes: seq<string>, size: string)
    requires size !in sizes
    ensures ToggleSize(ToggleSize(sizes, size), size) == sizes
  {
    WithoutSnocRemoves(sizes, size);
  }

  lemma {:induction false} WithoutSnocRemoves(sizes: seq<string>, size: string)
    requires size !in sizes
    ensures Without(sizes + [size], size) == sizes
  {
    if |sizes| == 0 {
      assert [size][1..] == [];
    } else {
      assert (sizes + [size])[1..] == sizes[1..] + [size];
      WithoutSnocRemoves(sizes[1..], size);
    }
  }

  /** The filters behind the product request. */
  datatype Filters = Filters(search: string, category: Option<int>, sizes: seq<string>, page: int)

  /** A selected category counts only when it is non-zero: `0` is falsy. */
  predicate HasCategory(f: Filters) {
    f.category.Some? && f.category.value != 0
  }

  /** A size box toggled: back to the first page. */
  function ChangeSize(f: Filters, size: string): (r: Filters)
    ensures r.sizes == ToggleSize(f.sizes, size)
    ensures r.page == 0 && r.search == f.search && r.category == f.category
  {
    f.(sizes := ToggleSize(f.sizes, size), page := 0)
  }

  /**
   * The category select: `choice` is the chosen option's id, or `None` for the
   * "all categories" option. The address bar's `categoryId` is set to a
   * non-zero id and deleted otherwise; the list goes back to the first page.
   */
  function ChangeCategory(f: Filters, address: Params, choice: Option<int>): (r: (Filters, Params))
    ensures r.0 == f.(category := choice, page := 0)
    ensures choice.Some? && choice.value != 0 ==> GetAll(r.1, "categoryId") == [IntToString(choice.value)]
    ensures !(choice.Some? && choice.value != 0) ==> GetAll(r.1, "categoryId") == []
    ensures forall name :: name != "categoryId" ==> GetAll(r.1, name) == GetAll(address, name)
  {
    var params := if choice.Some? && choice.value != 0 then Set(address, "categoryId", IntToString(choice.value))
      else Delete(address, "categoryId");
    (f.(category := choice, page := 0), params)
  }

  /** Typing in the search box: the shared search handling, then back to the first page. */
  function ChangeSearch(f: Filters, address: Params, term: string): (r: (Filters, Params))
    ensures r.0.search == Trim(term) && r.0.page == 0
    ensures r.0.category == f.category && r.0.sizes == f.sizes
    ensures r.1 == Search.HandleSearch(term, address, false).query
  {
    var s := Search.HandleSearch(term, address, false);
    (f.(search := s.term, page := 0), s.query)
  }

  /** `params.append(name, v)` for each `v` in turn. */
  function AppendEach(ps: Params, name: string, values: seq<string>): (r: Params)
    ensures GetAll(r, name) == GetAll(ps, name) + values
    ensures forall other :: other != name ==> GetAll(r, other) == GetAll(ps, other)
    decreases |values|
  {
    if |values| == 0 then ps
    else
      var r := AppendEach(Append(ps, name, values[0]), name, values[1..]);
      assert [values[0]] + values[1..] == values;
      r
  }

  /** `new URLSearchParams({page, size, search, ...categoryId})`: the fixed entries, and the category only when one is selected. */
  function FilterQuery(f: Filters): Params {
    var base := Append(Append(Append([], "page", IntToString(f.page)), "size", IntToString(ProductsPerPage)), "search", f.search);
    if HasCategory(f) then Append(base, "categoryId", IntToString(f.category.value)) else base
  }

  /** The product request's query: the filter entries, then one `sizes` entry per selected size, in order. */
  function RequestQuery(f: Filters): Params {
    AppendEach(FilterQuery(f), "sizes", f.sizes)
  }

  lemma ParameterNamesDistinct()
    ensures "page" != "size" && "page" != "search" && "page" != "sizes" && "page" != "categoryId"
    ensures "size" != "search" && "size" != "sizes" && "size" != "categoryId"
    ensures "search" != "sizes" && "search" != "categoryId"
    ensures "sizes" != "categoryId"
  {
    assert "page"[0] != "size"[0];
    assert "size"[1] != "search"[1];
    assert |"size"| != |"sizes"|;
    assert "sizes"[1] != "search"[1];
  }

  lemma FilterQueryPage(f: Filters)
    ensures GetAll(FilterQuery(f), "page") == [IntToString(f.page)]
  {
    ParameterNamesDistinct();
  }

  lemma FilterQuerySize(f: Filters)
    ensures GetAll(FilterQuery(f), "size") == ["12"]
  {
    ParameterNamesDistinct();
    assert IntToString(12) == "12" by {
      assert 12 / 10 == 1 && 12 % 10 == 2;
    }
  }

  lemma FilterQuerySearch(f: Filters)
    ensures GetAll(FilterQuery(f), "search") == [f.search]
    ensures GetAll(FilterQuery(f), "sizes") == []
  {
    ParameterNamesDistinct();
  }

  lemma FilterQueryCategory(f: Filters)
    ensures GetAll(FilterQuery(f), "categoryId") == if HasCategory(f) then [IntToString(f.category.value)] else []
  {
    ParameterNamesDistinct();
  }

  /** The server can read every filter back from the request query, and nothing else is sent for them. */
  lemma RequestCarriesFilters(f: Filters)
    ensures GetAll(RequestQuery(f), "page") == [IntToString(f.page)]
    ensures GetAll(RequestQuery(f), "size") == ["12"]
    ensures GetAll(RequestQuery(f), "search") == [f.search]
    ensures GetAll(RequestQuery(f), "sizes") == f.sizes
    ensures HasCategory(f) ==> GetAll(RequestQuery(f), "categoryId") == [IntToString(f.category.value)]
    ensures !HasCategory(f) ==> GetAll(RequestQuery(f), "categoryId") == []
  {
    ParameterNamesDistinct();
    assert GetAll(RequestQuery(f), "page") == [IntToString(f.page)] by {
      RequestKeepsFilterEntries(f, "page");
      FilterQueryPage(f);
    }
    assert GetAll(RequestQuery(f), "size") == ["12"] by {
      RequestKeepsFilterEntries(f, "size");
      FilterQuerySize(f);
    }
    assert GetAll(RequestQuery(f), "search") == [f.search] by {
      RequestKeepsFilterEntries(f, "search");
      FilterQuerySearch(f);
    }
    assert GetAll(RequestQuery(f), "sizes") == f.sizes by {
      FilterQuerySearch(f);
    }
    assert GetAll(RequestQuery(f), "categoryId") == GetAll(FilterQuery(f), "categoryId") by {
      RequestKeepsFilterEntries(f, "categoryId");
    }
    FilterQueryCategory(f);
  }

  /** The `sizes` entries come after the filter entries and leave them as they are. */
  lemma RequestKeepsFilterEntries(f: Filters, name: string)
    requires name != "sizes"
    ensures GetAll(RequestQuery(f), name) == GetAll(FilterQuery(f), name)
  {
  }

  /** The page number sent is the one the server parses back. */
  lemma RequestPageReadsBack(f: Filters)
    ensures Get(RequestQuery(f), "page") == Some(IntToString(f.page))
    ensures ParseInt(Get(RequestQuery(f), "page").value) == Int(f.page)
  {
    RequestCarriesFilters(f);
    IntToStringRoundTrip(f.page);
  }
}

=== FILE: query_params.dfy ===
/**
 * A query string as the ordered list of name-value pairs that `URLSearchParams`
 * keeps, with the list operations of section 6.2 of the WHATWG URL Standard:
 * `append` adds a pair at the end, `delete(name)` removes every pair with that
 * name, and `set(name, value)` overwrites the first pair with that name and
 * removes the others, or appends when there is none.
 */
module QueryParams {
  import opened Wrappers

  type Params = seq<(string, string)>

  /** `getAll(name)`: the values of the pairs named `name`, in list order. */
  function GetAll(ps: Params, name: string): (r: seq<string>)
    ensures |r| <= |ps|
  {
    if |ps| == 0 then []
    else (if ps[0].0 == name then [ps[0].1] else []) + GetAll(ps[1..], name)
  }

  /** `get(name)`: the value of the first pair named `name`. */
  function Get(ps: Params, name: string): (r: Option<string>)
    ensures r.Some? <==> |GetAll(ps, name)| > 0
    ensures r.Some? ==> r.value == GetAll(ps, name)[0]
  {
    if |ps| == 0 then None
    else if ps[0].0 == name then Some(ps[0].1)
    else Get(ps[1..], name)
  }

  /** Some pair is named `name`. */
  predicate Has(ps: Params, name: string) {
    |ps| > 0 && (ps[0].0 == name || Has(ps[1..], name))
  }

  lemma {:induction false} HasIffGetAll(ps: Params, name: string)
    ensures Has(ps, name) <==> |GetAll(ps, name)| > 0
  {
    if |ps| > 0 {
      HasIffGetAll(ps[1..], name);
    }
  }

  lemma {:induction false} GetAllConcat(a: Params, b: Params, name: string)
    ensures GetAll(a + b, name) == GetAll(a, name) + GetAll(b, name)
  {
    if |a| == 0 {
      assert a + b == b;
    } else {
      assert (a + b)[0] == a[0];
      assert (a + b)[1..] == a[1..] + b;
      GetAllConcat(a[1..], b, name);
    }
  }

  /** `append(name, value)`. */
  function Append(ps: Params, name: string, value: string): (r: Params)
    ensures GetAll(r, name) == GetAll(ps, name) + [value]
    ensures forall other :: other != name ==> GetAll(r, other) == GetAll(ps, other)
  {
    var r := ps + [(name, value)];
    assert GetAll(r, name) == GetAll(ps, name) + [value] by {
      GetAllConcat(ps, [(name, value)], name);
      assert GetAll([(name, value)], name) == [value];
    }
    assert forall other :: other != name ==> GetAll(r, other) == GetAll(ps, other) by {
      forall other | other != name ensures GetAll(r, other) == GetAll(ps, other) {
        GetAllConcat(ps, [(name, value)], other);
        assert GetAll([(name, value)], other) == [];
      }
    }
    r
  }

  /** `delete(name)`: every pair named `name` goes, the others stay in order. */
  function Delete(ps: Params, name: string): (r: Params)
    ensures |r| <= |ps|
    ensures GetAll(r, name) == []
    ensures forall other :: other != name ==> GetAll(r, other) == GetAll(ps, other)
    ensures forall p :: p in r <==> p in ps && p.0 != name
  {
    if |ps| == 0 then []
    else if ps[0].0 == name then Delete(ps[1..], name)
    else [ps[0]] + Delete(ps[1..], name)
  }

  /** Overwrites the first pair named `name` and drops the later ones. */
  function Replace(ps: Params, name: string, value: string): (r: Params)
    requires Has(ps, name)
    ensures GetAll(r, name) == [value]
    ensures forall other :: other != name ==> GetAll(r, other) == GetAll(ps, other)
    ensures Delete(r, name) == Delete(ps, name)
  {
    if ps[0].0 == name then
      var r := [(name, value)] + Delete(ps[1..], name);
      assert r[1..] == Delete(ps[1..], name);
      DeleteIdempotent(ps[1..], name);
      r
    else
      var r := [ps[0]] + Replace(ps[1..], name, value);
      assert r[1..] == Replace(ps[1..], name, value);
      r
  }

  /** `set(name, value)`. */
  function Set(ps: Params, name: string, value: string): (r: Params)
    ensures GetAll(r, name) == [value]
    ensures Get(r, name) == Some(value)
    ensures forall other :: other != name ==> GetAll(r, other) == GetAll(ps, other)
    ensures Delete(r, name) == Delete(ps, name)
  {
    if Has(ps, name) then Replace(ps, name, value)
    else
      var r := Append(ps, name, value);
      HasIffGetAll(ps, name);
      assert Delete(r, name) == Delete(ps, name) by { DeleteAbsentSuffix(ps, name, value); }
      r
  }

  lemma {:induction false} DeleteAbsentSuffix(ps: Params, name: string, value: string)
    ensures Delete(ps + [(name, value)], name) == Delete(ps, name)
  {
    if |ps| == 0 {
      assert [(name, value)][1..] == [];
    } else {
      assert (ps + [(name, value)])[1..] == ps[1..] + [(name, value)];
      DeleteAbsentSuffix(ps[1..], name, value);
    }
  }

  /** Deleting twice is deleting once. */
  lemma {:induction false} DeleteIdempotent(ps: Params, name: string)
    ensures Delete(Delete(ps, name), name) == Delete(ps, name)
  {
    if |ps| > 0 {
      DeleteIdempotent(ps[1..], name);
    }
  }

  lemma {:induction false} ReplaceIdempotent(ps: Params, name: string, value: string)
    requires Has(ps, name)
    ensures Has(Replace(ps, name, value), name)
    ensures Replace(Replace(ps, name, value), name, value) == Replace(ps, name, value)
  {
    var r := Replace(ps, name, value);
    if ps[0].0 == name {
      assert r[0].0 == name;
      assert r[1..] == Delete(ps[1..], name);
      DeleteIdempotent(ps[1..], name);
    } else {
      ReplaceIdempotent(ps[1..], name, value);
      assert r[1..] == Replace(ps[1..], name, value);
    }
  }

  /** Setting the same pair twice gives the same list as setting it once. */
  lemma SetIdempotent(ps: Params, name: string, value: string)
    ensures Set(Set(ps, name, value), name, value) == Set(ps, name, value)
  {
    var r := Set(ps, name, value);
    HasIffGetAll(r, name);
    if Has(ps, name) {
      ReplaceIdempotent(ps, name, value);
    } else {
      SetAbsentIsFixed(ps, name, value);
    }
  }

  lemma {:induction false} SetAbsentIsFixed(ps: Params, name: string, value: string)
    requires !Has(ps, name)
    ensures Has(ps + [(name, value)], name)
    ensures Replace(ps + [(name, value)], name, value) == ps + [(name, value)]
  {
    var q := ps + [(name, value)];
    assert q[|ps|].0 == name;
    if |ps| == 0 {
      assert q == [(name, value)];
    } else {
      assert q[1..] == ps[1..] + [(name, value)];
      SetAbsentIsFixed(ps[1..], name, value);
    }
  }
}

=== FILE: register_form.dfy ===
/**
 * The registration form: the per-field messages of its validation schema, the
 * enabled state of the submit button, and the message shown after the
 * server answers. Whether the email has the form of an address, and whether
 * the server already knows the email or username, are inputs.
 */
module RegisterForm {
  import opened Wrappers
  import opened Text

  datatype Fields = Fields(email: string, username: string, password: string, confirmPassword: string)

  /** The message under each input, if any. */
  datatype Messages = Messages(email: Option<string>, username: Option<string>,
                               password: Option<string>, confirmPassword: Option<string>)

  const MinUsername := 3
  const MinPassword := 6

  /** The schema's messages, word for word. */
  const EmailRequired := "Email không được để trống"
  const EmailMalformed := "Email không hợp lệ"
  const UsernameRequired := "Username không được để trống"
  const UsernameTooShort := "Username tối thiểu 3 ký tự"
  const PasswordRequired := "Mật khẩu không được để trống"
  const PasswordTooShort := "Mật khẩu tối thiểu 6 ký tự"
  const ConfirmRequired := "Xác nhận mật khẩu không được để trống"
  const ConfirmMismatch := "Mật khẩu xác nhận không khớp"

  /**
   * The schema's messages, the first failing check of each field: emptiness
   * before shape or length; the confirmation check applies to
   * `confirmPassword` once it is not empty.
   */
  function Validate(f: Fields, emailWellFormed: bool): (r: Messages)
    ensures r.email.None? <==> f.email != "" && emailWellFormed
    ensures r.username.None? <==> |f.username| >= MinUsername
    ensures r.password.None? <==> |f.password| >= MinPassword
    ensures r.confirmPassword.None? <==> f.confirmPassword != "" && f.password == f.confirmPassword
    ensures f.email == "" ==> r.email == Some(EmailRequired)
    ensures f.username == "" ==> r.username == Some(UsernameRequired)
    ensures f.password == "" ==> r.password == Some(PasswordRequired)
    ensures f.confirmPassword == "" ==> r.confirmPassword == Some(ConfirmRequired)
    ensures f.email != "" && !emailWellFormed ==> r.email == Some(EmailMalformed)
    ensures f.username != "" && |f.username| < MinUsername ==> r.username == Some(UsernameTooShort)
    ensures f.password != "" && |f.password| < MinPassword ==> r.password == Some(PasswordTooShort)
    ensures f.confirmPassword != "" && f.password != f.confirmPassword ==>
      r.confirmPassword == Some(ConfirmMismatch)
  {
    Messages(
      if f.email == "" then Some(EmailRequired)
      else if !emailWellFormed then Some(EmailMalformed) else None,
      if f.username == "" then Some(UsernameRequired)
      else if |f.username| < MinUsername then Some(UsernameTooShort) else None,
      if f.password == "" then Some(PasswordRequired)
      else if |f.password| < MinPassword then Some(PasswordTooShort) else None,
      if f.confirmPassword == "" then Some(ConfirmRequired)
      else if f.password != f.confirmPassword then Some(ConfirmMismatch) else None)
  }

  predicate NoMessages(m: Messages) {
    m.email.None? && m.username.None? && m.password.None? && m.confirmPassword.None?
  }

  /** `disabled={!isValid}`: the button is enabled exactly when the schema passes. */
  predicate SubmitEnabled(f: Fields, emailWellFormed: bool) {
    NoMessages(Validate(f, emailWellFormed))
  }

  /** What an enabled button guarantees about the data sent to the server, and that nothing more is required. */
  lemma EnabledMeansAcceptable(f: Fields, emailWellFormed: bool)
    ensures SubmitEnabled(f, emailWellFormed) <==>
      && emailWellFormed && f.email != ""
      && |f.username| >= MinUsername && |f.password| >= MinPassword
      && f.confirmPassword == f.password
  {
  }

  /** The server's error body: a list of messages, a text, or nothing usable. */
  datatype ErrorBody = MessageList(items: seq<string>) | MessageText(text: string) | NoBody

  /** The outcome of the registration request: accepted, or refused with an error body. */
  datatype Outcome = Registered | Refused(body: ErrorBody)

  const Success := "Đăng ký thành công!"
  const Failure := "Đăng ký thất bại!"

  /**
   * The message after submitting: success; a list joined with ", "; a
   * non-empty text as it is; otherwise the generic failure.
   */
  function ServerMessage(o: Outcome): (r: string)
    ensures o == Registered ==> r == Success
    ensures o.Refused? && o.body.MessageList? ==> r == Join(o.body.items, ", ")
    ensures o.Refused? && o.body.MessageText? && o.body.text != "" ==> r == o.body.text
    ensures o.Refused? && (o.body.NoBody? || o.body == MessageText("")) ==> r == Failure
  {
    match o
    case Registered => Success
    case Refused(MessageList(items)) => Join(items, ", ")
    case Refused(MessageText(t)) => if t != "" then t else Failure
    case Refused(NoBody) => Failure
  }

  /** A list of messages shows every one of them, separated by ", ". */
  lemma ListMessageShowsAll(items: seq<string>)
    requires |items| > 0
    ensures |ServerMessage(Refused(MessageList(items)))| == TotalLength(items) + 2 * (|items| - 1)
    ensures |items| == 1 ==> ServerMessage(Refused(MessageList(items))) == items[0]
  {
    JoinLength(items, ", ");
  }
}

=== FILE: route_guard.dfy ===
/**
 * The request guard that runs before the user, order and admin pages: a
 * visitor without a role cookie is sent to the home page, and so is anyone
 * but an administrator who asks for an admin page; the path they asked for
 * travels along as the `redirect` query parameter.
 */
module RouteGuard {
  import opened Wrappers
  import opened Text
  import opened QueryParams

  /** The route lists exactly as written, pattern suffixes included. */
  const ProtectedRoutes: seq<string> := ["/user", "/user/:path*", "/orders", "/orders/:path*"]
  const AdminRoutes: seq<string> := ["/admin", "/admin/:path*"]

  const AdminRole := "ROLE_ADMIN"

  /** `routes.some(route => pathname.startsWith(route))`. */
  predicate AnyPrefix(path: string, routes: seq<string>) {
    exists i :: 0 <= i < |routes| && StartsWith(path, routes[i])
  }

  predicate IsProtected(path: string) { AnyPrefix(path, ProtectedRoutes) }
  predicate IsAdminPath(path: string) { AnyPrefix(path, AdminRoutes) }

  /** The `:path*` entries add nothing: a path that starts with one also starts with its base. */
  lemma PatternEntriesAreSubsumed(path: string)
    ensures IsProtected(path) <==> StartsWith(path, "/user") || StartsWith(path, "/orders")
    ensures IsAdminPath(path) <==> StartsWith(path, "/admin")
  {
    assert ProtectedRoutes[1] == "/user" + "/:path*" && ProtectedRoutes[3] == "/orders" + "/:path*";
    assert AdminRoutes[1] == "/admin" + "/:path*";
    PrefixOfPrefix(path, "/user", "/:path*");
    PrefixOfPrefix(path, "/orders", "/:path*");
    PrefixOfPrefix(path, "/admin", "/:path*");
    assert StartsWith(path, "/user") ==> StartsWith(path, ProtectedRoutes[0]);
    assert StartsWith(path, "/orders") ==> StartsWith(path, ProtectedRoutes[2]);
    assert StartsWith(path, "/admin") ==> StartsWith(path, AdminRoutes[0]);
  }

  lemma PrefixOfPrefix(path: string, base: string, rest: string)
    ensures StartsWith(path, base + rest) ==> StartsWith(path, base)
  {
    if StartsWith(path, base + rest) {
      assert path[..|base|] == (base + rest)[..|base|];
    }
  }

  /** What the guard answers: let the request through, or send the browser to another path with this query. */
  datatype Decision = Continue | Redirect(target: string, query: Params)

  const HomePath := "/"

  /** The sign-in page, the one page that reads the `redirect` parameter. */
  const LoginPath := "/login"

  /** The visitor may see the page: a role for the user and order pages, the admin role for the admin pages. */
  predicate Admitted(path: string, role: Option<string>) {
    && (!IsProtected(path) || (role.Some? && role.value != ""))
    && (!IsAdminPath(path) || role == Some(AdminRole))
  }

  /** The guard, sending refused visitors to `target`. */
  function GuardTo(target: string, path: string, query: Params, role: Option<string>): (r: Decision)
    ensures r.Continue? <==> Admitted(path, role)
    ensures r.Redirect? ==> r == Redirect(target, Set(query, "redirect", path))
  {
    var hasRole := role.Some? && role.value != "";
    if IsProtected(path) && !hasRole then Redirect(target, Set(query, "redirect", path))
    else if IsAdminPath(path) && role != Some(AdminRole) then Redirect(target, Set(query, "redirect", path))
    else Continue
  }

  /**
   * `middleware` as written: `role` is the `userRole` cookie, absent or
   * possibly empty; a refused visitor goes to the home page, with the query of
   * the requested address and the requested path as `redirect`.
   */
  function Guard(path: string, query: Params, role: Option<string>): (r: Decision)
    ensures IsProtected(path) && (role.None? || role == Some("")) ==>
      r == Redirect(HomePath, Set(query, "redirect", path))
    ensures IsAdminPath(path) && role != Some(AdminRole) ==>
      r == Redirect(HomePath, Set(query, "redirect", path))
    ensures r.Continue? <==> Admitted(path, role)
  {
    GuardTo(HomePath, path, query, role)
  }

  /** A redirect carries the requested path as `redirect` and keeps every other parameter. */
  lemma RedirectRemembersThePath(path: string, query: Params, role: Option<string>)
    requires Guard(path, query, role).Redirect?
    ensures Get(Guard(path, query, role).query, "redirect") == Some(path)
    ensures forall name :: name != "redirect" ==>
      GetAll(Guard(path, query, role).query, name) == GetAll(query, name)
  {
  }

  /**
   * The `redirect` parameter goes to the home page, which does not read it;
   * only the sign-in page at `/login` does, so a guest sent away from
   * `/orders` is not brought back there after signing in.
   */
  lemma RedirectMissesSignIn()
    ensures Guard("/orders", [], None) == Redirect(HomePath, [("redirect", "/orders")])
    ensures HomePath != LoginPath
  {
    assert StartsWith("/orders", ProtectedRoutes[2]);
    assert Set([], "redirect", "/orders") == [("redirect", "/orders")];
  }

  /** The guard sending refused visitors to the sign-in page. */
  function GuardToSignIn(path: string, query: Params, role: Option<string>): (r: Decision)
    ensures r.Continue? <==> Admitted(path, role)
    ensures r.Redirect? ==> r.target == LoginPath && Get(r.query, "redirect") == Some(path)
  {
    GuardTo(LoginPath, path, query, role)
  }

  /** An administrator passes everywhere; a customer passes everywhere but the admin pages. */
  lemma WhoPasses(path: string, query: Params, role: string)
    ensures Guard(path, query, Some(AdminRole)) == Continue
    ensures role != "" ==> (Guard(path, query, Some(role)) == Continue <==> !IsAdminPath(path) || role == AdminRole)
  {
  }

  /**
   * The paths the guard is registered for: each base, alone or followed by
   * further segments, as the `matcher` patterns select them.
   */
  predicate Selected(path: string) {
    exists base :: base in ["/user", "/orders", "/admin"] && (path == base || StartsWith(path, base + "/"))
  }

  /**
   * On the paths it is registered for, the prefix test means what it should:
   * protection by the base the path lies under, and no page that is merely
   * named like one (`/username`) ever reaches it.
   */
  lemma PrefixTestMeansSegment(path: string)
    requires Selected(path)
    ensures IsProtected(path) <==> !StartsWith(path, "/admin")
    ensures IsAdminPath(path) <==> StartsWith(path, "/admin")
    ensures IsProtected(path) != IsAdminPath(path)
  {
    PatternEntriesAreSubsumed(path);
    var base :| base in ["/user", "/orders", "/admin"] && (path == base || StartsWith(path, base + "/"));
    PrefixOfPrefix(path, base, "/");
    if base == "/admin" {
      SecondCharacterDiffers(path, "/admin", "/user");
      SecondCharacterDiffers(path, "/admin", "/orders");
    } else if base == "/user" {
      SecondCharacterDiffers(path, "/user", "/admin");
    } else {
      SecondCharacterDiffers(path, "/orders", "/admin");
    }
  }

  /** A path starts with at most one of two prefixes whose second characters differ. */
  lemma SecondCharacterDiffers(path: string, a: string, b: string)
    requires |a| >= 2 && |b| >= 2 && a[1] != b[1]
    requires StartsWith(path, a)
    ensures !StartsWith(path, b)
  {
    assert path[1] == path[..|a|][1] == a[1];
    if |b| <= |path| {
      assert path[..|b|][1] == path[1];
    }
  }
}

=== FILE: search.dfy ===
/**
 * The shared search box behaviour: the typed term is trimmed and remembered,
 * and the address bar's query gets a `search` entry holding it (or loses it
 * when the term is blank); the header search also moves to the product list.
 */
module Search {
  import opened Wrappers
  import opened Text
  import opened QueryParams

  /** Where the browser goes after a search. */
  datatype Destination =
    | ProductList   // `router.push("/products?" + query)`
    | SamePage      // `history.pushState` with only the query changed

  datatype SearchResult = SearchResult(term: string, query: Params, destination: Destination)

  /**
   * `handleSearch(term, navigate)` given the current query: the stored term is
   * the trimmed input, and the query's `search` entry is set to it, or deleted
   * when it is empty.
   */
  function HandleSearch(term: string, query: Params, navigate: bool): (r: SearchResult)
    ensures r.term == Trim(term)
    ensures !AllSpace(term) ==> GetAll(r.query, "search") == [Trim(term)]
    ensures AllSpace(term) ==> GetAll(r.query, "search") == []
    ensures forall name :: name != "search" ==> GetAll(r.query, name) == GetAll(query, name)
    ensures r.destination == (if navigate then ProductList else SamePage)
  {
    var trimmed := Trim(term);
    var q := if trimmed != "" then Set(query, "search", trimmed) else Delete(query, "search");
    SearchResult(trimmed, q, if navigate then ProductList else SamePage)
  }

  /** On load the term is taken from a non-empty `search` entry of the query; an empty or missing entry keeps it. */
  function TermFromQuery(query: Params, term: string): (r: string)
    ensures Get(query, "search").Some? && Get(query, "search").value != "" ==> r == Get(query, "search").value
    ensures Get(query, "search") == Some("") ==> r == term
    ensures Get(query, "search").None? ==> r == term
  {
    match Get(query, "search")
    case Some(s) => if s != "" then s else term
    case None => term
  }

  /** Reloading the page after a search restores the searched term, whatever the term was before. */
  lemma SearchSurvivesReload(term: string, query: Params, navigate: bool, previous: string)
    requires !AllSpace(term)
    ensures TermFromQuery(HandleSearch(term, query, navigate).query, previous) == HandleSearch(term, query, navigate).term
  {
  }

  /** Searching again for the term that is already stored changes nothing. */
  lemma SearchIdempotent(term: string, query: Params, navigate: bool)
    ensures var r := HandleSearch(term, query, navigate);
      HandleSearch(r.term, r.query, navigate) == r
  {
    TrimIdempotent(term);
    if Trim(term) != "" {
      SetIdempotent(query, "search", Trim(term));
    } else {
      DeleteIdempotent(query, "search");
    }
  }
}

=== FILE: text.dfy ===
/**
 * The handful of JavaScript string primitives the storefront's rules rely on,
 * written out so that their behaviour on every input is explicit:
 * `String.prototype.trim`, `startsWith`, `split(" ")[0]`, `Array.prototype.join`,
 * `Number.prototype.toString()` on integers and the global `parseInt` with no radix.
 */
module Text {

  /** ECMAScript WhiteSpace and LineTerminator code points: what `trim` strips and what `\s` matches in a RegExp. */
  const SpaceChars: set<char> := {
    '\t', '\n', '\U{000B}', '\U{000C}', '\r', ' ', '\U{00A0}', '\U{1680}',
    '\U{2000}', '\U{2001}', '\U{2002}', '\U{2003}', '\U{2004}', '\U{2005}',
    '\U{2006}', '\U{2007}', '\U{2008}', '\U{2009}', '\U{200A}',
    '\U{2028}', '\U{2029}', '\U{202F}', '\U{205F}', '\U{3000}', '\U{FEFF}'
  }

  predicate IsSpace(c: char) {
    c in SpaceChars
  }

  predicate AllSpace(s: string) {
    forall i :: 0 <= i < |s| ==> IsSpace(s[i])
  }

  predicate NoSpace(s: string) {
    forall i :: 0 <= i < |s| ==> !IsSpace(s[i])
  }

  predicate StartsWith(s: string, prefix: string) {
    |prefix| <= |s| && s[..|prefix|] == prefix
  }

  lemma AllSpaceConcat(p: string, q: string)
    ensures AllSpace(p + q) <==> AllSpace(p) && AllSpace(q)
  {
    if AllSpace(p + q) {
      forall i | 0 <= i < |p| ensures IsSpace(p[i]) {
        assert p[i] == (p + q)[i];
      }
      forall i | 0 <= i < |q| ensures IsSpace(q[i]) {
        assert q[i] == (p + q)[|p| + i];
      }
    }
  }

  /** A white-space character in front of a string trimmed to `r` is trimmed along with it. */
  lemma TrimStartStep(s: string, r: string)
    requires |s| > 0 && IsSpace(s[0])
    requires |r| <= |s| - 1 && r == s[1..][|s| - 1 - |r|..] && AllSpace(s[1..][..|s| - 1 - |r|])
    ensures r == s[|s| - |r|..] && AllSpace(s[..|s| - |r|])
  {
    var k := |s| - |r|;
    assert s[1..][k - 1..] == s[k..];
    assert s[..k] == [s[0]] + s[1..][..k - 1];
    AllSpaceConcat([s[0]], s[1..][..k - 1]);
  }

  /** A white-space character after a string trimmed to `r` is trimmed along with it. */
  lemma TrimEndStep(s: string, r: string)
    requires |s| > 0 && IsSpace(s[|s| - 1])
    requires |r| <= |s| - 1 && r == s[..|s| - 1][..|r|] && AllSpace(s[..|s| - 1][|r|..])
    ensures r == s[..|r|] && AllSpace(s[|r|..])
  {
    assert s[..|s| - 1][..|r|] == s[..|r|];
    assert s[|r|..] == s[..|s| - 1][|r|..] + [s[|s| - 1]];
    AllSpaceConcat(s[..|s| - 1][|r|..], [s[|s| - 1]]);
  }

  /** Leading white space removed. */
  function TrimStart(s: string): (r: string)
    ensures |r| <= |s| && r == s[|s| - |r|..]
    ensures AllSpace(s[..|s| - |r|])
    ensures |r| > 0 ==> !IsSpace(r[0])
  {
    if |s| > 0 && IsSpace(s[0]) then
      var r := TrimStart(s[1..]);
      TrimStartStep(s, r);
      r
    else
      assert s[..0] == [];
      s
  }

  /** Trailing white space removed. */
  function TrimEnd(s: string): (r: string)
    ensures |r| <= |s| && r == s[..|r|]
    ensures AllSpace(s[|r|..])
    ensures |r| > 0 ==> !IsSpace(r[|r| - 1])
  {
    if |s| > 0 && IsSpace(s[|s| - 1]) then
      var r := TrimEnd(s[..|s| - 1]);
      TrimEndStep(s, r);
      r
    else
      assert s[|s|..] == [];
      s
  }

  /** `r` is what is left of `s` once white space is cut from both ends. */
  ghost predicate IsTrimOf(s: string, r: string) {
    exists a :: 0 <= a && a + |r| <= |s| && r == s[a..a + |r|]
      && AllSpace(s[..a]) && AllSpace(s[a + |r|..])
      && (|r| > 0 ==> !IsSpace(r[0]) && !IsSpace(r[|r| - 1]))
  }

  /** Leading white space is cut from `s` to give `t`, and trailing white space from `t` to give `r`. */
  lemma TrimPieces(s: string, t: string, r: string)
    requires |t| <= |s| && t == s[|s| - |t|..] && AllSpace(s[..|s| - |t|])
    requires |t| > 0 ==> !IsSpace(t[0])
    requires |r| <= |t| && r == t[..|r|] && AllSpace(t[|r|..])
    requires |r| > 0 ==> !IsSpace(r[|r| - 1])
    ensures IsTrimOf(s, r)
  {
    var a := |s| - |t|;
    assert r == s[a..a + |r|] by {
      assert s[a..][..|r|] == s[a..a + |r|];
    }
    assert AllSpace(s[a + |r|..]) by {
      assert s[a..][|r|..] == s[a + |r|..];
    }
    assert |r| > 0 ==> !IsSpace(r[0]) by {
      if |r| > 0 {
        assert r[0] == t[0];
      }
    }
    TrimWitness(s, a, r);
  }

  lemma TrimWitness(s: string, a: nat, r: string)
    requires a + |r| <= |s| && r == s[a..a + |r|]
    requires AllSpace(s[..a]) && AllSpace(s[a + |r|..])
    requires |r| > 0 ==> !IsSpace(r[0]) && !IsSpace(r[|r| - 1])
    ensures IsTrimOf(s, r)
  {
  }

  lemma TrimStartEmpty(s: string)
    ensures TrimStart(s) == [] <==> AllSpace(s)
  {
    var t := TrimStart(s);
    if t == [] {
      assert s[..|s|] == s;
    }
    if |t| > 0 {
      assert t[0] == s[|s| - |t|];
    }
  }

  lemma TrimEndEmpty(t: string)
    ensures TrimEnd(t) == [] <==> AllSpace(t)
  {
    var r := TrimEnd(t);
    assert AllSpace(t[|r|..]);
    if |r| > 0 {
      assert r[|r| - 1] == t[|r| - 1];
    }
  }

  /** Nothing is left exactly when the input is all white space. */
  lemma TrimStartEndEmpty(s: string)
    ensures TrimEnd(TrimStart(s)) == [] <==> AllSpace(s)
  {
    var t := TrimStart(s);
    TrimStartEmpty(s);
    TrimEndEmpty(t);
    if |t| > 0 {
      assert !IsSpace(t[0]);
    }
  }

  /** `String.prototype.trim`. */
  function Trim(s: string): (r: string)
    ensures IsTrimOf(s, r)
    ensures r == [] <==> AllSpace(s)
  {
    TrimPieces(s, TrimStart(s), TrimEnd(TrimStart(s)));
    TrimStartEndEmpty(s);
    TrimEnd(TrimStart(s))
  }

  /** Trimming a trimmed string changes nothing. */
  lemma {:induction false} TrimIdempotent(s: string)
    ensures Trim(Trim(s)) == Trim(s)
  {
    var r := Trim(s);
    var a :| 0 <= a && a + |r| <= |s| && r == s[a..a + |r|]
      && AllSpace(s[..a]) && AllSpace(s[a + |r|..])
      && (|r| > 0 ==> !IsSpace(r[0]) && !IsSpace(r[|r| - 1]));
    if |r| == 0 {
    } else {
      assert TrimStart(r) == r;
      assert TrimEnd(r) == r;
    }
  }

  /** `s.split(" ")[0]`: everything before the first U+0020 space. */
  function FirstWord(s: string): (r: string)
    ensures StartsWith(s, r)
    ensures ' ' !in r
    ensures |r| == |s| || s[|r|] == ' '
  {
    if |s| == 0 || s[0] == ' ' then "" else [s[0]] + FirstWord(s[1..])
  }

  /** `Array.prototype.join(sep)` on strings. */
  function Join(xs: seq<string>, sep: string): string {
    if |xs| == 0 then ""
    else if |xs| == 1 then xs[0]
    else xs[0] + sep + Join(xs[1..], sep)
  }

  function TotalLength(xs: seq<string>): nat {
    if |xs| == 0 then 0 else |xs[0]| + TotalLength(xs[1..])
  }

  /** The joined string holds every piece and one separator between each neighbouring pair. */
  lemma {:induction false} JoinLength(xs: seq<string>, sep: string)
    requires |xs| > 0
    ensures |Join(xs, sep)| == TotalLength(xs) + (|xs| - 1) * |sep|
  {
    if |xs| > 1 {
      JoinLength(xs[1..], sep);
    }
  }

  /** Joining one more piece appends one separator and the piece. */
  lemma {:induction false} JoinSnoc(xs: seq<string>, x: string, sep: string)
    requires |xs| > 0
    ensures Join(xs + [x], sep) == Join(xs, sep) + sep + x
  {
    if |xs| == 1 {
      assert xs + [x] == [xs[0], x];
    } else {
      assert (xs + [x])[1..] == xs[1..] + [x];
      JoinSnoc(xs[1..], x, sep);
    }
  }

  // ---------------------------------------------------------------- case

  /**
   * `toLowerCase` on one character, for the Latin letters: ASCII, Latin-1,
   * Latin Extended-A, `Ơ` and `Ư`, and Latin Extended Additional, which
   * together hold every Vietnamese letter. Any other character is returned as
   * it is.
   */
  function LowerChar(c: char): (r: char)
    ensures 'A' <= c <= 'Z' ==> r as int == c as int + 32
    ensures !IsUpper(c) ==> r == c
  {
    var n := c as int;
    if 'A' <= c <= 'Z' || (0xC0 <= n <= 0xDE && n != 0xD7) then (n + 32) as char
    else if IsEvenUpper(n) || IsOddUpper(n) || n == 0x1A0 || n == 0x1AF then (n + 1) as char
    else if n == 0x178 then 0xFF as char
    else if n == 0x1E9E then 0xDF as char
    else c
  }

  /** The capitals of the Latin-Extended blocks that sit at an even code point, their small letter one above. */
  predicate IsEvenUpper(n: int) {
    n % 2 == 0 && (0x100 <= n <= 0x12F || 0x132 <= n <= 0x137 || 0x14A <= n <= 0x177
      || 0x1E00 <= n <= 0x1E95 || 0x1EA0 <= n <= 0x1EFF)
  }

  /** The capitals of Latin Extended-A that sit at an odd code point, their small letter one above. */
  predicate IsOddUpper(n: int) {
    n % 2 == 1 && (0x139 <= n <= 0x148 || 0x179 <= n <= 0x17E)
  }

  /** The characters `LowerChar` changes. */
  predicate IsUpper(c: char) {
    var n := c as int;
    || 'A' <= c <= 'Z' || (0xC0 <= n <= 0xDE && n != 0xD7)
    || IsEvenUpper(n) || IsOddUpper(n) || n == 0x1A0 || n == 0x1AF || n == 0x178 || n == 0x1E9E
  }

  /** A lower-cased character is not a capital, so lower-casing again keeps it. */
  lemma LowerCharIsLower(c: char)
    ensures !IsUpper(LowerChar(c))
    ensures LowerChar(LowerChar(c)) == LowerChar(c)
  {
  }

  /** `s.toLowerCase()`: each character lower-cased in place. */
  function LowerCase(s: string): (r: string)
    ensures |r| == |s|
    ensures forall i :: 0 <= i < |s| ==> r[i] == LowerChar(s[i])
  {
    if |s| == 0 then "" else [LowerChar(s[0])] + LowerCase(s[1..])
  }

  /** A string without capitals lower-cases to itself. */
  lemma LowerCaseOfLower(s: string)
    requires forall i :: 0 <= i < |s| ==> !IsUpper(s[i])
    ensures LowerCase(s) == s
  {
  }

  /** Lower-casing works character by character from the front. */
  lemma LowerCaseCons(c: char, s: string)
    ensures LowerCase([c] + s) == [LowerChar(c)] + LowerCase(s)
  {
    assert ([c] + s)[1..] == s;
  }

  /** "Constructor" lower-cases to "constructor": only the capital changes. */
  lemma LowerCaseOfConstructor()
    ensures LowerCase("Constructor") == "constructor"
  {
    var rest := "onstructor";
    assert "Constructor" == ['C'] + rest;
    assert "constructor" == ['c'] + rest;
    LowerCaseOfLower(rest);
    LowerCaseCons('C', rest);
  }

  /** Lower-casing twice is lower-casing once. */
  lemma LowerCaseIdempotent(s: string)
    ensures LowerCase(LowerCase(s)) == LowerCase(s)
  {
    forall i | 0 <= i < |s| ensures LowerCase(LowerCase(s))[i] == LowerCase(s)[i] {
      LowerCharIsLower(s[i]);
    }
  }

  /** A colour typed with capitals, "ĐỎ", lower-cases to the table's "đỏ". */
  lemma LowerCaseOfCapitalRed()
    ensures LowerCase("ĐỎ") == "đỏ"
    ensures LowerCase("Đỏ") == "đỏ"
  {
    assert LowerChar('Đ') == 'đ';
    assert LowerChar('Ỏ') == 'ỏ';
  }

  // ---------------------------------------------------------------- numbers

  predicate IsDigit(c: char) {
    '0' <= c <= '9'
  }

  function DigitChar(d: nat): (c: char)
    requires d < 10
    ensures IsDigit(c)
  {
    ['0', '1', '2', '3', '4', '5', '6', '7', '8', '9'][d]
  }

  /** Value of a digit in base 10 or 16 (hex letters in either case). */
  function DigitValue(c: char): (v: nat)
    ensures v <= 16
  {
    if '0' <= c <= '9' then c as int - '0' as int
    else if 'a' <= c <= 'f' then c as int - 'a' as int + 10
    else if 'A' <= c <= 'F' then c as int - 'A' as int + 10
    else 16
  }

  /** The two bases `parseInt` reads without a radix argument. */
  datatype Radix = Decimal | Hexadecimal

  function Base(radix: Radix): nat {
    match radix
    case Decimal => 10
    case Hexadecimal => 16
  }

  predicate IsRadixDigit(c: char, radix: Radix) {
    DigitValue(c) < Base(radix)
  }

  lemma DigitCharValue(d: nat)
    requires d < 10
    ensures DigitValue(DigitChar(d)) == d
  {
  }

  /** Decimal rendering of a natural number, most significant digit first, no leading zeros. */
  function NatToString(n: nat): (r: string)
    ensures |r| > 0
    ensures forall i :: 0 <= i < |r| ==> IsDigit(r[i])
    ensures |r| > 1 ==> r[0] != '0'
  {
    if n < 10 then [DigitChar(n)] else NatToString(n / 10) + [DigitChar(n % 10)]
  }

  /** `n.toString()` for an integer `n`. */
  function IntToString(n: int): (r: string)
    ensures |r| > 0
    ensures n >= 0 ==> r == NatToString(n)
    ensures n < 0 ==> r == "-" + NatToString(-n)
  {
    if n < 0 then "-" + NatToString(-n) else NatToString(n)
  }

  /** The longest prefix of `s` made of digits of the given radix. */
  function DigitPrefix(s: string, radix: Radix): (r: string)
    ensures StartsWith(s, r)
    ensures forall i :: 0 <= i < |r| ==> IsRadixDigit(r[i], radix)
    ensures |r| == |s| || !IsRadixDigit(s[|r|], radix)
  {
    if |s| == 0 || !IsRadixDigit(s[0], radix) then "" else [s[0]] + DigitPrefix(s[1..], radix)
  }

  /** The number a digit string denotes, read most significant digit first. */
  function DigitsValue(ds: string, radix: Radix): nat {
    if |ds| == 0 then 0
    else
      var high := DigitsValue(ds[..|ds| - 1], radix);
      (match radix case Decimal => 10 * high case Hexadecimal => 16 * high) + DigitValue(ds[|ds| - 1])
  }

  /** A JavaScript number as produced by the integer parsers: an integer or `NaN`. */
  datatype NumberOrNaN = Int(value: int) | NaN

  /** Unsigned part of `parseInt`: an optional `0x`/`0X` prefix, then the longest run of digits. */
  function ParseUnsigned(u: string): (r: NumberOrNaN)
    ensures r.Int? ==> r.value >= 0
  {
    var hex := |u| >= 2 && u[0] == '0' && (u[1] == 'x' || u[1] == 'X');
    var radix := if hex then Hexadecimal else Decimal;
    var ds := DigitPrefix(if hex then u[2..] else u, radix);
    if |ds| == 0 then NaN else Int(DigitsValue(ds, radix))
  }

  /**
   * The global `parseInt(s)` with no radix argument: leading white space is
   * skipped, one sign is read, a `0x`/`0X` prefix switches to base 16, and the
   * longest run of digits that follows is read; no digit at all gives `NaN`.
   */
  function ParseInt(s: string): NumberOrNaN {
    var t := TrimStart(s);
    if |t| > 0 && t[0] == '-' then
      match ParseUnsigned(t[1..])
      case Int(m) => Int(-m)
      case NaN => NaN
    else if |t| > 0 && t[0] == '+' then ParseUnsigned(t[1..])
    else ParseUnsigned(t)
  }

  lemma {:induction false} NatToStringValue(n: nat)
    ensures DigitsValue(NatToString(n), Decimal) == n
  {
    var r := NatToString(n);
    if n < 10 {
      DigitCharValue(n);
    } else {
      assert r[..|r| - 1] == NatToString(n / 10);
      DigitCharValue(n % 10);
      NatToStringValue(n / 10);
    }
  }

  lemma {:induction false} DigitPrefixOfDigits(s: string)
    requires forall i :: 0 <= i < |s| ==> IsDigit(s[i])
    ensures DigitPrefix(s, Decimal) == s
  {
    if |s| > 0 {
      DigitPrefixOfDigits(s[1..]);
    }
  }

  /** A run of decimal digits is never read as hexadecimal: its second character is not an `x`. */
  lemma ParseUnsignedDecimal(u: string)
    requires forall i :: 0 <= i < |u| ==> IsDigit(u[i])
    ensures |u| > 0 ==> ParseUnsigned(u) == Int(DigitsValue(u, Decimal))
  {
    assert !(|u| >= 2 && u[0] == '0' && (u[1] == 'x' || u[1] == 'X')) by {
      if |u| >= 2 { assert IsDigit(u[1]); }
    }
    DigitPrefixOfDigits(u);
  }

  lemma ParseUnsignedNat(n: nat)
    ensures ParseUnsigned(NatToString(n)) == Int(n)
  {
    ParseUnsignedDecimal(NatToString(n));
    NatToStringValue(n);
  }

  /** A string that starts with a digit is read without a sign. */
  lemma ParseIntOfDigitFirst(s: string)
    requires |s| > 0 && IsDigit(s[0])
    ensures ParseInt(s) == ParseUnsigned(s)
  {
    assert !IsSpace(s[0]);
    assert TrimStart(s) == s;
  }

  /** Nothing is trimmed from a string that starts with a visible character. */
  lemma TrimStartOfNonSpace(s: string)
    requires |s| > 0 && !IsSpace(s[0])
    ensures TrimStart(s) == s
  {
  }

  /** A leading minus sign negates what follows it. */
  lemma ParseIntOfMinus(s: string, u: string, m: nat)
    requires s == "-" + u && ParseUnsigned(u) == Int(m)
    ensures ParseInt(s) == Int(-(m as int))
  {
    assert s[0] == '-';
    TrimStartOfNonSpace(s);
    assert s[1..] == u;
  }

  lemma ParseIntNonNegative(n: int)
    requires n >= 0
    ensures ParseInt(IntToString(n)) == Int(n)
  {
    assert IntToString(n) == NatToString(n);
    ParseIntOfDigitFirst(NatToString(n));
    ParseUnsignedNat(n);
  }

  lemma ParseIntNegative(n: int)
    requires n < 0
    ensures ParseInt(IntToString(n)) == Int(n)
  {
    ParseUnsignedNat(-n);
    ParseIntOfMinus(IntToString(n), NatToString(-n), -n);
  }

  /** `parseInt` reads back every integer that `toString` renders. */
  lemma IntToStringRoundTrip(n: int)
    ensures ParseInt(IntToString(n)) == Int(n)
  {
    if n < 0 {
      ParseIntNegative(n);
    } else {
      ParseIntNonNegative(n);
    }
  }

  /** Distinct integers render to distinct strings. */
  lemma IntToStringInjective(a: int, b: int)
    requires IntToString(a) == IntToString(b)
    ensures a == b
  {
    IntToStringRoundTrip(a);
    IntToStringRoundTrip(b);
  }
}

=== FILE: wrappers.dfy ===
/**
 * The optional value used wherever the storefront has `null`, `undefined` or
 * a missing entry, and a sequence fact the list proofs share.
 */
module Wrappers {

  datatype Option<+T> = None | Some(value: T) {

    /** The wrapped value, or `default` when there is none (the `x ?? d` and `x || d` idioms). */
    function GetOr(default: T): T {
      match this
      case Some(v) => v
      case None => default
    }
  }

  /** Regrouping a concatenation, stated once so that proofs about recursive filters need not rediscover it. */
  lemma AppendAssociative<T>(x: seq<T>, y: seq<T>, z: seq<T>)
    ensures (x + y) + z == x + (y + z)
  {
  }
}
